=== FILE: README.md ===
# PyRoblox core, modelled in Dafny

This project models the pure, sequential logic of PyRoblox. PyRoblox is a
Python tool that attaches to a running game client and reads and writes the
game's object tree through the client's memory. The model covers the layer
under the memory calls and the GUI code:

- the remote address space: fail-closed reads, all-or-nothing writes, the
  offset table, NUL-terminated strings, the small-string layout and pointer
  arrays (`pyrblx/memory.py`);
- the instance tree: truthiness, the identity cache and class dispatch,
  children, pre-order descendants, first-match search, dotted full names,
  the task scheduler's job scan, the xor-encoded Humanoid health and the
  setters' null guards (`pyrblx/classes.py`);
- the script bytecode container codec and the descriptor objects
  (`pyrblx/subclasses.py`);
- the Luau bytecode signing footer (`pyrblx/Luau/compiler.py`);
- the explorer's record maps and per-tick diff, the search filter and the
  execute history (`pyrblx/main.py`);
- the overlay's dot table and the reconnect loop (`pyrblx/app.py`).

Memory is a finite map from address to byte. An address is in the map when
it is readable and writable. A read that touches an absent address returns
zeros, as the source's readers catch the fault and return 0. Every hash,
compression and allocation call the source makes into a foreign library is
a function-typed parameter. Floating-point values are kept as their 32-bit
patterns.

The files follow the source's structure:

- `bytes.dfy`: modules `Wrappers` and `Bytes`;
- `memory.dfy`, `strings.dfy`, `lists.dfy`, `offsets.dfy`, `text.dfy`:
  the `Memory` class;
- `instances.dfy` (modules `Trees` and `Instances`), `cache.dfy`,
  `decoding.dfy`, `scheduler.dfy`, `humanoid.dfy`, `setters.dfy`:
  `classes.py`;
- `bytecode.dfy`, `descriptors.dfy`: `subclasses.py`;
- `signing.dfy`: `compiler.py`;
- `explorer.dfy`, `search.dfy`, `history.dfy`: `main.py`;
- `app.dfy` (modules `Overlay` and `Connection`): `app.py`.

Three facts about the code shape the model:

- `object_pool`, the identity cache, is filled and never cleared.
- A long string's stored block is reused on rewrite and never freed.
- `readboolmask` and `writeboolmask` always return False (see Left out).

## Model

| member | source | states |
|---|---|---|
| Bytes.FromLEToLE | pyrblx/memory.py:103-107 | a value that fits in n bytes, packed little-endian and read back, is that value |
| Bytes.ToLEFromLE | pyrblx/memory.py:103-107 | the little-endian reading of a byte string, repacked to its length, is that byte string |
| Bytes.U64BytesRoundTrip | pyrblx/memory.py:197-210 | a signed 64-bit value stored as eight bytes reads back as the same signed value |
| Bytes.U64BytesOfRead | pyrblx/memory.py:197-210 | the eight bytes a pointer read came from are exactly the bytes that value is stored as |
| Bytes.U32BytesRoundTrip | pyrblx/memory.py:212-225 | a signed 32-bit value stored as four bytes reads back as the same signed value |
| Bytes.Utf8NoZero | pyrblx/memory.py:379-386 | text without a NUL character encodes to UTF-8 without a zero byte, so the written terminator is the first zero |
| Bytes.Latin1Utf8Ascii | pyrblx/memory.py:379-386 | for ASCII text, the string reader's byte-per-character decoding inverts the writer's UTF-8 encoding |
| Bytes.XorCancel | pyrblx/subclasses.py:131-132 | xoring a byte string twice with the same key restores it |
| Memory.ReadBytes | pyrblx/memory.py:330-334 | a read of n bytes gives n bytes: the stored ones when all are readable, all zeros when any faults |
| Memory.ReadPtr | pyrblx/memory.py:197-201 | a pointer read is a signed 64-bit value, and 0 when any of its bytes faults |
| Memory.ReadPtrZero | pyrblx/memory.py:197-201 | a pointer read is 0 exactly when its eight bytes are zero or unreadable |
| Memory.ReadI32 | pyrblx/memory.py:212-216 | a 32-bit read is a signed 32-bit value, and 0 when any of its bytes faults |
| Memory.WriteBytes | pyrblx/memory.py:336-343 | a byte write succeeds exactly when the whole range is writable; it then stores every byte and touches nothing else, and otherwise changes nothing |
| Memory.WritePtr | pyrblx/memory.py:203-210 | a pointer write succeeds exactly when the value is in the signed 64-bit range and the eight bytes are writable, and leaves the rest of memory alone |
| Memory.WriteI32 | pyrblx/memory.py:218-225 | a 32-bit write succeeds exactly when the value is in the signed 32-bit range and the four bytes are writable |
| Memory.ReadAfterWriteBytes | pyrblx/memory.py:330-343 | a successful byte write is read back by a byte read of the same range |
| Memory.ReadPtrAfterWrite | pyrblx/memory.py:197-210 | a successful pointer write is read back by a pointer read |
| Memory.ReadI32AfterWrite | pyrblx/memory.py:212-225 | a successful 32-bit write is read back by a 32-bit read |
| Memory.ReadBytesFrame | pyrblx/memory.py:336-343 | a write leaves every read of a disjoint range unchanged |
| Text.ContainsOccurs | pyrblx/main.py:545-548 | the substring test holds exactly when the piece occurs at some position of the text |
| Text.JoinSplit | pyrblx/main.py:545-548 | joining the pieces of a split on a character gives the text back |
| Text.SplitJoin | pyrblx/classes.py:231-238 | splitting a join of separator-free pieces gives the pieces back |
| Text.HexRoundTrip | pyrblx/memory.py:167-169 | for every integer, parsing its hex spelling in base 16 gives the integer back |
| Text.Hex | pyrblx/classes.py:106-107 | `hex(n)` is "0x" then at least one digit, with a leading "-" for a negative n; parsing it back gives n (Text.HexRoundTrip) |
| Text.ParseHex | pyrblx/memory.py:169 | the empty text is a ValueError, which is None; on every `hex` spelling it inverts `hex` (Text.HexRoundTrip) |
| Offsets.GetOffset | pyrblx/memory.py:167-169 | a name missing from the table gives offset 0; a present name gives its entry parsed in base 16, and a malformed entry raises |
| Offsets.GetOffsetHex | pyrblx/memory.py:167-169 | an entry written as the hex spelling of an offset is looked up as that offset |
| Offsets.LoadDefaults | pyrblx/memory.py:46-49 | the three descriptor-list offsets are present afterwards, entries already loaded are kept, and only those three names are added |
| Offsets.LoadDefaultsValues | pyrblx/memory.py:46-49 | on a table without them, the defaults look up as 0x9C0, 0xA68 and 0xB10 |
| Offsets.LoadDefaultsIdempotent | pyrblx/memory.py:46-49 | loading the defaults twice is the same as loading them once |
| Strings.CString | pyrblx/memory.py:345-363 | the bytes collected from an address are the nonzero bytes before the first zero or the first fault |
| Strings.CStringUnique | pyrblx/memory.py:345-363 | a scan from a given address collects only one byte string |
| Strings.ReadString | pyrblx/memory.py:345-363 | address 0 reads as the empty string, and a read string never holds a NUL |
| Strings.ReadString2 | pyrblx/memory.py:365-377 | address 0 reads as the empty string, and a read never holds a NUL, whether it reads inline or through the pointer |
| Strings.WriteString | pyrblx/memory.py:379-386 | address 0 fails and writes nothing; otherwise the UTF-8 bytes and a NUL are written all or nothing |
| Strings.WriteStringOk | pyrblx/memory.py:379-386 | the write succeeds exactly when the address is nonzero and the bytes plus the NUL are writable |
| Strings.ReadStringAfterWrite | pyrblx/memory.py:379-386 | a successful write of NUL-free text is read back by the NUL-terminated reader |
| Strings.Allocate | pyrblx/memory.py:121-132 | a fresh block adds exactly its n zero-filled, writable bytes and keeps all other memory |
| Strings.WriteString2 | pyrblx/memory.py:388-428 | address 0 or a failed length write fails and writes nothing more; short values never touch heap memory; a block written through is the stored pointer or the allocator's nonzero result, and a freed block means failure |
| Strings.WriteString2Inline | pyrblx/memory.py:397-401 | a value below 16 encoded bytes is read back by the small-string reader, and the write succeeds whenever the slot is writable |
| Strings.WriteIndirectReused | pyrblx/memory.py:402-426 | with a pointer already stored, that block is reused, nothing is freed, the write succeeds exactly when the block is writable, and the text is read back through the pointer |
| Strings.WriteIndirect | pyrblx/memory.py:402-426 | the long-string branch always touches a block: a reused one is the nonzero stored pointer, an allocated one is the allocator's nonzero result, and a freed one means failure; Strings.WriteIndirectReused and the WriteAllocated lemmas give its read-back |
| Strings.WriteAllocatedOk | pyrblx/memory.py:404-424 | the allocation path succeeds exactly when the new address fits and the slot's pointer word is writable |
| Strings.WriteAllocatedPointer | pyrblx/memory.py:404-424 | after a successful allocation path the new block's address is stored at +0 |
| Strings.WriteAllocatedText | pyrblx/memory.py:404-424 | after a successful allocation path the new block holds the text |
| Strings.WriteString2FallbackLosesText | pyrblx/memory.py:410-411 | the allocation-failure fallback reports success, yet the stored value reads back empty for an address with a zero low byte and a value of 16 to 23 bytes |
| Strings.WriteString2Fixed | pyrblx/memory.py:388-428 | the corrected write never takes the fallback |
| Strings.WriteString2FixedAgrees | pyrblx/memory.py:397-426 | for a short value, a slot already holding a block or a successful allocation, `writestring2` as written and the corrected writer give the same result |
| Strings.WriteString2FixedReadBack | pyrblx/memory.py:388-428 | whenever the corrected write reports success, the small-string reader reads the value back |
| Lists.ScanSlots | pyrblx/memory.py:430-446 | the scan reads exactly the slots start, start+stride, ... in order and stops at the first slot at or beyond end |
| Lists.ScanMember | pyrblx/memory.py:430-446 | a value is scanned exactly when some slot below end holds it |
| Lists.NonZeroIdentity | pyrblx/memory.py:430-446 | the zero filter keeps a list intact exactly when it holds no zero |
| Lists.ReadList | pyrblx/memory.py:430-446 | bounds with start at or beyond end give the empty list, and a read list never holds a null pointer |
| Lists.ReadListLoop | pyrblx/memory.py:430-446 | the source's while loop over the slots computes the nonzero pointers of the slot scan |
| Lists.WriteList | pyrblx/memory.py:448-463 | a list write fails exactly at address 0, and never maps a new address |
| Lists.WriteListHeader | pyrblx/memory.py:448-463 | after a list write the start pointer is unchanged and the end pointer is start plus 8 per element |
| Lists.WriteListSlots | pyrblx/memory.py:448-463 | after a list write, slot k from the start pointer holds element k |
| Lists.WriteListReadBack | pyrblx/memory.py:448-463 | a list written into writable, non-overlapping slots is read back as exactly its nonzero addresses, in order |
| Trees.Walk | pyrblx/classes.py:262-269 | a completed walk lists every child of the start |
| Trees.WalkPreOrder | pyrblx/classes.py:262-269 | with a depth bound at least the tree's height, the walk from a root is the tree's pre-order listing |
| Trees.PreOrderLength | pyrblx/classes.py:262-269 | the descendant list names every node but the root once, so its length is the sum over children of one plus their descendants |
| Trees.WalkNonZero | pyrblx/classes.py:262-269 | when no child list holds the null address, no walk lists it |
| Trees.WalkSelfChild | pyrblx/classes.py:262-269 | an address among its own children exhausts the walk's depth bound, whatever the bound, as the source's recursion never ends |
| Trees.FirstOr0 | pyrblx/classes.py:271-278 | the result is the first element that matches, or 0 exactly when none matches |
| Trees.DottedChain | pyrblx/classes.py:231-238 | along a parent chain the full name is the chain's names joined by "." |
| Trees.Dotted | pyrblx/classes.py:231-238 | a failing parent read fails the full name, and a full name is at least as long as the own name; along a parent chain it is the names joined by "." (Trees.DottedChain) |
| Trees.DottedSelfParent | pyrblx/classes.py:231-238 | an address that is its own truthy parent exhausts the full name's depth bound, whatever the bound, as the source's recursion never ends |
| Instances.Truthy | pyrblx/classes.py:94-95 | an instance is truthy exactly when its address is positive; the null instance is falsy and never cached (Cache.NewNullFresh), and a descriptor is truthy on the same test (Descriptors.DescriptorTruthyAsInstance) |
| Instances.ClassDescriptor | pyrblx/classes.py:109-114 | a malformed offset gives the null descriptor |
| Instances.ClassName | pyrblx/classes.py:116-126 | a malformed offset gives "unknown", and a class name never holds a NUL |
| Instances.Name | pyrblx/classes.py:128-135 | a malformed offset gives "", and a name never holds a NUL |
| Instances.Parent | pyrblx/classes.py:148-152 | the parent read raises exactly when the Parent offset is malformed |
| Instances.Children | pyrblx/classes.py:240-260 | a malformed offset gives no children, and no child is the null address |
| Instances.ChildrenSlots | pyrblx/classes.py:240-260 | the children are the nonzero pointers of the slots from the start pointer at stride 0x10 below the end pointer, in array order |
| Instances.Descendants | pyrblx/classes.py:262-269 | the descendants never hold the null address and include every child |
| Instances.DescendantsPreOrder | pyrblx/classes.py:262-269 | for a snapshot whose child lists form a tree, the descendants are the tree's pre-order listing |
| Instances.DescendantsSelfChild | pyrblx/classes.py:262-269 | an instance listed among its own children exhausts the descendant walk's depth bound, whatever the bound |
| Instances.FindFirstChild | pyrblx/classes.py:271-278 | the result is the first searched instance with the name, or the null instance exactly when no searched instance has it |
| Instances.FindFirstChildOfClass | pyrblx/classes.py:280-287 | the result is the first searched instance of the class, or the null instance exactly when none has it |
| Instances.FullName | pyrblx/classes.py:231-238 | a malformed Parent offset makes the full name fail, and a full name is at least as long as the instance's own name |
| Instances.FullNameChain | pyrblx/classes.py:231-238 | the full name of the last instance of a parent chain is the chain's names joined by ".", just the own name for a root |
| Instances.FullNameSelfParent | pyrblx/classes.py:231-238 | an instance that is its own truthy parent exhausts the full name's depth bound, whatever the bound |
| Cache.ClassType | pyrblx/classes.py:976-996 | "Part" is served by the BasePart wrapper, and the generic wrapper is never registered |
| Cache.ClassTypeComplete | pyrblx/classes.py:976-996 | every wrapper other than the generic one is registered under its own class name |
| Cache.GetInstance | pyrblx/memory.py:183-195 | a cached address returns the cached wrapper and changes nothing; a new one is wrapped, upgraded by class name and cached; the cache stays consistent |
| Cache.GetInstanceIdentity | pyrblx/memory.py:183-195 | asking twice for the same address returns the identical object |
| Cache.GetInstanceDistinct | pyrblx/memory.py:183-195 | different addresses get different objects |
| Cache.New | pyrblx/classes.py:100-104 | address 0 gives a fresh, uncached, falsy generic instance; any other address goes through the cache |
| Cache.NewNullFresh | pyrblx/classes.py:100-104 | two null instances are distinct objects, and neither is a cached wrapper |
| Cache.WrapAllCaches | pyrblx/classes.py:240-260 | wrapping children caches every one of them and keeps every earlier wrapper |
| Cache.WrapAll | pyrblx/classes.py:252-255 | one wrapper per address; from a consistent pool, the i-th wraps the i-th address and the pool stays consistent (Cache.WrapAllCaches) |
| Decoding.DecodeUtf8 | pyrblx/classes.py:25-37 | decoding the UTF-8 encoding of any text, dropping errors, gives the text back |
| Decoding.DecodeIgnore | pyrblx/classes.py:36 | decoding with errors dropped never yields more characters than bytes; it inverts the UTF-8 encoder (Decoding.DecodeUtf8) and skips a stray byte (Decoding.DecodeSkipsStray) |
| Decoding.DecodeSkipsStray | pyrblx/classes.py:25-37 | a byte that cannot start a sequence is dropped and decoding carries on |
| Scheduler.RStripNul | pyrblx/classes.py:25-37 | stripping gives a prefix that does not end in NUL, and everything cut off is NUL |
| Scheduler.JobName | pyrblx/classes.py:25-37 | a malformed offset gives "", and a job name is at most 100 characters |
| Scheduler.NameText | pyrblx/classes.py:25-37 | the text has at most 100 characters and no trailing NUL; Scheduler.JobNameReadBack reads a stored name back |
| Scheduler.NameTextTruncates | pyrblx/classes.py:25-37 | a name of more than 100 bytes is cut to its first 100 bytes before decoding |
| Scheduler.JobNameReadBack | pyrblx/classes.py:25-37 | a job whose name field holds a NUL-free name of at most 100 bytes is named exactly that |
| Scheduler.KeepJobs | pyrblx/classes.py:39-57 | a job is kept exactly when it is nonzero and its name is not empty |
| Scheduler.Jobs | pyrblx/classes.py:39-57 | bounds with start at or beyond end give no jobs, and no job is the null address |
| Scheduler.JobsStart | pyrblx/classes.py:11-16 | a malformed JobsPointer offset or an unreadable pointer word gives 0 |
| Scheduler.JobsEnd | pyrblx/classes.py:18-23 | a malformed JobsPointer offset or an unreadable word eight bytes on gives 0 |
| Scheduler.JobsBoundsReadBack | pyrblx/classes.py:11-23 | the table bounds are the two words stored at the base plus the JobsPointer offset: storing a start and an end there reads them back |
| Scheduler.JobsSlots | pyrblx/classes.py:39-57 | the jobs are exactly the named nonzero pointers in the slots at stride 0x10 below the end pointer |
| Scheduler.Job | pyrblx/classes.py:59-64 | the result is the first job in scan order whose name contains the query, or 0 exactly when no job's name contains it |
| Scheduler.JobEmptyQuery | pyrblx/classes.py:59-64 | an empty query finds the first job |
| Health.HealthAt | pyrblx/classes.py:446-459 | a null health pointer decodes as 0, and a pointer to a zero word decodes as the pointer's own low 32 bits |
| Health.HealthBits | pyrblx/classes.py:446-459 | a malformed offset gives the bits of 0.0 |
| Health.HealthDecoded | pyrblx/classes.py:446-459 | with a nonzero pointer and target, the health bits are the xor of their low 32 bits |
| Health.SetHealthAt | pyrblx/classes.py:461-489 | a null health pointer fails and writes nothing, and no address is added to memory |
| Health.SetHealth | pyrblx/classes.py:461-489 | a null instance or a malformed offset fails and writes nothing |
| Health.SetHealthThroughPointer | pyrblx/classes.py:461-489 | with a nonzero target that the write does not overlap, the write succeeds and the health then reads as the written bits |
| Health.SetHealthInSlot | pyrblx/classes.py:461-489 | with a zero target, the slot keeps its high 32 bits and takes the new bits as its low 32 bits |
| Health.SetHealthNullPointer | pyrblx/classes.py:461-489 | a null health pointer: the write fails, memory is unchanged and the health stays 0 |
| Setters.SetName | pyrblx/classes.py:137-146 | a null instance or a malformed offset fails and writes nothing; otherwise the Name field's string object is rewritten by `writestring2` as written |
| Setters.SetNameReadBack | pyrblx/classes.py:137-146 | a successful name write that does not take the allocation-failure fallback is read back by the name reader |
| Setters.NameObjectRead | pyrblx/classes.py:128-135 | the string the name setter writes is the one the name getter reads |
| Setters.SetParent | pyrblx/classes.py:154-161 | a null instance or a malformed offset fails and writes nothing |
| Setters.SetParentOk | pyrblx/classes.py:154-161 | the write succeeds exactly when the guard passes, the offset parses, the value fits and the field is writable |
| Setters.SetParentReadBack | pyrblx/classes.py:148-161 | after a successful parent write, the parent read returns the parent written |
| Setters.ReadF32 | pyrblx/memory.py:242-246 | a float read is a 32-bit pattern, the pattern of 0.0 on a fault |
| Setters.WriteF32 | pyrblx/memory.py:248-255 | a float write succeeds exactly when its four bytes are writable |
| Setters.GetFloat | pyrblx/classes.py:379-384 | a malformed offset reads as 0.0 |
| Setters.SetFloat | pyrblx/classes.py:386-395 | a null instance fails and writes nothing; the setter reports success exactly when the address is nonzero and the offset parses |
| Setters.SetFloatReadBack | pyrblx/classes.py:379-395 | a float setter whose field is writable is read back by the matching getter |
| Setters.SetFloatIgnoresFault | pyrblx/classes.py:386-395 | a faulting float write still reports success and leaves memory unchanged |
| Bytecode.StepInverse | pyrblx/subclasses.py:148-151 | stepping a byte back by 41*i modulo 256 undoes stepping it forward, and the other way round |
| Bytecode.Keystream | pyrblx/subclasses.py:131-132 | key byte i is digest byte i mod 4 plus 41*i, modulo 256 |
| Bytecode.MaskTwice | pyrblx/subclasses.py:131-132 | masking twice with the same digest bytes restores every byte |
| Bytecode.Mask | pyrblx/subclasses.py:131-132 | masking keeps the length; it is an involution (Bytecode.MaskTwice) |
| Bytecode.Header | pyrblx/subclasses.py:134-136 | the header has four bytes; Bytecode.HeaderKey undoes it (Bytecode.HeaderKeyOfHeader) |
| Bytecode.HeaderKey | pyrblx/subclasses.py:148-151 | the recovered key has four bytes; it and Bytecode.Header are mutual inverses (Bytecode.HeaderKeyOfHeader, Bytecode.HeaderOfHeaderKey) |
| Bytecode.Seal | pyrblx/subclasses.py:131-138 | sealing keeps the length; decoding a sealed buffer unmasks it (Bytecode.DecodeSealed) |
| Bytecode.HeaderKeyOfHeader | pyrblx/subclasses.py:148-151 | recovering the digest bytes from a header undoes the header's construction |
| Bytecode.HeaderOfHeaderKey | pyrblx/subclasses.py:134-137 | building a header from recovered digest bytes gives the header back |
| Bytecode.Payload | pyrblx/subclasses.py:123-126 | the payload holds the header bytes, then the raw length, then the compressed bytes |
| Bytecode.PayloadTail | pyrblx/subclasses.py:123-126 | bytes 4 to 7 of the payload are the raw length, little-endian, whatever the header bytes |
| Bytecode.Encode | pyrblx/subclasses.py:119-140 | encoding fails exactly when the raw length does not fit in 32 bits, and the output is 8 bytes longer than the compressed payload |
| Bytecode.Decode | pyrblx/subclasses.py:142-169 | an input shorter than 8 bytes decodes to nothing, and so does one whose digest does not match |
| Bytecode.DecodeSealed | pyrblx/subclasses.py:142-169 | decoding a sealed buffer hashes the unmasked buffer with "RSB1" in front and decompresses its tail |
| Bytecode.DecodeEncode | pyrblx/subclasses.py:119-169 | decoding an encoded bytecode gives it back only when the hash cannot tell "RSB1" from the zero placeholder and decompression inverts compression |
| Bytecode.EncodeHashesPlaceholder | pyrblx/subclasses.py:124-128 | with a hash that sees the first byte and a storing compressor, the encoded bytecode decodes to nothing |
| Bytecode.EncodeFixed | pyrblx/subclasses.py:119-140 | the corrected encoder fails exactly when the raw length does not fit in 32 bits, and has the same output length |
| Bytecode.DecodeEncodeFixed | pyrblx/subclasses.py:119-169 | with the corrected encoder, decoding gives the raw bytecode back whenever decompression inverts compression |
| Descriptors.DescriptorName | pyrblx/subclasses.py:13-20 | a descriptor name never holds a NUL |
| Descriptors.DescriptorList | pyrblx/classes.py:177-229 | a malformed offset gives no descriptors, and none is the null address |
| Descriptors.FindDescriptor | pyrblx/classes.py:177-229 | the result has the kind asked for and is the first listed descriptor with the name, or address 0 exactly when none has it |
| Descriptors.MissingDescriptorFalsy | pyrblx/subclasses.py:10-11 | a lookup that finds nothing yields a falsy descriptor |
| Descriptors.TruthyDescriptorFound | pyrblx/subclasses.py:46-47 | a truthy lookup result is a listed descriptor with the name asked for |
| Descriptors.DescriptorTruthyAsInstance | pyrblx/subclasses.py:101-102 | a descriptor is truthy exactly when its address is positive, as an instance is |
| Signing.Rotl8Reduces | pyrblx/Luau/compiler.py:12-15 | the rotation depends on the shift only modulo 8 |
| Signing.Rotl8 | pyrblx/Luau/compiler.py:12-15 | an 8-bit left rotation: bit k of the result is bit k - s modulo 8 of the value (Signing.Rotl8Bits), undone by rotating by 8 - s (Signing.Rotl8Inverse) |
| Signing.Rotl8Bits | pyrblx/Luau/compiler.py:12-15 | bit k of the rotated byte is bit k minus the shift's low three bits, modulo 8, of the original |
| Signing.Rotl8Identity | pyrblx/Luau/compiler.py:12-15 | a rotation by 0 leaves the byte unchanged |
| Signing.Rotl8Inverse | pyrblx/Luau/compiler.py:12-15 | rotating by s and then by 8 - s restores the byte, so each rotation is a bijection |
| Signing.LaneShift | pyrblx/Luau/compiler.py:43-66 | lane i rotates by a shift between (i & 3) + 1 and (i & 3) + 4, always within 1 to 7 |
| Signing.LaneUniform | pyrblx/Luau/compiler.py:43-66 | all four lane formulas rotate the complement of digest byte xor key byte by the lane's shift |
| Signing.Lane | pyrblx/Luau/compiler.py:44-66 | each of the four written-out lanes is the uniform formula (Signing.LaneUniform) and is invertible (Signing.LaneInverse) |
| Signing.LaneInverse | pyrblx/Luau/compiler.py:44-66 | rotating a lane back by its shift, complementing and xoring the key byte recovers the digest byte, so no two digest bytes give the same lane |
| Signing.Transformed | pyrblx/Luau/compiler.py:43-66 | the transformed digest has 32 bytes, byte i computed by lane i |
| Signing.Unpack32Pack32 | pyrblx/Luau/compiler.py:68-73 | packing a word little-endian and unpacking it gives the word back |
| Signing.Footer | pyrblx/Luau/compiler.py:68-73 | the footer is 40 bytes and ends with the 32 transformed bytes |
| Signing.FooterWords | pyrblx/Luau/compiler.py:68-73 | the footer's two leading words differ by MAGIC_A xor MAGIC_B, whatever the digest |
| Signing.Sign | pyrblx/Luau/compiler.py:38-76 | empty bytecode signs to empty; otherwise the bytecode is kept unchanged and followed by the 40-byte footer |
| Signing.SignedLanes | pyrblx/Luau/compiler.py:43-76 | byte 8 + i of a signed bytecode's footer is the complement of digest byte i xor its key byte, rotated by the lane shift |
| Explorer.Record | pyrblx/main.py:379-380 | a load enters the instance in the forward map and its new row in the reverse map, and keeps every row backed |
| Explorer.LoadButton | pyrblx/main.py:334-397 | loading an instance records it and its whole subtree, using one new row per node |
| Explorer.LoadChildren | pyrblx/main.py:382-386 | the child loop records every node below the children, one new row per node |
| Explorer.DeleteButton | pyrblx/main.py:399-407 | deleting removes the instance from the forward map and its row from the reverse map, does nothing for an unrecorded instance, and keeps the maps inverse |
| Explorer.SubtreesAddrs | pyrblx/main.py:409-412 | the first loop of a tick visits the nodes of the walked list in order |
| Explorer.UpdateStep | pyrblx/main.py:413-439 | a node seen last tick is only relabelled; a new node is loaded exactly when its parent has a record, it then gains a record, and only its subtree gains records |
| Explorer.Refresh | pyrblx/main.py:412-439 | the first loop of a tick never drops a record and preserves the invariants that every recorded instance's row maps back to it and every row is numbered below the counter |
| Explorer.Prune | pyrblx/main.py:441-444 | the deletion loop removes exactly the records of the nodes that are gone since last tick, and keeps the maps inverse |
| Explorer.UpdateButton | pyrblx/main.py:409-446 | a tick returns the freshly walked descendant list and keeps every row backed |
| Explorer.UpdateButtonKeys | pyrblx/main.py:409-446 | a recorded node still present stays recorded, a node gone since last tick has no record, every new record is of a walked node, and in an enabled tick every walked node new since last tick whose parent was recorded gains a record |
| Explorer.RefreshAdds | pyrblx/main.py:413-426 | the first loop gives a record to every visited node that is new since last tick and whose parent was recorded before the loop |
| Explorer.DoubleLoad | pyrblx/main.py:415-426 | a new node with a new child is loaded twice in one tick, so maps that were inverse stop being inverse |
| Explorer.RecordFixed | pyrblx/main.py:379-380 | the corrected recording drops the stale row of an instance loaded again, and keeps the maps inverse |
| Explorer.RecordFixedAgrees | pyrblx/main.py:379-380 | the corrected recording is the source's for an instance not yet recorded |
| Explorer.UpdateButtonFixed | pyrblx/main.py:409-446 | a tick over the corrected recording returns the walked list and keeps the two maps mutual inverses |
| Explorer.DescendantsFast | pyrblx/main.py:533-543 | the fast walk lists the tree in pre-order, the same list the classes' descendant walk gives |
| Explorer.DescendantsFastBounded | pyrblx/main.py:533-543 | on any child lists, cyclic ones included, the fast walk with a depth bound gives exactly the bounded walk of `get_descendants` |
| Search.SearchMeaning | pyrblx/main.py:545-548 | an instance matches exactly when the query is empty or some lowered piece of it occurs in the lowered name and class and the address printed by `get_address` in hex |
| Search.TestSearch | pyrblx/main.py:545-548 | the empty query matches every instance; otherwise a match is a piece occurring in the haystack (Search.SearchMeaning) |
| Search.TestSearchApp | pyrblx/app.py:607-610 | a match is exactly a piece of the lowered query occurring in the lowered name, class and hex address |
| Search.HexQueryMatches | pyrblx/classes.py:106-107 | the printed address always holds "0x", so the query "0x" matches every instance |
| Search.EmptyPieces | pyrblx/main.py:545-548 | a leading, trailing or doubled space leaves an empty piece in the query |
| Search.EmptyPieceMatches | pyrblx/main.py:545-548 | a query with an empty piece matches every instance |
| Search.SearchAgrees | pyrblx/app.py:607-610 | the overlay's filter, which has no empty-query test, agrees with the explorer's on every query |
| History.Initial | pyrblx/main.py:55-56 | the history starts empty at position 0 |
| History.From | pyrblx/main.py:924-929 | the slice from the position is the tail from there, and empty past the end |
| History.ExecuteCode | pyrblx/main.py:924-929 | empty text changes nothing; otherwise the text is the first entry, the position is 0, and the length is the old length minus the old position plus one |
| History.HistoryUp | pyrblx/main.py:269-272 | an empty history shows nothing; otherwise the entry at the position is shown and the position moves one older, stopping at the oldest |
| History.HistoryDown | pyrblx/main.py:273-276 | an empty history shows nothing; otherwise the entry at the position is shown and the position moves one newer, stopping at the newest |
| History.UpThenDown | pyrblx/main.py:269-276 | away from the oldest entry, up then down returns to the same position |
| History.DownThenUp | pyrblx/main.py:269-276 | away from the newest entry, down then up returns to the same position |
| History.ExecuteThenUp | pyrblx/main.py:924-929 | after executing a text, the up key first shows that text, and the older entries follow unchanged |
| Overlay.SetDot | pyrblx/app.py:58-64 | the table is cleared and False returned exactly when it holds only that owner; otherwise that owner's dot is the only one; never more than one dot |
| Overlay.SetDotTwice | pyrblx/app.py:58-64 | setting the same owner twice shows the dot and then hides it, unless it was already the only one shown |
| Overlay.AddDot | pyrblx/app.py:66-70 | a present owner is removed, an absent one is added, and other owners' dots are kept |
| Overlay.AddDotTwice | pyrblx/app.py:66-70 | two toggles of one owner restore the set of owners, and the whole table when the owner was absent |
| Connection.Start | pyrblx/app.py:82-88 | the application starts disabled and uninitialised, with both counters at 0 |
| Connection.Update | pyrblx/app.py:352-383 | a disabled tick does nothing; while disconnected the retry counter runs to the frame rate and then an attach is tried, a success resetting the attempts and the tenth failure on showing the failed status; a connected tick runs the step hook exactly when the DataModel is non-null |
| Connection.UpdateKeepsRetry | pyrblx/app.py:355-360 | a retry counter in [0, fps) stays there after a tick |
| Connection.RunKeepsRetry | pyrblx/app.py:355-360 | from a counter in range, the retry counter stays in [0, fps) over any run |
| Connection.EnabledRetryBelowFps | pyrblx/app.py:352-360 | with the 60-frame rate `__init__` sets (app.py line 85), a session started and then enabled keeps its retry counter in [0, 60) over any run |
| Connection.AttemptsGrow | pyrblx/app.py:365-369 | each failed attempt adds one with no cap, and from the tenth on the failed status is shown |
| Connection.RunCounts | pyrblx/app.py:378-383 | over any run the init hook runs at most once in the session's life, and the step hook runs on every live tick |

## Left out

- Process discovery, attach, memory protection and remote threads
  (`pyrblx/memory.py` lines 65-165) are OS calls. Every mapped address is
  taken to be readable and writable once protection is requested.
- The allocator is the parameter `alloc`: 0 for a failed allocation,
  otherwise the address of a fresh block. `free` only unmaps the block.
- Offset download and JSON loading are network and file I/O. The model
  starts from an already-loaded offset table.
- xxhash, zstd and blake3 are foreign libraries. They are function-typed
  parameters, and compression's round trip appears only as a hypothesis.
- Floating-point values are kept as 32-bit patterns. The float
  reinterpretation in the health field, and all vector, CFrame, position and
  size work, are not modelled because IEEE semantics are not needed for the
  properties above.
- `readboolmask` and `writeboolmask` always fail in the code, which ands
  `bytes` with an integer and swallows the error. Their intended bit
  semantics are not modelled.
- The setters for max health, position, size, value, transparency,
  collision and the other float and vector fields are not modelled. The
  guarded setters above (name, parent, gravity, walk speed, jump power,
  health) cover the null-address guard they share.
- Setters.SetNameReadBack: excludes the allocation-failure fallback of
  `writestring2`, because there a reported success can lose the text (see
  Findings).
- `Compiler.compile`, `BoundFunction.execute`, the websocket, teleport and
  input modules, and the ESP, fly and search threads are subprocesses,
  networking, Win32 input and concurrency.
- The `eval`/`exec` part of `executeCode` runs arbitrary Python. Only the
  history bookkeeping is modelled.
- Qt widgets: row building, relabelling, `findSearch`, `filterSearch`,
  `selectVariable`, the search-based hiding at the end of `loadButton`, and
  `processEvents`. A row is a number drawn from a counter. Qt's deleted-
  widget test is taken to be always false.
- Explorer.UpdateButton: the explorer's `enabled` flag is read once per
  tick. The source re-reads it on every iteration (pyrblx/main.py:383,
  :413), but nothing clears it after `enable` sets it (pyrblx/app.py:327),
  so one read per tick gives the same result.
- Explorer.DescendantsFast: takes the snapshot as a tree, so a child list
  with a cycle is excluded. There the source recurses until the
  `RecursionError` is swallowed by `get_children`'s handler
  (pyrblx/classes.py:257-258) and returns a truncated list.
  Explorer.DescendantsFastBounded covers every child list with a depth
  bound instead.
- Strings.WriteString, Strings.WriteString2 and Setters.SetName: text is a
  sequence of Unicode scalar values, so a lone surrogate cannot occur. The
  source's `encode('utf-8')` raises on one, and the writers then return
  False without writing (pyrblx/memory.py:379-386, 388-428); that error
  path is not modelled.
- Explorer.UpdateButton, Explorer.UpdateButtonKeys, Explorer.UpdateButtonFixed,
  Explorer.LoadButton, Explorer.LoadChildren and Explorer.Subtrees: take the
  walked snapshot as a tree. A cyclic snapshot, which the source truncates
  at the recursion limit, is not modelled for the explorer's maps.
- Trees.Walk, Trees.Dotted, Instances.Descendants and Instances.FullName:
  a depth bound stands for Python's recursion limit, and exhausting it is
  None. In the source the `RecursionError` usually strikes inside a
  reader's handler (pyrblx/memory.py:198-201, pyrblx/classes.py:257-258),
  which turns it into a null parent or an empty child list, so the result
  is truncated rather than failed. Which prefix survives depends on the
  interpreter's stack and is not modelled.
- Trees.WalkSelfChild: states only that the depth bound is exhausted, not
  the truncated list the source returns.
- Trees.DottedSelfParent: states only that the depth bound is exhausted,
  not the truncated name the source returns.
- Instances.DescendantsSelfChild: states only that the depth bound is
  exhausted, not the truncated list the source returns.
- Instances.FullNameSelfParent: states only that the depth bound is
  exhausted, not the truncated name the source returns.
- Connection.Update: takes the DataModel as an address, 0 when absent. The
  source's `get_datamodel` returns the integer 0 when the base or the
  scheduler is missing (pyrblx/memory.py:171-175), and `.address` on it
  then raises at pyrblx/app.py:375 before any hook runs; that exception is
  not modelled.
- Text.Lower lowers ASCII letters only. Python's `str.lower` also lowers
  other scripts.
- `get_offset`'s base-16 parse accepts a sign, an optional 0x or 0X prefix
  and hex digits. Python's underscores and surrounding whitespace are not
  accepted.
- Signing: bytes are bit vectors. The model does not check the source's
  Python integer masks separately from the 8- and 32-bit operations they
  denote.
- main.py calls a three-argument `addDot` and an `overlay.sections` that
  `Overlay` in `pyrblx/app.py` does not define. The model follows
  `Overlay` as written.

## Findings

| source | as written | input that shows it | evidently intended | confidence | as-written member | corrected member |
|---|---|---|---|---|---|---|
| pyrblx/subclasses.py:124-128 | `encode` hashes the payload while bytes 0..3 hold a zero placeholder. `decode` unmasks those bytes to "RSB1" and hashes that instead. | a hash that looks at the first byte, a compressor that stores its input, raw bytecode [7]: the encoded output decodes to empty | the digest is taken over the buffer exactly as `decode` will see it, so decoding an encoding gives the raw bytes back | not executed | Bytecode.EncodeHashesPlaceholder | Bytecode.DecodeEncodeFixed |
| pyrblx/memory.py:410-411 | when allocation fails, `writestring2` writes the characters inline and stores the slot's own address over their first eight bytes, then reports success | a slot address with a zero low byte and a value of 16 to 23 UTF-8 bytes: the call reports success and the value then reads back as "" | an allocation failure reports failure and leaves the characters alone | not executed | Strings.WriteString2FallbackLosesText | Strings.WriteString2FixedReadBack |
| pyrblx/main.py:415-426 | a node new in this tick is loaded with its whole subtree, and the same loop then reaches each of its descendants, which are new too and now have a recorded parent, so they are loaded again | root 1 recorded, then a new child 2 with a new child 3 in one tick: 3 gets two rows, and the first row's reverse entry is left behind | each instance has exactly one row, so the forward and reverse maps stay mutual inverses | not executed | Explorer.DoubleLoad | Explorer.UpdateButtonFixed |

=== FILE: app.dfy ===
/**
 * The overlay's dot table (`Overlay.setDot` and `Overlay.addDot` in
 * pyrblx/app.py): each owner instance maps to a callable that yields the
 * dot's coordinates. Owners are compared by identity, which the identity
 * cache makes comparison of addresses; the callables are left abstract.
 */
module Overlay {

  /** `setDot`: the same single owner again clears the table and reports False; anything else makes that owner the only one. */
  function SetDot<K(==), V>(dots: map<K, V>, owner: K, dot: V): (r: (bool, map<K, V>))
    ensures !r.0 <==> dots.Keys == {owner}
    ensures !r.0 ==> r.1 == map[]
    ensures r.0 ==> r.1.Keys == {owner} && r.1[owner] == dot
    ensures |r.1.Keys| <= 1
  {
    SingleOwner(dots, owner);
    if |dots| == 1 && owner in dots then (false, map[]) else (true, map[owner := dot])
  }

  /** `addDot`: toggles the owner's membership and leaves every other owner's dot alone. */
  function AddDot<K(==), V>(dots: map<K, V>, owner: K, dot: V): (r: map<K, V>)
    ensures owner in dots ==> r.Keys == dots.Keys - {owner}
    ensures owner !in dots ==> r.Keys == dots.Keys + {owner} && r[owner] == dot
    ensures forall k :: k in dots && k != owner ==> k in r && r[k] == dots[k]
  {
    if owner in dots then dots - {owner} else dots[owner := dot]
  }

  /** A single-owner table holds exactly that owner. */
  lemma SingleOwner<K, V>(dots: map<K, V>, owner: K)
    ensures |dots| == 1 && owner in dots <==> dots.Keys == {owner}
  {
    if dots.Keys == {owner} {
      assert |dots.Keys| == 1;
    }
    if |dots| == 1 && owner in dots {
      var others := dots.Keys - {owner};
      assert |dots.Keys| == |others| + 1;
    }
  }

  /** Setting the same owner twice shows the dot and then hides it, unless it was already the only one shown. */
  lemma SetDotTwice<K, V>(dots: map<K, V>, owner: K, dot: V, dot': V)
    ensures dots.Keys != {owner} ==> SetDot(SetDot(dots, owner, dot).1, owner, dot') == (false, map[])
    ensures dots.Keys == {owner} ==> SetDot(SetDot(dots, owner, dot).1, owner, dot') == (true, map[owner := dot'])
  {
  }

  /** Two toggles of one owner restore the set of owners, and the table itself when the owner was absent. */
  lemma AddDotTwice<K, V>(dots: map<K, V>, owner: K, dot: V, dot': V)
    ensures AddDot(AddDot(dots, owner, dot), owner, dot').Keys == dots.Keys
    ensures owner !in dots ==> AddDot(AddDot(dots, owner, dot), owner, dot') == dots
  {
  }
}

/**
 * The reconnect loop of `Application.update` (pyrblx/app.py): while the game
 * process is closed a retry counter runs up to the frame rate, and each time
 * it gets there an attempt to attach is made; once attached, every tick with
 * a non-null DataModel runs `onStep`, the first one also `onInit`. Whether
 * the process is open, whether attaching succeeds and the DataModel's
 * address are inputs of each tick.
 */
module Connection {

  /** `self.fps`, the timer's frame rate. */
  const Fps: int := 60

  /** The failed-connection status is shown from this attempt on. */
  const MaxAttempts: int := 10

  datatype Session = Session(enabled: bool, retry: int, attempts: int, initialized: bool)

  /** What a tick does besides updating the counters: status texts and the subclass hooks. */
  datatype Event = Connecting(attempt: int) | Attached | ConnectionFailed | OnInit | OnStep

  /** The inputs of one tick. */
  datatype Tick = Tick(open: bool, attaches: bool, datamodel: int)

  /** The state `__init__` sets up (lines 82-88). */
  function Start(): (s: Session)
    ensures !s.enabled && !s.initialized && s.retry == 0 && s.attempts == 0
  {
    Session(false, 0, 0, false)
  }

  /** `update`. */
  function Update(s: Session, fps: int, t: Tick): (r: (Session, seq<Event>))
    ensures !s.enabled ==> r == (s, [])
    ensures r.0.enabled == s.enabled
    ensures s.enabled && !t.open ==> OnInit !in r.1 && OnStep !in r.1 && r.0.initialized == s.initialized
    ensures s.enabled && !t.open && s.retry + 1 < fps ==> r == (s.(retry := s.retry + 1), [])
    ensures s.enabled && !t.open && s.retry + 1 >= fps ==>
      r.0.retry == 0 && Connecting(s.attempts + 1) in r.1 &&
      (t.attaches ==> r.0.attempts == 0 && Attached in r.1) &&
      (!t.attaches ==> r.0.attempts == s.attempts + 1 &&
                       (ConnectionFailed in r.1 <==> s.attempts + 1 >= MaxAttempts))
    ensures s.enabled && t.open ==> r.0.retry == s.retry && r.0.attempts == s.attempts
    ensures s.enabled && t.open ==> (OnStep in r.1 <==> t.datamodel > 0)
    ensures OnInit in r.1 <==> s.enabled && t.open && t.datamodel > 0 && !s.initialized
  {
    if !s.enabled then (s, [])
    else if !t.open then
      var retry := s.retry + 1;
      if retry >= fps then
        var attempts := s.attempts + 1;
        if t.attaches then (s.(retry := 0, attempts := 0), [Connecting(attempts), Attached])
        else if attempts >= MaxAttempts then (s.(retry := 0, attempts := attempts), [Connecting(attempts), ConnectionFailed])
        else (s.(retry := 0, attempts := attempts), [Connecting(attempts)])
      else (s.(retry := retry), [])
    else if t.datamodel > 0 then
      if !s.initialized then (s.(initialized := true), [OnInit, OnStep]) else (s, [OnStep])
    else (s, [])
  }

  /** Starting from 0, the retry counter stays below the frame rate. */
  predicate RetryInRange(s: Session, fps: int) {
    0 <= s.retry < fps
  }

  lemma UpdateKeepsRetry(s: Session, fps: int, t: Tick)
    requires RetryInRange(s, fps)
    ensures RetryInRange(Update(s, fps, t).0, fps)
  {
  }

  /** The ticks in order, with everything they did. */
  function Run(s: Session, fps: int, ts: seq<Tick>): (r: (Session, seq<Event>))
    ensures r.0.enabled == s.enabled
    decreases |ts|
  {
    if ts == [] then (s, [])
    else
      var (s1, e1) := Update(s, fps, ts[0]);
      var (s2, e2) := Run(s1, fps, ts[1..]);
      (s2, e1 + e2)
  }

  /** The retry counter stays in range over any run. */
  lemma {:induction false} RunKeepsRetry(s: Session, fps: int, ts: seq<Tick>)
    requires RetryInRange(s, fps)
    ensures RetryInRange(Run(s, fps, ts).0, fps)
    decreases |ts|
  {
    if ts != [] {
      UpdateKeepsRetry(s, fps, ts[0]);
      RunKeepsRetry(Update(s, fps, ts[0]).0, fps, ts[1..]);
    }
  }

  /**
   * With the frame rate `__init__` sets, a session enabled by `enable`
   * keeps its retry counter in [0, 60) whatever the ticks.
   */
  lemma EnabledRetryBelowFps(ts: seq<Tick>)
    ensures 0 <= Run(Start().(enabled := true), Fps, ts).0.retry < Fps
  {
    RunKeepsRetry(Start().(enabled := true), Fps, ts);
  }

  function Count(es: seq<Event>, e: Event): (n: nat)
    ensures n <= |es|
    ensures n == 0 <==> e !in es
    decreases |es|
  {
    if es == [] then 0 else (if es[0] == e then 1 else 0) + Count(es[1..], e)
  }

  lemma {:induction false} CountAppend(a: seq<Event>, b: seq<Event>, e: Event)
    ensures Count(a + b, e) == Count(a, e) + Count(b, e)
    decreases |a|
  {
    if a != [] {
      assert (a + b)[0] == a[0] && (a + b)[1..] == a[1..] + b;
      CountAppend(a[1..], b, e);
    } else {
      assert a + b == b;
    }
  }

  /** The number of ticks that find the process open and the DataModel non-null. */
  function Live(s: Session, ts: seq<Tick>): (n: nat)
    decreases |ts|
  {
    if ts == [] then 0
    else (if s.enabled && ts[0].open && ts[0].datamodel > 0 then 1 else 0) + Live(s, ts[1..])
  }

  /** One tick runs `onInit` once if it is the first live one, and `onStep` once if it is live. */
  lemma UpdateCounts(s: Session, fps: int, t: Tick)
    ensures Count(Update(s, fps, t).1, OnInit) + (if s.initialized then 1 else 0) ==
      (if Update(s, fps, t).0.initialized then 1 else 0)
    ensures Count(Update(s, fps, t).1, OnStep) == (if s.enabled && t.open && t.datamodel > 0 then 1 else 0)
  {
  }

  /**
   * Over any run, `onInit` runs at most once in the session's life, and
   * `onStep` runs on every live tick.
   */
  lemma {:induction false} RunCounts(s: Session, fps: int, ts: seq<Tick>)
    ensures Count(Run(s, fps, ts).1, OnInit) + (if s.initialized then 1 else 0) ==
      (if Run(s, fps, ts).0.initialized then 1 else 0)
    ensures Count(Run(s, fps, ts).1, OnStep) == Live(s, ts)
    decreases |ts|
  {
    if ts != [] {
      var (s1, e1) := Update(s, fps, ts[0]);
      UpdateCounts(s, fps, ts[0]);
      RunCounts(s1, fps, ts[1..]);
      CountAppend(e1, Run(s1, fps, ts[1..]).1, OnInit);
      CountAppend(e1, Run(s1, fps, ts[1..]).1, OnStep);
      LiveEnabled(s, s1, ts[1..]);
    }
  }

  /** Only the enabled flag of the session matters for which ticks are live. */
  lemma {:induction false} LiveEnabled(s: Session, s': Session, ts: seq<Tick>)
    requires s.enabled == s'.enabled
    ensures Live(s, ts) == Live(s', ts)
    decreases |ts|
  {
    if ts != [] {
      LiveEnabled(s, s', ts[1..]);
    }
  }

  /** Failed attempts are never capped: each full retry cycle without an attach adds one. */
  lemma AttemptsGrow(s: Session, fps: int, t: Tick)
    requires s.enabled && !t.open && !t.attaches && s.retry + 1 >= fps
    ensures Update(s, fps, t).0.attempts == s.attempts + 1
    ensures s.attempts + 1 >= MaxAttempts ==> ConnectionFailed in Update(s, fps, t).1
  {
  }
}

=== FILE: bytecode.dfy ===
/**
 * The `ScriptBytecode` container (pyrblx/subclasses.py). A payload is laid
 * out as four header bytes, the raw length as four little-endian bytes, and
 * the compressed bytes. Every byte is xored with a key stream derived from
 * the 32-bit digest of the payload, and the header then carries the digest,
 * mixed with the magic "RSB1".
 *
 * The digest (xxh32 with seed 42) and the compressor (zstd) are parameters:
 * `hash` is any function onto 32-bit values, `compress` any function on byte
 * strings, and `decompress` returns None where the decompressor raises. Its
 * second argument is the `max_output_size` the decoder passes.
 */
module Bytecode {
  import opened Wrappers
  import opened Bytes

  type Digest = x: nat | x < 0x1_0000_0000

  /** `k_magic`: the bytes of "RSB1". */
  const Magic: seq<byte> := [0x52, 0x53, 0x42, 0x31]

  /** The placeholder `encode` leaves in bytes 0..3 while it hashes. */
  const Blank: seq<byte> := [0, 0, 0, 0]

  /** `k_mult`: the per-position step of the key stream. */
  const Mult: nat := 41

  /** `int.to_bytes(4, "little")` of a digest. */
  function DigestBytes(h: Digest): (r: seq<byte>)
    ensures |r| == 4
  {
    Pow256Values();
    ToLE(h, 4)
  }

  /** `(b + i * k_mult) & 0xFF`: a byte stepped forward by 41*i, modulo 256. */
  function Step(b: byte, i: nat): byte {
    ((b as int + i * Mult) % 256) as byte
  }

  /** `(b - i * k_mult) & 0xFF`: a byte stepped back by 41*i, modulo 256. */
  function Unstep(b: byte, i: nat): byte {
    ((b as int - i * Mult) % 256) as byte
  }

  /** Stepping back undoes stepping forward, and the other way round. */
  lemma StepInverse(b: byte, i: nat)
    ensures Unstep(Step(b, i), i) == b
    ensures Step(Unstep(b, i), i) == b
  {
    var q := (b as int + i * Mult) / 256;
    assert b as int + i * Mult == 256 * q + Step(b, i) as int;
    DivModUnique(Step(b, i) as int - i * Mult, 256, -q, b as int);
    var r := (b as int - i * Mult) / 256;
    assert b as int - i * Mult == 256 * r + Unstep(b, i) as int;
    DivModUnique(Unstep(b, i) as int + i * Mult, 256, -r, b as int);
  }

  /** `(hb[i % 4] + i * k_mult) & 0xFF`: the key byte at position i. */
  function KeyAt(hb: seq<byte>, i: nat): (k: byte)
    requires |hb| == 4
  {
    Step(hb[i % 4], i)
  }

  /** The key stream of length n for the digest bytes hb. */
  function Keystream(hb: seq<byte>, n: nat): (r: seq<byte>)
    requires |hb| == 4
    ensures |r| == n
    ensures forall i :: 0 <= i < n ==> r[i] == KeyAt(hb, i)
  {
    seq(n, i requires 0 <= i => KeyAt(hb, i))
  }

  /** The masking loop shared by `encode` and `decode`. */
  function Mask(ss: seq<byte>, hb: seq<byte>): (r: seq<byte>)
    requires |hb| == 4
    ensures |r| == |ss|
  {
    Xor(ss, Keystream(hb, |ss|))
  }

  /** `encode`'s header loop: each digest byte is stepped by 41*i and xored with the magic. */
  function Header(hb: seq<byte>): (r: seq<byte>)
    requires |hb| == 4
    ensures |r| == 4
  {
    seq(4, i requires 0 <= i < 4 => XorByte(Step(hb[i], i), Magic[i]))
  }

  /** `decode`'s header loop: xor with the magic, then step back by 41*i modulo 256. */
  function HeaderKey(h: seq<byte>): (r: seq<byte>)
    requires |h| == 4
    ensures |r| == 4
  {
    seq(4, i requires 0 <= i < 4 => Unstep(XorByte(h[i], Magic[i]), i))
  }

  /** The unmasked payload: four header bytes, the raw length, the compressed bytes. */
  function Payload(head: seq<byte>, len: nat, compressed: seq<byte>): (r: seq<byte>)
    requires |head| == 4 && len < TWO_32
    ensures |r| == 8 + |compressed|
    ensures r[..4] == head && r[8..] == compressed
  {
    Pow256Values();
    head + ToLE(len, 4) + compressed
  }

  /** The masked payload with its first four bytes replaced by the header. */
  function Seal(ss: seq<byte>, h: Digest): (r: seq<byte>)
    requires |ss| >= 4
    ensures |r| == |ss|
  {
    var hb := DigestBytes(h);
    Header(hb) + Mask(ss, hb)[4..]
  }

  /**
   * `encode` as written: the digest is taken over the payload with the blank
   * placeholder in bytes 0..3. A raw length that does not fit in four bytes
   * makes `to_bytes` raise, which is None.
   */
  function Encode(hash: seq<byte> -> Digest, compress: seq<byte> -> seq<byte>, raw: seq<byte>): (r: Option<seq<byte>>)
    ensures r.Some? <==> |raw| < TWO_32
    ensures r.Some? ==> |r.value| == 8 + |compress(raw)|
  {
    if |raw| >= TWO_32 then None
    else
      var ss := Payload(Blank, |raw|, compress(raw));
      Some(Seal(ss, hash(ss)))
  }

  /**
   * `decode`: b"" for fewer than eight bytes, for a digest mismatch, and when
   * the decompressor raises; otherwise the decompressed payload.
   */
  function Decode(hash: seq<byte> -> Digest, decompress: (seq<byte>, nat) -> Option<seq<byte>>, content: seq<byte>): (r: seq<byte>)
    ensures |content| < 8 ==> r == []
    ensures |content| >= 8 && hash(Mask(content, HeaderKey(content[..4]))) != FromLE(HeaderKey(content[..4])) ==> r == []
  {
    if |content| < 8 then []
    else
      var hb := HeaderKey(content[..4]);
      var ss := Mask(content, hb);
      if hash(ss) != FromLE(hb) then []
      else decompress(ss[8..], FromLE(ss[4..8])).GetOr([])
  }

  /** Masking twice with the same digest bytes restores every byte. */
  lemma MaskTwice(ss: seq<byte>, hb: seq<byte>)
    requires |hb| == 4
    ensures Mask(Mask(ss, hb), hb) == ss
  {
    XorCancel(ss, Keystream(hb, |ss|));
  }

  /** Recovering the digest bytes from a header undoes the header loop. */
  lemma HeaderKeyOfHeader(hb: seq<byte>)
    requires |hb| == 4
    ensures HeaderKey(Header(hb)) == hb
  {
    forall i | 0 <= i < 4 ensures HeaderKey(Header(hb))[i] == hb[i] {
      XorByteCancel(Step(hb[i], i), Magic[i]);
      StepInverse(hb[i], i);
    }
  }

  /** And the header loop undoes the recovery: the two are inverse bijections on four bytes. */
  lemma HeaderOfHeaderKey(h: seq<byte>)
    requires |h| == 4
    ensures Header(HeaderKey(h)) == h
  {
    forall i | 0 <= i < 4 ensures Header(HeaderKey(h))[i] == h[i] {
      StepInverse(XorByte(h[i], Magic[i]), i);
      XorByteCancel(h[i], Magic[i]);
    }
  }

  /** The digest bytes and the little-endian digest value correspond. */
  lemma DigestBytesValue(h: Digest)
    ensures FromLE(DigestBytes(h)) == h
  {
    Pow256Values();
    FromLEToLE(h, 4);
  }

  /** A byte xored with k and then with the key k it was mixed with leaves the other operand. */
  lemma XorByteUnmix(k: byte, g: byte)
    ensures XorByte(XorByte(k, g), k) == g
  {
    XorByteCommutes(k, g);
    XorByteCancel(g, k);
  }

  /**
   * Unmasking a sealed payload with the key its header yields gives back the
   * payload, except that bytes 0..3 read "RSB1" whatever they were before.
   */
  lemma UnsealSeal(ss: seq<byte>, h: Digest)
    requires |ss| >= 4
    ensures HeaderKey(Seal(ss, h)[..4]) == DigestBytes(h)
    ensures Mask(Seal(ss, h), DigestBytes(h)) == Magic + ss[4..]
  {
    var hb := DigestBytes(h);
    var c := Seal(ss, h);
    assert c[..4] == Header(hb);
    HeaderKeyOfHeader(hb);
    UnmaskHead(ss, hb, c);
    UnmaskTail(ss, hb, c);
  }

  lemma UnmaskHead(ss: seq<byte>, hb: seq<byte>, c: seq<byte>)
    requires |hb| == 4 && |ss| >= 4 && |c| == |ss|
    requires c[..4] == Header(hb)
    ensures Mask(c, hb)[..4] == Magic
  {
    forall i | 0 <= i < 4 ensures Mask(c, hb)[i] == Magic[i] {
      assert c[i] == Header(hb)[i];
      UnmaskHeadAt(hb, c, i);
    }
  }

  lemma UnmaskHeadAt(hb: seq<byte>, c: seq<byte>, i: nat)
    requires |hb| == 4 && 4 <= |c| && i < 4
    requires c[i] == XorByte(Step(hb[i], i), Magic[i])
    ensures Mask(c, hb)[i] == Magic[i]
  {
    var k := Step(hb[i], i);
    KeyHead(hb, i);
    assert Mask(c, hb)[i] == XorByte(c[i], k);
    XorByteUnmix(k, Magic[i]);
  }

  /** Within the header, the key stream uses the digest byte at the same position. */
  lemma KeyHead(hb: seq<byte>, i: nat)
    requires |hb| == 4 && i < 4
    ensures KeyAt(hb, i) == Step(hb[i], i)
  {
    assert i % 4 == i;
  }

  lemma UnmaskTail(ss: seq<byte>, hb: seq<byte>, c: seq<byte>)
    requires |hb| == 4 && |ss| >= 4 && |c| == |ss|
    requires c[4..] == Mask(ss, hb)[4..]
    ensures Mask(c, hb)[4..] == ss[4..]
  {
    forall i | 4 <= i < |ss| ensures Mask(c, hb)[i] == ss[i] {
      assert c[i] == Mask(ss, hb)[i];
      XorByteCancel(ss[i], KeyAt(hb, i));
    }
  }

  /** The payload after the header bytes does not depend on them. */
  lemma PayloadTail(head: seq<byte>, len: nat, compressed: seq<byte>)
    requires |head| == 4 && len < TWO_32
    ensures Payload(head, len, compressed) == head + Payload(Blank, len, compressed)[4..]
    ensures Payload(Blank, len, compressed)[4..8] == ToLE(len, 4)
  {
    Pow256Values();
  }

  /**
   * Decoding a sealed payload: the digest the header yields is compared with
   * the digest of the payload carrying "RSB1" in bytes 0..3.
   */
  lemma DecodeSealed(hash: seq<byte> -> Digest, decompress: (seq<byte>, nat) -> Option<seq<byte>>, ss: seq<byte>, h: Digest)
    requires |ss| >= 8
    ensures Decode(hash, decompress, Seal(ss, h)) ==
      if hash(Magic + ss[4..]) != h then []
      else decompress(ss[8..], FromLE(ss[4..8])).GetOr([])
  {
    UnsealSeal(ss, h);
    DigestBytesValue(h);
    var u := Magic + ss[4..];
    assert u[8..] == ss[8..] by { TailSlices(ss); }
    assert u[4..8] == ss[4..8] by { TailSlices(ss); }
    DecodeSteps(hash, decompress, Seal(ss, h), DigestBytes(h), u);
  }

  /** Putting "RSB1" in front leaves bytes 4.. of a payload as they were. */
  lemma TailSlices(ss: seq<byte>)
    requires |ss| >= 8
    ensures (Magic + ss[4..])[8..] == ss[8..] && (Magic + ss[4..])[4..8] == ss[4..8]
  {
  }

  /** `decode` past the length check, given the recovered digest bytes and the unmasked buffer. */
  lemma DecodeSteps(hash: seq<byte> -> Digest, decompress: (seq<byte>, nat) -> Option<seq<byte>>,
                    c: seq<byte>, hb: seq<byte>, u: seq<byte>)
    requires |c| >= 8 && hb == HeaderKey(c[..4]) && u == Mask(c, hb)
    ensures Decode(hash, decompress, c) ==
      if hash(u) != FromLE(hb) then [] else decompress(u[8..], FromLE(u[4..8])).GetOr([])
  {
  }

  /**
   * `decode(encode(raw))` as written: raw comes back only when the digest of
   * the payload with "RSB1" in front equals the digest of the payload with
   * the blank placeholder, and the decompressor inverts the compressor.
   */
  lemma DecodeEncode(hash: seq<byte> -> Digest, compress: seq<byte> -> seq<byte>,
                     decompress: (seq<byte>, nat) -> Option<seq<byte>>, raw: seq<byte>)
    requires |raw| < TWO_32
    ensures Decode(hash, decompress, Encode(hash, compress, raw).value) ==
      if hash(Payload(Magic, |raw|, compress(raw))) != hash(Payload(Blank, |raw|, compress(raw))) then []
      else decompress(compress(raw), |raw|).GetOr([])
  {
    var ss := Payload(Blank, |raw|, compress(raw));
    PayloadTail(Magic, |raw|, compress(raw));
    Pow256Values();
    FromLEToLE(|raw|, 4);
    DecodeSealed(hash, decompress, ss, hash(ss));
  }

  /** A digest that looks at the first byte only: enough to tell "RSB1" from the placeholder. */
  function FirstByte(s: seq<byte>): Digest {
    if |s| > 0 then s[0] as nat else 0
  }

  function Stored(s: seq<byte>): seq<byte> {
    s
  }

  function Unstored(s: seq<byte>, limit: nat): Option<seq<byte>> {
    Some(s)
  }

  /**
   * The round trip fails as written: with a compressor that stores its input
   * and a decompressor that inverts it, a one-byte script decodes to b"",
   * because the digest was taken over the placeholder rather than "RSB1".
   */
  lemma EncodeHashesPlaceholder()
    ensures Unstored(Stored([7]), 1) == Some([7])
    ensures Decode(FirstByte, Unstored, Encode(FirstByte, Stored, [7]).value) == []
  {
    DecodeEncode(FirstByte, Stored, Unstored, [7]);
    assert Payload(Magic, 1, [7])[0] == 0x52;
    assert Payload(Blank, 1, [7])[0] == 0;
  }

  /** `encode` with the digest taken over the payload as `decode` will see it, "RSB1" in front. */
  function EncodeFixed(hash: seq<byte> -> Digest, compress: seq<byte> -> seq<byte>, raw: seq<byte>): (r: Option<seq<byte>>)
    ensures r.Some? <==> |raw| < TWO_32
    ensures r.Some? ==> |r.value| == 8 + |compress(raw)|
  {
    if |raw| >= TWO_32 then None
    else
      var ss := Payload(Magic, |raw|, compress(raw));
      Some(Seal(ss, hash(ss)))
  }

  /** The corrected encoder round-trips whenever the decompressor inverts the compressor. */
  lemma DecodeEncodeFixed(hash: seq<byte> -> Digest, compress: seq<byte> -> seq<byte>,
                          decompress: (seq<byte>, nat) -> Option<seq<byte>>, raw: seq<byte>)
    requires |raw| < TWO_32
    requires decompress(compress(raw), |raw|) == Some(raw)
    ensures Decode(hash, decompress, EncodeFixed(hash, compress, raw).value) == raw
  {
    var ss := Payload(Magic, |raw|, compress(raw));
    PayloadTail(Magic, |raw|, compress(raw));
    Pow256Values();
    FromLEToLE(|raw|, 4);
    DecodeSealed(hash, decompress, ss, hash(ss));
    assert Magic + ss[4..] == ss;
  }
}

=== FILE: bytes.dfy ===
/** Optional values, standing for the source's "raises an exception" outcomes. */
module Wrappers {

  datatype Option<+T> = None | Some(value: T) {
    function GetOr(default: T): T {
      match this
      case Some(v) => v
      case None => default
    }
  }
}

/**
 * Bytes and the fixed-width integer encodings the memory layer uses:
 * little-endian packing, two's-complement signed views, and the per-byte
 * Latin-1 decoding and UTF-8 encoding that the string helpers apply.
 */
module Bytes {

  /** An octet, as Python's `bytes` elements are: an integer in [0, 256). */
  newtype byte = x: int | 0 <= x < 256

  const TWO_31: int := 0x8000_0000
  const TWO_32: int := 0x1_0000_0000
  const TWO_63: int := 0x8000_0000_0000_0000
  const TWO_64: int := 0x1_0000_0000_0000_0000

  /** The byte holding a value below 256. */
  function ByteOf(x: int): (b: byte)
    requires 0 <= x < 256
    ensures b as int == x
  {
    x as byte
  }

  function Pow256(n: nat): (r: nat)
    ensures r > 0
  {
    if n == 0 then 1 else 256 * Pow256(n - 1)
  }

  /** Unsigned little-endian value of a byte string. */
  function FromLE(s: seq<byte>): (v: nat)
    ensures v < Pow256(|s|)
  {
    if |s| == 0 then 0 else s[0] as nat + 256 * FromLE(s[1..])
  }

  /** The n little-endian bytes of v (`int.to_bytes(n, "little")`). */
  function ToLE(v: nat, n: nat): (s: seq<byte>)
    requires v < Pow256(n)
    ensures |s| == n
  {
    if n == 0 then [] else [ByteOf(v % 256)] + ToLE(v / 256, n - 1)
  }

  lemma {:induction false} FromLEToLE(v: nat, n: nat)
    requires v < Pow256(n)
    ensures FromLE(ToLE(v, n)) == v
  {
    if n > 0 {
      FromLEToLE(v / 256, n - 1);
      var s := ToLE(v, n);
      assert s[0] as nat == v % 256;
      assert s[1..] == ToLE(v / 256, n - 1);
      assert FromLE(s) == v % 256 + 256 * (v / 256);
    }
  }

  lemma {:induction false} ToLEFromLE(s: seq<byte>)
    ensures ToLE(FromLE(s), |s|) == s
  {
    if |s| > 0 {
      ToLEFromLE(s[1..]);
      assert (s[0] as nat + 256 * FromLE(s[1..])) / 256 == FromLE(s[1..]);
    }
  }

  /** A value packs to all-zero bytes exactly when it is zero. */
  lemma {:induction false} FromLEZero(s: seq<byte>)
    ensures FromLE(s) == 0 <==> forall i :: 0 <= i < |s| ==> s[i] == 0
  {
    if |s| > 0 {
      FromLEZero(s[1..]);
      assert forall i :: 1 <= i < |s| ==> s[i] == s[1..][i - 1];
    }
  }

  lemma Pow256Values()
    ensures Pow256(4) == TWO_32 && Pow256(8) == TWO_64
  {
    assert Pow256(2) == 65536;
    assert Pow256(4) == 65536 * 65536;
    assert Pow256(8) == Pow256(4) * Pow256(4) by {
      assert Pow256(8) == 256 * 256 * 256 * 256 * Pow256(4);
    }
  }

  /** Two's-complement view of an unsigned 64-bit value (`struct` format 'q'). */
  function Signed64(u: nat): (v: int)
    requires u < TWO_64
    ensures -TWO_63 <= v < TWO_63
  {
    if u < TWO_63 then u else u - TWO_64
  }

  /** Two's-complement view of an unsigned 32-bit value (`struct` format 'i'). */
  function Signed32(u: nat): (v: int)
    requires u < TWO_32
    ensures -TWO_31 <= v < TWO_31
  {
    if u < TWO_31 then u else u - TWO_32
  }

  /** The eight bytes a signed 64-bit value is stored as. */
  function U64Bytes(v: int): (s: seq<byte>)
    ensures |s| == 8
  {
    Pow256Values();
    ToLE(v % TWO_64, 8)
  }

  /** Reading back the eight bytes of a signed 64-bit value yields that value. */
  lemma U64BytesRoundTrip(v: int)
    requires -TWO_63 <= v < TWO_63
    ensures FromLE(U64Bytes(v)) < TWO_64
    ensures Signed64(FromLE(U64Bytes(v))) == v
  {
    Pow256Values();
    FromLEToLE(v % TWO_64, 8);
  }

  /** The stored bytes of the value read from eight bytes are those bytes. */
  lemma U64BytesOfRead(s: seq<byte>)
    requires |s| == 8
    ensures FromLE(s) < TWO_64
    ensures U64Bytes(Signed64(FromLE(s))) == s
  {
    Pow256Values();
    var u := FromLE(s);
    var v := Signed64(u);
    assert v % TWO_64 == u by {
      if u >= TWO_63 {
        assert v + TWO_64 == u;
      }
    }
    calc {
      U64Bytes(v);
      ToLE(v % TWO_64, 8);
      { assert v % TWO_64 == u; }
      ToLE(u, 8);
      { ToLEFromLE(s); }
      s;
    }
  }

  /** The first stored byte of a 64-bit value is its low byte. */
  lemma U64BytesLow(v: int)
    ensures U64Bytes(v)[0] as int == v % 256
  {
    Pow256Values();
    var u := v % TWO_64;
    assert U64Bytes(v)[0] == ByteOf(u % 256);
    var q, d, r := v / TWO_64, v / 256, v % 256;
    assert u == v - 0x1_0000_0000_0000_0000 * q;
    assert v == 256 * d + r;
    assert u == 256 * (d - 0x100_0000_0000_0000 * q) + r;
  }

  /** The four bytes a signed 32-bit value is stored as. */
  function U32Bytes(v: int): (s: seq<byte>)
    ensures |s| == 4
  {
    Pow256Values();
    ToLE(v % TWO_32, 4)
  }

  lemma U32BytesRoundTrip(v: int)
    requires -TWO_31 <= v < TWO_31
    ensures FromLE(U32Bytes(v)) < TWO_32
    ensures Signed32(FromLE(U32Bytes(v))) == v
  {
    Pow256Values();
    FromLEToLE(v % TWO_32, 4);
  }

  /** The exclusive-or of the low n bits of a and b, computed bit by bit from the bottom. */
  function XorBits(a: nat, b: nat, n: nat): (r: nat)
    ensures r < Pow2(n)
    decreases n
  {
    if n == 0 then 0
    else (if a % 2 == b % 2 then 0 else 1) + 2 * XorBits(a / 2, b / 2, n - 1)
  }

  function Pow2(n: nat): (r: nat)
    ensures r > 0
  {
    if n == 0 then 1 else 2 * Pow2(n - 1)
  }

  lemma {:induction false} Pow2Add(a: nat, b: nat)
    ensures Pow2(a + b) == Pow2(a) * Pow2(b)
    decreases a
  {
    if a > 0 {
      Pow2Add(a - 1, b);
    }
  }

  /** The 32- and 64-bit moduli as powers of two. */
  lemma Pow2Values()
    ensures Pow2(32) == TWO_32 && Pow2(64) == TWO_64
  {
    assert Pow2(8) == 256;
    Pow2Add(8, 8);
    Pow2Add(16, 16);
    Pow2Add(32, 32);
  }

  /** `a ^ b` on two bytes. */
  function XorByte(a: byte, b: byte): byte {
    assert Pow2(8) == 256;
    XorBits(a as nat, b as nat, 8) as byte
  }

  /** `x ^ k ^ k == x` on n-bit values. */
  lemma {:induction false} XorBitsCancel(a: nat, k: nat, n: nat)
    requires a < Pow2(n)
    ensures XorBits(XorBits(a, k, n), k, n) == a
    decreases n
  {
    if n > 0 {
      var x := XorBits(a, k, n);
      var low := if a % 2 == k % 2 then 0 else 1;
      assert x == low + 2 * XorBits(a / 2, k / 2, n - 1);
      assert x % 2 == low && x / 2 == XorBits(a / 2, k / 2, n - 1);
      XorBitsCancel(a / 2, k / 2, n - 1);
    }
  }

  /** Xor with the same byte twice restores the byte. */
  lemma XorByteCancel(a: byte, k: byte)
    ensures XorByte(XorByte(a, k), k) == a
  {
    assert Pow2(8) == 256;
    XorBitsCancel(a as nat, k as nat, 8);
  }

  lemma XorByteCommutes(a: byte, b: byte)
    ensures XorByte(a, b) == XorByte(b, a)
  {
    XorBitsCommutes(a as nat, b as nat, 8);
  }

  /** Byte-wise exclusive-or of two equally long byte strings. */
  function Xor(a: seq<byte>, b: seq<byte>): (r: seq<byte>)
    requires |a| == |b|
    ensures |r| == |a|
    ensures forall i :: 0 <= i < |a| ==> r[i] == XorByte(a[i], b[i])
  {
    seq(|a|, i requires 0 <= i < |a| => XorByte(a[i], b[i]))
  }

  /** Xor-ing twice with the same key restores the bytes. */
  lemma XorCancel(a: seq<byte>, k: seq<byte>)
    requires |a| == |k|
    ensures Xor(Xor(a, k), k) == a
  {
    forall i | 0 <= i < |a| ensures Xor(Xor(a, k), k)[i] == a[i] {
      XorByteCancel(a[i], k[i]);
    }
  }

  /** Division with remainder is unique: y = d*q + s with 0 <= s < d fixes both. */
  lemma DivModUnique(y: int, d: int, q: int, s: int)
    requires d > 0 && y == d * q + s && 0 <= s < d
    ensures y / d == q && y % d == s
  {
    var q0, s0 := y / d, y % d;
    assert y == d * q0 + s0;
    assert d * (q - q0) == s0 - s;
    if q > q0 {
      MulAtLeast(d, q - q0);
    } else if q < q0 {
      MulAtLeast(d, q0 - q);
    }
  }

  lemma MulAtLeast(d: int, k: int)
    requires d > 0 && k >= 1
    ensures d * k >= d
  {
    assert d * k == d + d * (k - 1);
  }

  /** Doubling a value and adding a low bit commutes with reduction modulo 2p. */
  lemma ModDouble(t: nat, x: nat, p: nat)
    requires t < 2 && p > 0
    ensures (t + 2 * x) % (2 * p) == t + 2 * (x % p)
  {
    var q, r := x / p, x % p;
    assert t + 2 * x == (2 * p) * q + (t + 2 * r);
    DivModUnique(t + 2 * x, 2 * p, q, t + 2 * r);
  }

  /** Reducing modulo 2p keeps the lowest bit and reduces the rest modulo p. */
  lemma ModHalf(a: nat, p: nat)
    requires p > 0
    ensures (a % (2 * p)) % 2 == a % 2
    ensures (a % (2 * p)) / 2 == (a / 2) % p
  {
    var q, r := a / (2 * p), a % (2 * p);
    assert a == 2 * (p * q + r / 2) + r % 2;
    DivModUnique(a, 2, p * q + r / 2, r % 2);
    DivModUnique(a / 2, p, q, r / 2);
  }

  /** The low k bits of an n-bit exclusive-or are the k-bit exclusive-or. */
  lemma {:induction false} XorBitsLow(a: nat, b: nat, n: nat, k: nat)
    requires k <= n
    ensures XorBits(a, b, n) % Pow2(k) == XorBits(a, b, k)
    decreases k
  {
    if k > 0 {
      XorBitsLow(a / 2, b / 2, n - 1, k - 1);
      ModDouble(if a % 2 == b % 2 then 0 else 1, XorBits(a / 2, b / 2, n - 1), Pow2(k - 1));
    }
  }

  /** An n-bit exclusive-or looks only at the low n bits of its operands. */
  lemma {:induction false} XorBitsMod(a: nat, b: nat, n: nat)
    ensures XorBits(a % Pow2(n), b % Pow2(n), n) == XorBits(a, b, n)
    decreases n
  {
    if n > 0 {
      ModHalf(a, Pow2(n - 1));
      ModHalf(b, Pow2(n - 1));
      XorBitsMod(a / 2, b / 2, n - 1);
    }
  }

  /** The low k bits of an n-bit exclusive-or with a k-bit b depend on a only through its low k bits. */
  lemma XorBitsLowMod(a: nat, b: nat, n: nat, k: nat)
    requires k <= n && b < Pow2(k)
    ensures XorBits(a, b, n) % Pow2(k) == XorBits(a % Pow2(k), b, k)
  {
    XorBitsLow(a, b, n, k);
    XorBitsMod(a, b, k);
    DivModUnique(b, Pow2(k), 0, b);
  }

  lemma {:induction false} XorBitsCommutes(a: nat, b: nat, n: nat)
    ensures XorBits(a, b, n) == XorBits(b, a, n)
    decreases n
  {
    if n > 0 {
      XorBitsCommutes(a / 2, b / 2, n - 1);
    }
  }

  /** `0 ^ a == a` on n-bit values. */
  lemma {:induction false} XorBitsZero(a: nat, n: nat)
    requires a < Pow2(n)
    ensures XorBits(0, a, n) == a
    decreases n
  {
    if n > 0 {
      XorBitsZero(a / 2, n - 1);
    }
  }

  /** `chr(b)` for every byte: the decoding the string reader applies. */
  function Latin1(s: seq<byte>): (r: string)
    ensures |r| == |s|
    ensures forall i :: 0 <= i < |s| ==> r[i] as int == s[i] as int
  {
    seq(|s|, i requires 0 <= i < |s| => (s[i] as int) as char)
  }

  /** The UTF-8 encoding of one character (`str.encode("utf-8")`). */
  function Utf8Char(c: char): (r: seq<byte>)
    ensures 1 <= |r| <= 4
    ensures |r| == 1 <==> c as int < 0x80
    ensures |r| == 1 ==> r[0] as int == c as int
    ensures |r| > 1 ==> forall i :: 0 <= i < |r| ==> r[i] as int >= 0x80
  {
    var n := c as int;
    if n < 0x80 then [ByteOf(n)]
    else if n < 0x800 then [ByteOf(0xC0 + n / 64), ByteOf(0x80 + n % 64)]
    else if n < 0x10000 then
      [ByteOf(0xE0 + n / 4096), ByteOf(0x80 + n / 64 % 64), ByteOf(0x80 + n % 64)]
    else
      [ByteOf(0xF0 + n / 262144), ByteOf(0x80 + n / 4096 % 64),
       ByteOf(0x80 + n / 64 % 64), ByteOf(0x80 + n % 64)]
  }

  function Utf8(s: string): (r: seq<byte>)
    ensures |r| >= |s|
  {
    if |s| == 0 then [] else Utf8Char(s[0]) + Utf8(s[1..])
  }

  predicate IsAscii(s: string) {
    forall i :: 0 <= i < |s| ==> s[i] as int < 0x80
  }

  /** A string without NUL characters encodes to bytes without zero bytes. */
  lemma {:induction false} Utf8NoZero(s: string)
    requires forall i :: 0 <= i < |s| ==> s[i] != '\0'
    ensures forall i :: 0 <= i < |Utf8(s)| ==> Utf8(s)[i] != 0
  {
    if |s| > 0 {
      Utf8NoZero(s[1..]);
      var h := Utf8Char(s[0]);
      assert Utf8(s) == h + Utf8(s[1..]);
      forall i | 0 <= i < |Utf8(s)| ensures Utf8(s)[i] != 0 {
        if i < |h| {
          if |h| == 1 {
            assert h[0] as int == s[0] as int;
          }
        } else {
          assert Utf8(s)[i] == Utf8(s[1..])[i - |h|];
        }
      }
    }
  }

  /** ASCII text encodes to one byte per character, each equal to its code. */
  lemma {:induction false} Utf8Ascii(s: string)
    requires IsAscii(s)
    ensures |Utf8(s)| == |s|
    ensures forall i :: 0 <= i < |s| ==> Utf8(s)[i] as int == s[i] as int
  {
    if |s| > 0 {
      Utf8Ascii(s[1..]);
      var h := Utf8Char(s[0]);
      assert Utf8(s) == h + Utf8(s[1..]);
      forall i | 1 <= i < |s| ensures Utf8(s)[i] as int == s[i] as int {
        assert Utf8(s)[i] == Utf8(s[1..])[i - 1];
        assert s[i] == s[1..][i - 1];
      }
    }
  }

  /** Encoding then decoding byte-per-character is the identity on ASCII text. */
  lemma Latin1Utf8Ascii(s: string)
    requires IsAscii(s)
    ensures Latin1(Utf8(s)) == s
  {
    Utf8Ascii(s);
    var r := Latin1(Utf8(s));
    forall i | 0 <= i < |s| ensures r[i] == s[i] {
      assert r[i] as int == s[i] as int;
    }
  }
}

=== FILE: cache.dfy ===
/**
 * The address-to-wrapper identity cache of `Memory.get_instance`
 * (pyrblx/memory.py) with the class-name dispatch table `CLASSTYPES` and
 * `Instance.new` (pyrblx/classes.py). A Python object's identity is modelled
 * by a serial number drawn from a counter when the object is built.
 */
module Cache {
  import opened Wrappers
  import opened Instances

  /** The wrapper classes `CLASSTYPES` can produce, plus the generic `Instance`. */
  datatype Kind =
    | Instance | ScriptContext | Workspace | Players | Player | Humanoid | Camera
    | BasePart | MeshPart | Model | IntValue | NumberValue | BoolValue | StringValue
    | ObjectValue | CoreScript | Script | LocalScript | ModuleScript | Sound

  /** `CLASSTYPES.get(name)`: "Part" shares BasePart's wrapper; other names are unregistered. */
  function ClassType(name: string): (r: Option<Kind>)
    ensures r != Some(Instance)
    ensures name == "Part" ==> r == Some(BasePart)
  {
    if name == "ScriptContext" then Some(ScriptContext)
    else if name == "Workspace" then Some(Workspace)
    else if name == "Players" then Some(Players)
    else if name == "Player" then Some(Player)
    else if name == "Humanoid" then Some(Humanoid)
    else if name == "Camera" then Some(Camera)
    else if name == "BasePart" || name == "Part" then Some(BasePart)
    else if name == "MeshPart" then Some(MeshPart)
    else if name == "Model" then Some(Model)
    else if name == "IntValue" then Some(IntValue)
    else if name == "NumberValue" then Some(NumberValue)
    else if name == "BoolValue" then Some(BoolValue)
    else if name == "StringValue" then Some(StringValue)
    else if name == "ObjectValue" then Some(ObjectValue)
    else if name == "CoreScript" then Some(CoreScript)
    else if name == "Script" then Some(Script)
    else if name == "LocalScript" then Some(LocalScript)
    else if name == "ModuleScript" then Some(ModuleScript)
    else if name == "Sound" then Some(Sound)
    else None
  }

  /** The class name each registered wrapper is filed under (BasePart also under "Part"). */
  function KindName(k: Kind): string {
    match k
    case Instance => "Instance"
    case ScriptContext => "ScriptContext"
    case Workspace => "Workspace"
    case Players => "Players"
    case Player => "Player"
    case Humanoid => "Humanoid"
    case Camera => "Camera"
    case BasePart => "BasePart"
    case MeshPart => "MeshPart"
    case Model => "Model"
    case IntValue => "IntValue"
    case NumberValue => "NumberValue"
    case BoolValue => "BoolValue"
    case StringValue => "StringValue"
    case ObjectValue => "ObjectValue"
    case CoreScript => "CoreScript"
    case Script => "Script"
    case LocalScript => "LocalScript"
    case ModuleScript => "ModuleScript"
    case Sound => "Sound"
  }

  /** The first eight registered classes, in table order. */
  lemma ClassTypeFirst(k: Kind)
    requires k.ScriptContext? || k.Workspace? || k.Players? || k.Player?
      || k.Humanoid? || k.Camera? || k.BasePart? || k.MeshPart?
    ensures ClassType(KindName(k)) == Some(k)
  {
  }

  /** The next six registered classes. */
  lemma ClassTypeMiddle(k: Kind)
    requires k.Model? || k.IntValue? || k.NumberValue? || k.BoolValue?
      || k.StringValue? || k.ObjectValue?
    ensures ClassType(KindName(k)) == Some(k)
  {
  }

  /** The last five registered classes. */
  lemma ClassTypeLast(k: Kind)
    requires k.CoreScript? || k.Script? || k.LocalScript? || k.ModuleScript?
      || k.Sound?
    ensures ClassType(KindName(k)) == Some(k)
  {
  }

  /** Every wrapper class except the generic one is registered under its own class name. */
  lemma ClassTypeComplete(k: Kind)
    requires k != Instance
    ensures ClassType(KindName(k)) == Some(k)
  {
    if k.ScriptContext? || k.Workspace? || k.Players? || k.Player?
      || k.Humanoid? || k.Camera? || k.BasePart? || k.MeshPart? {
      ClassTypeFirst(k);
    } else if k.Model? || k.IntValue? || k.NumberValue? || k.BoolValue?
      || k.StringValue? || k.ObjectValue? {
      ClassTypeMiddle(k);
    } else {
      ClassTypeLast(k);
    }
  }

  /** A wrapper object: its identity, the address it wraps and its class. */
  datatype Wrapper = Wrapper(id: nat, address: int, kind: Kind)

  /** `object_pool` and the source of fresh identities. */
  datatype Pool = Pool(objects: map<int, Wrapper>, next: nat)

  /** Each cached wrapper wraps its key, has an identity already handed out, and no two share one. */
  predicate Valid(pool: Pool) {
    (forall a :: a in pool.objects ==> pool.objects[a].address == a && pool.objects[a].id < pool.next) &&
    (forall a, b :: a in pool.objects && b in pool.objects && a != b ==> pool.objects[a].id != pool.objects[b].id)
  }

  /** A returned wrapper and the pool after the call. */
  datatype Got = Got(w: Wrapper, pool: Pool)

  /**
   * `get_instance`: the cached wrapper of a known address; otherwise a new
   * wrapper of class `base`, upgraded to `CLASSTYPES[get_class()]` when that
   * class name is registered, and cached.
   */
  function GetInstance(pool: Pool, p: Process, base: Kind, a: int): (r: Got)
    ensures Valid(pool) ==> r.w.address == a
    ensures a in r.pool.objects && r.pool.objects[a] == r.w
    ensures a in pool.objects ==> r == Got(pool.objects[a], pool)
    ensures a !in pool.objects ==>
      r.w.id == pool.next && r.pool == Pool(pool.objects[a := r.w], pool.next + 1) &&
      r.w.kind == ClassType(ClassName(p, a)).GetOr(base)
    ensures Valid(pool) ==> Valid(r.pool)
  {
    if a in pool.objects then Got(pool.objects[a], pool)
    else
      var kind := match ClassType(ClassName(p, a)) case Some(k) => k case None => base;
      var w := Wrapper(pool.next, a, kind);
      Got(w, Pool(pool.objects[a := w], pool.next + 1))
  }

  /**
   * Repeated calls for one address return the identical object and leave the
   * cache alone, whatever the memory holds by then.
   */
  lemma GetInstanceIdentity(pool: Pool, p: Process, p': Process, base: Kind, base': Kind, a: int)
    ensures
      var g := GetInstance(pool, p, base, a);
      GetInstance(g.pool, p', base', a) == Got(g.w, g.pool)
  {
  }

  /** In a valid pool, wrappers of different addresses are different objects. */
  lemma GetInstanceDistinct(pool: Pool, p: Process, a: int, b: int)
    requires Valid(pool) && a != b
    ensures
      var g := GetInstance(pool, p, Instance, a);
      var h := GetInstance(g.pool, p, Instance, b);
      h.w.id != g.w.id
  {
    var g := GetInstance(pool, p, Instance, a);
    assert Valid(g.pool);
  }

  /**
   * `Instance.new`: address 0 gives a fresh generic wrapper that is not
   * cached; any other address goes through the cache.
   */
  function New(pool: Pool, p: Process, a: int): (r: Got)
    ensures Valid(pool) ==> r.w.address == a
    ensures a == 0 ==> r.w.kind == Instance && r.pool.objects == pool.objects && r.w.id == pool.next
    ensures a == 0 ==> !Truthy(r.w.address)
    ensures a != 0 ==> r == GetInstance(pool, p, Instance, a)
    ensures Valid(pool) ==> Valid(r.pool)
  {
    if a == 0 then Got(Wrapper(pool.next, 0, Instance), Pool(pool.objects, pool.next + 1))
    else GetInstance(pool, p, Instance, a)
  }

  /** Two null instances are distinct objects, and neither is any cached wrapper. */
  lemma NewNullFresh(pool: Pool, p: Process)
    requires Valid(pool)
    ensures
      var g := New(pool, p, 0);
      var h := New(g.pool, p, 0);
      g.w.id != h.w.id && forall a :: a in h.pool.objects ==> h.pool.objects[a].id != g.w.id && h.pool.objects[a].id != h.w.id
  {
  }

  /** Wrapping a list of addresses in order, as `get_children` does with `Instance.new`. */
  function WrapAll(pool: Pool, p: Process, addrs: seq<int>): (r: (seq<Wrapper>, Pool))
    ensures |r.0| == |addrs|
    ensures Valid(pool) ==> forall i :: 0 <= i < |addrs| ==> r.0[i].address == addrs[i]
    ensures Valid(pool) ==> Valid(r.1)
    decreases |addrs|
  {
    if addrs == [] then ([], pool)
    else
      var g := New(pool, p, addrs[0]);
      var rest := WrapAll(g.pool, p, addrs[1..]);
      ([g.w] + rest.0, rest.1)
  }

  /** Wrapping nonzero addresses caches every one of them. */
  lemma {:induction false} WrapAllCaches(pool: Pool, p: Process, addrs: seq<int>)
    requires 0 !in addrs
    ensures forall a :: a in addrs ==> a in WrapAll(pool, p, addrs).1.objects
    ensures forall a :: a in pool.objects ==> a in WrapAll(pool, p, addrs).1.objects && WrapAll(pool, p, addrs).1.objects[a] == pool.objects[a]
    decreases |addrs|
  {
    if addrs != [] {
      var g := New(pool, p, addrs[0]);
      assert 0 !in addrs[1..] by { assert forall x :: x in addrs[1..] ==> x in addrs; }
      WrapAllCaches(g.pool, p, addrs[1..]);
      assert forall a :: a in addrs ==> a == addrs[0] || a in addrs[1..];
    }
  }
}

=== FILE: decoding.dfy ===
/**
 * `bytes.decode("utf-8", errors="ignore")`: well-formed UTF-8 sequences
 * become characters; every ill-formed run (the longest prefix of a sequence
 * that could still have been valid, or one stray byte) is dropped and
 * decoding resumes after it.
 */
module Decoding {
  import opened Bytes

  predicate IsCont(b: byte) {
    0x80 <= b <= 0xBF
  }

  /** Bytes a well-formed sequence with lead b0 has in total, 0 for a byte that cannot lead. */
  function SeqLength(b0: byte): (n: nat)
    ensures n <= 4
  {
    if b0 < 0x80 then 1
    else if 0xC2 <= b0 <= 0xDF then 2
    else if 0xE0 <= b0 <= 0xEF then 3
    else if 0xF0 <= b0 <= 0xF4 then 4
    else 0
  }

  /** The range the second byte must lie in after lead b0 (the overlong and surrogate exclusions). */
  function SecondLow(b0: byte): byte {
    if b0 == 0xE0 then 0xA0 else if b0 == 0xF0 then 0x90 else 0x80
  }

  function SecondHigh(b0: byte): byte {
    if b0 == 0xED then 0x9F else if b0 == 0xF4 then 0x8F else 0xBF
  }

  /** How many bytes of the front of bs, from the lead on, follow the rules for that lead. */
  function ValidPrefix(bs: seq<byte>): (k: nat)
    requires |bs| > 0
    ensures 1 <= k <= |bs| && k <= 4
    ensures k <= SeqLength(bs[0]) || (k == 1 && SeqLength(bs[0]) == 0)
  {
    var n := SeqLength(bs[0]);
    if n <= 1 then 1
    else if |bs| < 2 || !(SecondLow(bs[0]) <= bs[1] <= SecondHigh(bs[0])) then 1
    else if n == 2 then 2
    else if |bs| < 3 || !IsCont(bs[2]) then 2
    else if n == 3 then 3
    else if |bs| < 4 || !IsCont(bs[3]) then 3
    else 4
  }

  /** The scalar value of a complete, well-formed sequence at the front of bs. */
  function CodePoint(bs: seq<byte>): (c: char)
    requires |bs| > 0 && SeqLength(bs[0]) >= 1 && ValidPrefix(bs) == SeqLength(bs[0])
  {
    var n := SeqLength(bs[0]);
    if n == 1 then (bs[0] as int) as char
    else if n == 2 then ((bs[0] as int - 0xC0) * 64 + (bs[1] as int - 0x80)) as char
    else if n == 3 then
      var v := (bs[0] as int - 0xE0) * 4096 + (bs[1] as int - 0x80) * 64 + (bs[2] as int - 0x80);
      assert bs[0] == 0xE0 ==> v >= 0x800;
      assert bs[0] == 0xED ==> v < 0xD800;
      assert bs[0] != 0xED ==> v < 0xD000 || v >= 0xE000;
      v as char
    else
      var v := (bs[0] as int - 0xF0) * 262144 + (bs[1] as int - 0x80) * 4096 + (bs[2] as int - 0x80) * 64 + (bs[3] as int - 0x80);
      assert v < 0x110000;
      v as char
  }

  /** `decode("utf-8", "ignore")`. */
  function DecodeIgnore(bs: seq<byte>): (s: string)
    ensures |s| <= |bs|
    decreases |bs|
  {
    if bs == [] then []
    else
      var k := ValidPrefix(bs);
      if k == SeqLength(bs[0]) then [CodePoint(bs)] + DecodeIgnore(bs[k..])
      else DecodeIgnore(bs[k..])
  }

  /** The encoding of one character is a complete, well-formed sequence whose value is that character. */
  lemma Utf8CharDecodes(c: char, rest: seq<byte>)
    ensures
      var e := Utf8Char(c) + rest;
      SeqLength(e[0]) == |Utf8Char(c)| && ValidPrefix(e) == |Utf8Char(c)| && CodePoint(e) == c
  {
    var n := c as int;
    if n < 0x80 {
    } else if n < 0x800 {
      Decodes2(c, rest);
    } else if n < 0x10000 {
      Decodes3(c, rest);
    } else {
      Decodes4(c, rest);
    }
  }

  lemma Decodes2(c: char, rest: seq<byte>)
    requires 0x80 <= c as int < 0x800
    ensures
      var e := Utf8Char(c) + rest;
      SeqLength(e[0]) == 2 && ValidPrefix(e) == 2 && CodePoint(e) == c
  {
    var n := c as int;
    var e := Utf8Char(c) + rest;
    var hi, lo := n / 64, n % 64;
    assert n == 64 * hi + lo;
    assert 2 <= hi < 32;
    assert e[0] as int == 0xC0 + hi && e[1] as int == 0x80 + lo;
  }

  /** The three 6-bit groups of a value below 0x10000. */
  lemma Groups3(n: int)
    requires 0x800 <= n < 0x10000
    ensures n == 4096 * (n / 4096) + 64 * (n / 64 % 64) + n % 64
    ensures n / 4096 < 16
    ensures n / 4096 == 0 ==> n / 64 % 64 >= 32
    ensures n / 4096 == 13 && n < 0xD800 ==> n / 64 % 64 < 32
  {
    var q := n / 64;
    assert n == 64 * q + n % 64;
    assert q == 64 * (q / 64) + q % 64;
    assert q / 64 == n / 4096;
  }

  /** The four 6-bit groups of a value below 0x110000. */
  lemma Groups4(n: int)
    requires 0x10000 <= n < 0x110000
    ensures n == 262144 * (n / 262144) + 4096 * (n / 4096 % 64) + 64 * (n / 64 % 64) + n % 64
    ensures n / 262144 <= 4
    ensures n / 262144 == 0 ==> n / 4096 % 64 >= 16
    ensures n / 262144 == 4 ==> n / 4096 % 64 < 16
  {
    var q := n / 64;
    var r := q / 64;
    assert n == 64 * q + n % 64;
    assert q == 64 * r + q % 64;
    assert r == 64 * (r / 64) + r % 64;
    assert r == n / 4096;
    assert r / 64 == n / 262144;
  }

  lemma Decodes3(c: char, rest: seq<byte>)
    requires 0x800 <= c as int < 0x10000
    ensures
      var e := Utf8Char(c) + rest;
      SeqLength(e[0]) == 3 && ValidPrefix(e) == 3 && CodePoint(e) == c
  {
    var n := c as int;
    var e := Utf8Char(c) + rest;
    var a, b, d := n / 4096, n / 64 % 64, n % 64;
    assert n < 0xD800 || n >= 0xE000;
    Groups3(n);
    assert e[0] as int == 0xE0 + a && e[1] as int == 0x80 + b && e[2] as int == 0x80 + d;
  }

  /** A lead byte 0xF0+a followed by three continuation groups is a complete sequence of that value. */
  lemma Sequence4(e: seq<byte>, a: int, b: int, d: int, f: int)
    requires |e| >= 4 && 0 <= a <= 4 && 0 <= b < 64 && 0 <= d < 64 && 0 <= f < 64
    requires a == 0 ==> b >= 16
    requires a == 4 ==> b < 16
    requires e[0] as int == 0xF0 + a && e[1] as int == 0x80 + b && e[2] as int == 0x80 + d && e[3] as int == 0x80 + f
    ensures SeqLength(e[0]) == 4 && ValidPrefix(e) == 4
    ensures CodePoint(e) as int == 262144 * a + 4096 * b + 64 * d + f
  {
  }

  /** The bytes of a four-byte encoding. */
  lemma Utf8Char4(c: char)
    requires 0x10000 <= c as int
    ensures
      var n := c as int;
      var e := Utf8Char(c);
      |e| == 4 && e[0] as int == 0xF0 + n / 262144 && e[1] as int == 0x80 + n / 4096 % 64 &&
      e[2] as int == 0x80 + n / 64 % 64 && e[3] as int == 0x80 + n % 64
  {
  }

  lemma Decodes4(c: char, rest: seq<byte>)
    requires 0x10000 <= c as int
    ensures
      var e := Utf8Char(c) + rest;
      SeqLength(e[0]) == 4 && ValidPrefix(e) == 4 && CodePoint(e) == c
  {
    var n := c as int;
    var e := Utf8Char(c) + rest;
    assert n < 0x110000;
    Groups4(n);
    Utf8Char4(c);
    Sequence4(e, n / 262144, n / 4096 % 64, n / 64 % 64, n % 64);
  }

  /** Decoding the UTF-8 encoding of any text gives the text back. */
  lemma {:induction false} DecodeUtf8(s: string)
    ensures DecodeIgnore(Utf8(s)) == s
    decreases |s|
  {
    if |s| > 0 {
      var h := Utf8Char(s[0]);
      var e := Utf8(s);
      assert e == h + Utf8(s[1..]);
      Utf8CharDecodes(s[0], Utf8(s[1..]));
      assert e[|h|..] == Utf8(s[1..]);
      DecodeUtf8(s[1..]);
    }
  }

  /** Bytes that cannot start a sequence are dropped: decoding skips them and carries on. */
  lemma DecodeSkipsStray(b: byte, rest: seq<byte>)
    requires 0x80 <= b <= 0xC1 || b >= 0xF5
    ensures DecodeIgnore([b] + rest) == DecodeIgnore(rest)
  {
    assert ([b] + rest)[1..] == rest;
  }
}

=== FILE: descriptors.dfy ===
/**
 * The reflection descriptors of a class (pyrblx/subclasses.py, looked up
 * from pyrblx/classes.py): property descriptors, event descriptors and bound
 * functions. Each is a bare address; its name is the string object whose
 * pointer sits at +0x8. A lookup by name that finds nothing returns a
 * descriptor at address 0, which is falsy.
 */
module Descriptors {
  import opened Wrappers
  import opened Bytes
  import opened Memory
  import opened Strings
  import opened Offsets
  import opened Lists
  import opened Trees
  import opened Instances

  datatype DescriptorKind = PropertyKind | EventKind | BoundFunctionKind

  datatype Descriptor = Descriptor(kind: DescriptorKind, address: int) {
    /** `__bool__` of `PropertyDescriptor`, `EventDescriptor` and `BoundFunction`. */
    predicate Truthy() {
      address > 0
    }
  }

  /** The name pointer of every descriptor kind sits at this offset. */
  const NameField: int := 0x8

  /** The offset name of the class descriptor's list of each kind. */
  function ListOffset(k: DescriptorKind): string {
    match k
    case PropertyKind => "ClassDescriptorToPropertyDescriptor"
    case EventKind => "ClassDescriptorToEventDescriptor"
    case BoundFunctionKind => "ClassDescriptorToBoundFunction"
  }

  /** `get_name` of a descriptor: the string behind the pointer at +0x8. */
  function DescriptorName(p: Process, d: int): (r: string)
    ensures forall i :: 0 <= i < |r| ==> r[i] != '\0'
  {
    ReadString2(p.mem, ReadPtr(p.mem, d + NameField))
  }

  /**
   * `get_propertydescriptors`, `get_eventdescriptors`, `get_boundfunctions`:
   * the nonzero pointers of the class descriptor's list, or [] when the
   * offset cannot be parsed.
   */
  function DescriptorList(p: Process, a: int, k: DescriptorKind): (r: seq<int>)
    ensures 0 !in r
    ensures GetOffset(p.offsets, ListOffset(k)).None? ==> r == []
  {
    match GetOffset(p.offsets, ListOffset(k))
    case None => []
    case Some(o) => ReadList(p.mem, ClassDescriptor(p, a) + o)
  }

  /**
   * `get_propertydescriptor`, `get_eventdescriptor`, `get_boundfunction`:
   * the first listed descriptor with that name, else the descriptor at 0.
   */
  function FindDescriptor(p: Process, a: int, k: DescriptorKind, name: string): (d: Descriptor)
    ensures d.kind == k
    ensures d.address != 0 ==> d.address in DescriptorList(p, a, k) && DescriptorName(p, d.address) == name
    ensures d.address == 0 <==> forall x :: x in DescriptorList(p, a, k) ==> DescriptorName(p, x) != name
    ensures d.address != 0 ==> (exists i :: 0 <= i < |DescriptorList(p, a, k)| && DescriptorList(p, a, k)[i] == d.address && forall j :: 0 <= j < i ==> DescriptorName(p, DescriptorList(p, a, k)[j]) != name)
  {
    Descriptor(k, FirstOr0(DescriptorList(p, a, k), x => DescriptorName(p, x) == name))
  }

  /** A lookup that finds no descriptor of that name yields a falsy descriptor. */
  lemma MissingDescriptorFalsy(p: Process, a: int, k: DescriptorKind, name: string)
    requires forall x :: x in DescriptorList(p, a, k) ==> DescriptorName(p, x) != name
    ensures !FindDescriptor(p, a, k, name).Truthy()
  {
  }

  /** A truthy lookup result is a listed descriptor carrying the name asked for. */
  lemma TruthyDescriptorFound(p: Process, a: int, k: DescriptorKind, name: string)
    requires FindDescriptor(p, a, k, name).Truthy()
    ensures FindDescriptor(p, a, k, name).address in DescriptorList(p, a, k)
    ensures DescriptorName(p, FindDescriptor(p, a, k, name).address) == name
  {
  }

  /** Descriptors and instances share one notion of truthiness. */
  lemma DescriptorTruthyAsInstance(d: Descriptor)
    ensures d.Truthy() <==> Truthy(d.address)
  {
  }
}

=== FILE: explorer.dfy ===
/**
 * The explorer panel's bookkeeping in pyrblx/main.py, with no widgets
 * involved: the two record maps between instances and their rows, the
 * recursive `loadButton` that fills them, `deleteButton`, the per-tick
 * descendant diff of `updateButton`, and `get_descendants_fast`.
 *
 * An instance is identified by its address: the identity cache hands out one
 * object per nonzero address, and the object for address 0 is never cached,
 * so it is never found in a map. A row is identified by a number drawn from a
 * counter, since every `loadButton` builds a new widget. One tick's remote
 * tree is a finite `Tree`; the parent pointer is a separate function because
 * `get_parent` reads it from memory independently of the child lists.
 */
module Explorer {
  import opened Wrappers
  import opened Trees

  /** `instance_buttons` (fwd) and `instance_buttons_rev` (rev), and the next fresh row. */
  datatype Records = Records(fwd: map<int, nat>, rev: map<nat, int>, next: nat)

  /** Every forward entry is matched by the reverse entry of its row. */
  predicate Backed(r: Records) {
    forall o :: o in r.fwd ==> r.fwd[o] in r.rev && r.rev[r.fwd[o]] == o
  }

  /** Every row ever built is numbered below the counter. */
  predicate Fresh(r: Records) {
    forall w :: w in r.rev ==> w < r.next
  }

  /** The two maps are mutual inverses. */
  predicate Inverse(r: Records) {
    Backed(r) && forall w :: w in r.rev ==> r.rev[w] in r.fwd && r.fwd[r.rev[w]] == w
  }

  function ToSet(s: seq<int>): set<int> {
    set x | x in s
  }

  /** Lines 379-380 of `loadButton`: a new row for obj, entered in both maps. */
  function Record(r: Records, obj: int): (r': Records)
    ensures r'.fwd.Keys == r.fwd.Keys + {obj}
    ensures r'.rev.Keys == r.rev.Keys + {r.next}
    ensures r'.next == r.next + 1
    ensures Backed(r) && Fresh(r) ==> Backed(r') && Fresh(r')
  {
    Records(r.fwd[obj := r.next], r.rev[r.next := obj], r.next + 1)
  }

  /**
   * `loadButton`: a row for the instance, then, child by child, the rows of
   * its subtree. Each node of the subtree gets a new row, so the counter
   * advances by the size of the tree.
   */
  function LoadButton(r: Records, t: Tree): (r': Records)
    ensures r'.fwd.Keys == r.fwd.Keys + {t.addr} + ToSet(PreOrder(t))
    ensures r'.next == r.next + Size(t)
    ensures Backed(r) && Fresh(r) ==> Backed(r') && Fresh(r')
    decreases t, 1
  {
    LoadChildren(Record(r, t.addr), t.kids)
  }

  /** The loop over the children in `loadButton`. */
  function LoadChildren(r: Records, ts: seq<Tree>): (r': Records)
    ensures r'.fwd.Keys == r.fwd.Keys + ToSet(PreOrderOf(ts))
    ensures r'.next == r.next + SizeOf(ts)
    ensures Backed(r) && Fresh(r) ==> Backed(r') && Fresh(r')
    decreases ts, 0
  {
    if ts == [] then r
    else
      var r1 := LoadButton(r, ts[0]);
      var r2 := LoadChildren(r1, ts[1..]);
      assert ToSet(PreOrderOf(ts)) == {ts[0].addr} + ToSet(PreOrder(ts[0])) + ToSet(PreOrderOf(ts[1..]));
      r2
  }

  /**
   * `deleteButton`: drops obj's forward entry and the reverse entry of the
   * row it points to; an unrecorded instance is left alone.
   */
  function DeleteButton(r: Records, obj: int): (r': Records)
    ensures r'.fwd.Keys == r.fwd.Keys - {obj}
    ensures obj !in r.fwd ==> r' == r
    ensures obj in r.fwd ==> r'.rev.Keys == r.rev.Keys - {r.fwd[obj]}
    ensures Backed(r) && Fresh(r) ==> Backed(r') && Fresh(r')
    ensures Inverse(r) ==> Inverse(r')
  {
    if obj in r.fwd then Records(r.fwd - {obj}, r.rev - {r.fwd[obj]}, r.next) else r
  }

  /** The subtree below every node of a tree, in the order of `PreOrder`. */
  function Subtrees(t: Tree): seq<Tree>
    decreases t, 1
  {
    SubtreesOf(t.kids)
  }

  function SubtreesOf(ts: seq<Tree>): seq<Tree>
    decreases ts, 0
  {
    if ts == [] then [] else [ts[0]] + Subtrees(ts[0]) + SubtreesOf(ts[1..])
  }

  /** The subtrees' roots are exactly the pre-order listing. */
  lemma {:induction false} SubtreesAddrs(t: Tree)
    ensures Addrs(Subtrees(t)) == PreOrder(t)
    decreases t, 1
  {
    SubtreesOfAddrs(t.kids);
  }

  lemma {:induction false} SubtreesOfAddrs(ts: seq<Tree>)
    ensures Addrs(SubtreesOf(ts)) == PreOrderOf(ts)
    decreases ts, 0
  {
    if ts != [] {
      SubtreesAddrs(ts[0]);
      SubtreesOfAddrs(ts[1..]);
      AddrsAppend([ts[0]] + Subtrees(ts[0]), SubtreesOf(ts[1..]));
      AddrsAppend([ts[0]], Subtrees(ts[0]));
    }
  }

  lemma AddrsAppend(a: seq<Tree>, b: seq<Tree>)
    ensures Addrs(a + b) == Addrs(a) + Addrs(b)
  {
  }

  /** Every node below a subtree of t is itself listed in t's pre-order. */
  lemma {:induction false} SubtreeWithin(t: Tree, i: nat)
    requires i < |Subtrees(t)|
    ensures Subtrees(t)[i].addr in PreOrder(t)
    ensures ToSet(PreOrder(Subtrees(t)[i])) <= ToSet(PreOrder(t))
    decreases t, 1
  {
    SubtreeOfWithin(t.kids, i);
  }

  lemma {:induction false} SubtreeOfWithin(ts: seq<Tree>, i: nat)
    requires i < |SubtreesOf(ts)|
    ensures SubtreesOf(ts)[i].addr in PreOrderOf(ts)
    ensures ToSet(PreOrder(SubtreesOf(ts)[i])) <= ToSet(PreOrderOf(ts))
    decreases ts, 0
  {
    var head := [ts[0]] + Subtrees(ts[0]);
    var s := SubtreesOf(ts)[i];
    assert ToSet(PreOrderOf(ts)) == {ts[0].addr} + ToSet(PreOrder(ts[0])) + ToSet(PreOrderOf(ts[1..]));
    if i == 0 {
      assert s == ts[0];
    } else if i < |head| {
      assert s == Subtrees(ts[0])[i - 1];
      SubtreeWithin(ts[0], i - 1);
    } else {
      assert s == SubtreesOf(ts[1..])[i - |head|];
      SubtreeOfWithin(ts[1..], i - |head|);
    }
  }

  /**
   * One iteration of the first loop of `updateButton`: a node new since the
   * previous tick is loaded under its parent's row when the parent has one;
   * a node seen before is only relabelled, which leaves the maps alone.
   */
  function UpdateStep(r: Records, prev: seq<int>, parent: int -> int, s: Tree): (r': Records)
    ensures s.addr in prev ==> r' == r
    ensures s.addr !in prev && (parent(s.addr) == 0 || parent(s.addr) !in r.fwd) ==> r' == r
    ensures s.addr !in prev && parent(s.addr) != 0 && parent(s.addr) in r.fwd ==> s.addr in r'.fwd
    ensures r.fwd.Keys <= r'.fwd.Keys <= r.fwd.Keys + {s.addr} + ToSet(PreOrder(s))
    ensures Backed(r) && Fresh(r) ==> Backed(r') && Fresh(r')
  {
    if s.addr in prev then r
    else if parent(s.addr) != 0 && parent(s.addr) in r.fwd then LoadButton(r, s)
    else r
  }

  /** The first loop of `updateButton`, over the subtrees of the walked nodes. */
  function Refresh(r: Records, prev: seq<int>, parent: int -> int, ss: seq<Tree>): (r': Records)
    ensures r.fwd.Keys <= r'.fwd.Keys
    ensures Backed(r) && Fresh(r) ==> Backed(r') && Fresh(r')
    decreases |ss|
  {
    if ss == [] then r else Refresh(UpdateStep(r, prev, parent, ss[0]), prev, parent, ss[1..])
  }

  /** The second loop of `updateButton`: every node of the previous tick that is gone loses its rows. */
  function Prune(r: Records, prev: seq<int>, current: seq<int>): (r': Records)
    ensures r'.fwd.Keys == r.fwd.Keys - (ToSet(prev) - ToSet(current))
    ensures Backed(r) && Fresh(r) ==> Backed(r') && Fresh(r')
    ensures Inverse(r) ==> Inverse(r')
    decreases |prev|
  {
    if prev == [] then r
    else
      var r1 := if prev[0] !in current then DeleteButton(r, prev[0]) else r;
      var r2 := Prune(r1, prev[1..], current);
      assert ToSet(prev) == {prev[0]} + ToSet(prev[1..]);
      r2
  }

  /**
   * `updateButton`: walks the subtree again, applies the first loop (skipped
   * when the explorer is disabled, as its `break` stops it at once), then the
   * deletion loop, and returns the walked list for the next tick.
   */
  function UpdateButton(r: Records, enabled: bool, parent: int -> int, t: Tree, prev: seq<int>): (u: (seq<int>, Records))
    ensures u.0 == PreOrder(t)
    ensures Backed(r) && Fresh(r) ==> Backed(u.1) && Fresh(u.1)
  {
    var current := PreOrder(t);
    var loaded := if enabled then Refresh(r, prev, parent, Subtrees(t)) else r;
    (current, Prune(loaded, prev, current))
  }

  /** The first loop only adds rows for nodes under the subtrees it visits. */
  lemma {:induction false} RefreshWithin(r: Records, prev: seq<int>, parent: int -> int, ss: seq<Tree>, bound: set<int>)
    requires forall i :: 0 <= i < |ss| ==> ss[i].addr in bound && ToSet(PreOrder(ss[i])) <= bound
    ensures Refresh(r, prev, parent, ss).fwd.Keys <= r.fwd.Keys + bound
    decreases |ss|
  {
    if ss != [] {
      RefreshWithin(UpdateStep(r, prev, parent, ss[0]), prev, parent, ss[1..], bound);
    }
  }

  /**
   * The first loop gives a row to every visited node that is new since the
   * previous tick and whose parent had a row before the loop began.
   */
  lemma {:induction false} RefreshAdds(r: Records, prev: seq<int>, parent: int -> int, ss: seq<Tree>, i: nat)
    requires i < |ss| && ss[i].addr !in prev
    requires parent(ss[i].addr) != 0 && parent(ss[i].addr) in r.fwd
    ensures ss[i].addr in Refresh(r, prev, parent, ss).fwd
    decreases |ss|
  {
    var r1 := UpdateStep(r, prev, parent, ss[0]);
    if i > 0 {
      assert ss[1..][i - 1] == ss[i];
      RefreshAdds(r1, prev, parent, ss[1..], i - 1);
    }
  }

  /**
   * After a tick, a node still present keeps its row, a node gone since the
   * previous tick has none, every new row belongs to a walked node, and an
   * enabled tick gives a row to every walked node that is new and whose
   * parent already had one.
   */
  lemma UpdateButtonKeys(r: Records, enabled: bool, parent: int -> int, t: Tree, prev: seq<int>, x: int)
    ensures x in prev && x in PreOrder(t) && x in r.fwd ==> x in UpdateButton(r, enabled, parent, t, prev).1.fwd
    ensures x in prev && x !in PreOrder(t) ==> x !in UpdateButton(r, enabled, parent, t, prev).1.fwd
    ensures x in UpdateButton(r, enabled, parent, t, prev).1.fwd && x !in r.fwd ==> x in PreOrder(t)
    ensures enabled && x in PreOrder(t) && x !in prev && parent(x) != 0 && parent(x) in r.fwd ==>
      x in UpdateButton(r, enabled, parent, t, prev).1.fwd
  {
    if enabled {
      var ss := Subtrees(t);
      forall i | 0 <= i < |ss| ensures ss[i].addr in ToSet(PreOrder(t)) && ToSet(PreOrder(ss[i])) <= ToSet(PreOrder(t)) {
        SubtreeWithin(t, i);
      }
      RefreshWithin(r, prev, parent, ss, ToSet(PreOrder(t)));
      if x in PreOrder(t) && x !in prev && parent(x) != 0 && parent(x) in r.fwd {
        SubtreesAddrs(t);
        var i :| 0 <= i < |PreOrder(t)| && PreOrder(t)[i] == x;
        assert Addrs(ss)[i] == ss[i].addr;
        RefreshAdds(r, prev, parent, ss, i);
      }
    }
  }

  /** In the double-load example every instance's parent is the address just below it. */
  function Below(x: int): int {
    x - 1
  }

  /** The example tree: root 1, then 2 under it, then 3 under 2. */
  function Chain(): Tree {
    Node(1, [Node(2, [Node(3, [])])])
  }

  /** The example's records before the tick: only the root has a row. */
  function RootOnly(): Records {
    Records(map[1 := 0], map[0 := 1], 1)
  }

  /**
   * The double load: a node new in this tick is loaded together with its
   * subtree, and the loop then reaches each of its descendants, which are new
   * too and now have a recorded parent, and loads them again. The forward
   * entry is overwritten and the first row's reverse entry is left behind.
   */
  lemma DoubleLoad()
    ensures Inverse(RootOnly())
    ensures !Inverse(UpdateButton(RootOnly(), true, Below, Chain(), []).1)
  {
    var r2 := Record(Record(Record(RootOnly(), 2), 3), 3);
    DoubleLoadRefresh();
    ChainSubtrees();
    assert UpdateButton(RootOnly(), true, Below, Chain(), []).1 == Prune(r2, [], PreOrder(Chain()));
    assert 2 in r2.rev && r2.rev[2] == 3 && r2.fwd[3] == 3;
  }

  lemma ChainSubtrees()
    ensures Subtrees(Chain()) == [Node(2, [Node(3, [])]), Node(3, [])]
  {
    var t3 := Node(3, []);
    var t2 := Node(2, [t3]);
    assert [t3][1..] == [] && [t2][1..] == [];
    assert Subtrees(t2) == [t3] + Subtrees(t3) + SubtreesOf([]);
    assert Subtrees(Chain()) == [t2] + Subtrees(t2) + SubtreesOf([]);
  }

  /** Node 2 is loaded with node 3 below it, and node 3 is then loaded again. */
  lemma DoubleLoadRefresh()
    ensures Refresh(RootOnly(), [], Below, [Node(2, [Node(3, [])]), Node(3, [])]) ==
      Record(Record(Record(RootOnly(), 2), 3), 3)
  {
    var r := RootOnly();
    var t3 := Node(3, []);
    var t2 := Node(2, [t3]);
    var r1 := Record(Record(r, 2), 3);
    assert [t3][1..] == [];
    assert LoadButton(Record(r, 2), t3) == r1;
    assert LoadButton(r, t2) == LoadChildren(Record(r, 2), [t3]) == r1;
    assert UpdateStep(r, [], Below, t2) == r1;
    assert UpdateStep(r1, [], Below, t3) == Record(r1, 3);
    assert [t2, t3][1..] == [t3];
  }

  /**
   * `loadButton` with the stale row dropped: an instance that already has a
   * row loses that row's reverse entry before it is given the new one.
   */
  function RecordFixed(r: Records, obj: int): (r': Records)
    ensures r'.fwd.Keys == r.fwd.Keys + {obj}
    ensures r'.next == r.next + 1
    ensures Inverse(r) && Fresh(r) ==> Inverse(r') && Fresh(r')
  {
    var rev := if obj in r.fwd then r.rev - {r.fwd[obj]} else r.rev;
    Records(r.fwd[obj := r.next], rev[r.next := obj], r.next + 1)
  }

  function LoadButtonFixed(r: Records, t: Tree): (r': Records)
    ensures r'.fwd.Keys == r.fwd.Keys + {t.addr} + ToSet(PreOrder(t))
    ensures Inverse(r) && Fresh(r) ==> Inverse(r') && Fresh(r')
    decreases t, 1
  {
    LoadChildrenFixed(RecordFixed(r, t.addr), t.kids)
  }

  function LoadChildrenFixed(r: Records, ts: seq<Tree>): (r': Records)
    ensures r'.fwd.Keys == r.fwd.Keys + ToSet(PreOrderOf(ts))
    ensures Inverse(r) && Fresh(r) ==> Inverse(r') && Fresh(r')
    decreases ts, 0
  {
    if ts == [] then r
    else
      var r1 := LoadButtonFixed(r, ts[0]);
      var r2 := LoadChildrenFixed(r1, ts[1..]);
      assert ToSet(PreOrderOf(ts)) == {ts[0].addr} + ToSet(PreOrder(ts[0])) + ToSet(PreOrderOf(ts[1..]));
      r2
  }

  function UpdateStepFixed(r: Records, prev: seq<int>, parent: int -> int, s: Tree): (r': Records)
    ensures s.addr in prev ==> r' == r
    ensures Inverse(r) && Fresh(r) ==> Inverse(r') && Fresh(r')
  {
    if s.addr in prev then r
    else if parent(s.addr) != 0 && parent(s.addr) in r.fwd then LoadButtonFixed(r, s)
    else r
  }

  function RefreshFixed(r: Records, prev: seq<int>, parent: int -> int, ss: seq<Tree>): (r': Records)
    ensures r.fwd.Keys <= r'.fwd.Keys
    ensures Inverse(r) && Fresh(r) ==> Inverse(r') && Fresh(r')
    decreases |ss|
  {
    if ss == [] then r else RefreshFixed(UpdateStepFixed(r, prev, parent, ss[0]), prev, parent, ss[1..])
  }

  /** `updateButton` over the corrected `loadButton`: the two maps stay mutual inverses. */
  function UpdateButtonFixed(r: Records, enabled: bool, parent: int -> int, t: Tree, prev: seq<int>): (u: (seq<int>, Records))
    ensures u.0 == PreOrder(t)
    ensures Inverse(r) && Fresh(r) ==> Inverse(u.1) && Fresh(u.1)
  {
    var current := PreOrder(t);
    var loaded := if enabled then RefreshFixed(r, prev, parent, Subtrees(t)) else r;
    (current, Prune(loaded, prev, current))
  }

  /** The fix changes nothing when no instance is loaded twice. */
  lemma RecordFixedAgrees(r: Records, obj: int)
    requires obj !in r.fwd
    ensures RecordFixed(r, obj) == Record(r, obj)
  {
  }

  /**
   * `get_descendants_fast`: for each child in order, the child and then its
   * own descendants. It lists the tree in pre-order, the same list the
   * bounded walk of `get_descendants` yields from the same child lists.
   */
  method DescendantsFast(kids: int -> seq<int>, a: int, ghost t: Tree) returns (r: seq<int>)
    requires Realises(kids, t) && t.addr == a
    ensures r == PreOrder(t)
    ensures Walk(kids, a, Height(t)) == Some(r)
    decreases t
  {
    var children := kids(a);
    r := [];
    var i := 0;
    while i < |children|
      invariant 0 <= i <= |children| == |t.kids|
      invariant r == PreOrderOf(t.kids[..i])
    {
      var c := t.kids[i];
      assert children[i] == c.addr;
      var d := DescendantsFast(kids, children[i], c);
      PreOrderOfSnoc(t.kids[..i], c);
      assert t.kids[..i + 1] == t.kids[..i] + [c];
      r := r + [children[i]] + d;
      i := i + 1;
    }
    assert t.kids[..i] == t.kids;
    WalkPreOrder(kids, t, Height(t));
  }

  /**
   * `get_descendants_fast` on any child lists, cyclic ones included: with
   * the depth bound standing for the recursion limit, it computes exactly
   * the bounded walk of `get_descendants`.
   */
  method DescendantsFastBounded(kids: int -> seq<int>, a: int, fuel: nat) returns (r: Option<seq<int>>)
    ensures r == Walk(kids, a, fuel)
    decreases fuel
  {
    if fuel == 0 {
      return None;
    }
    var children := kids(a);
    var acc: seq<int> := [];
    var i := 0;
    while i < |children|
      invariant 0 <= i <= |children|
      invariant WalkOf(kids, children[..i], fuel - 1) == Some(acc)
    {
      var d := DescendantsFastBounded(kids, children[i], fuel - 1);
      WalkOfAppend(kids, children[..i], [children[i]], fuel - 1);
      WalkOfSingle(kids, children[i], fuel - 1);
      assert children[..i + 1] == children[..i] + [children[i]];
      if d.None? {
        WalkOfAppend(kids, children[..i + 1], children[i + 1..], fuel - 1);
        assert children[..i + 1] + children[i + 1..] == children;
        return None;
      }
      assert acc + ([children[i]] + d.value) == acc + [children[i]] + d.value;
      acc := acc + [children[i]] + d.value;
      i := i + 1;
    }
    assert children[..i] == children;
    return Some(acc);
  }

  lemma WalkOfSingle(kids: int -> seq<int>, c: int, fuel: nat)
    ensures WalkOf(kids, [c], fuel) == match Walk(kids, c, fuel) case None => None case Some(d) => Some([c] + d)
  {
    assert [c][1..] == [];
    if Walk(kids, c, fuel).Some? {
      assert [c] + Walk(kids, c, fuel).value + [] == [c] + Walk(kids, c, fuel).value;
    }
  }

  /** The walk of a concatenation of child lists is the concatenation of their walks. */
  lemma {:induction false} WalkOfAppend(kids: int -> seq<int>, cs: seq<int>, ds: seq<int>, fuel: nat)
    ensures WalkOf(kids, cs + ds, fuel) ==
      match WalkOf(kids, cs, fuel)
      case None => None
      case Some(x) => match WalkOf(kids, ds, fuel) case None => None case Some(y) => Some(x + y)
    decreases |cs|
  {
    if cs == [] {
      assert cs + ds == ds;
      if WalkOf(kids, ds, fuel).Some? {
        assert [] + WalkOf(kids, ds, fuel).value == WalkOf(kids, ds, fuel).value;
      }
    } else {
      assert (cs + ds)[0] == cs[0];
      assert (cs + ds)[1..] == cs[1..] + ds;
      WalkOfAppend(kids, cs[1..], ds, fuel);
      if Walk(kids, cs[0], fuel).Some? && WalkOf(kids, cs[1..], fuel).Some? && WalkOf(kids, ds, fuel).Some? {
        var d, x, y := Walk(kids, cs[0], fuel).value, WalkOf(kids, cs[1..], fuel).value, WalkOf(kids, ds, fuel).value;
        assert [cs[0]] + d + (x + y) == ([cs[0]] + d + x) + y;
      }
    }
  }

  lemma {:induction false} PreOrderOfSnoc(ts: seq<Tree>, c: Tree)
    ensures PreOrderOf(ts + [c]) == PreOrderOf(ts) + [c.addr] + PreOrder(c)
    decreases |ts|
  {
    if ts == [] {
      assert PreOrderOf([c]) == [c.addr] + PreOrder(c) + PreOrderOf([]);
    } else {
      assert (ts + [c])[1..] == ts[1..] + [c];
      PreOrderOfSnoc(ts[1..], c);
    }
  }
}

=== FILE: history.dfy ===
/**
 * The execute box's history in pyrblx/main.py: `executeCode` puts the new
 * text in front of the entries from the current position on, and the up and
 * down hotkeys show the entry at the current position and then move it,
 * clamped to the list.
 */
module History {
  import opened Wrappers

  /** `execute_history` and `execute_history_current`. */
  datatype History = History(entries: seq<string>, current: int)

  /** The position is an index of the list, or 0 when the list is empty. */
  predicate Valid(h: History) {
    0 <= h.current && (h.entries == [] ==> h.current == 0) && (h.entries != [] ==> h.current < |h.entries|)
  }

  /** The state the window starts with (lines 55-56). */
  function Initial(): (h: History)
    ensures Valid(h) && h.entries == []
  {
    History([], 0)
  }

  /** Python's `s[c:len(s)]`, which clamps the start and counts a negative one from the end. */
  function From<T>(s: seq<T>, c: int): (r: seq<T>)
    ensures 0 <= c <= |s| ==> r == s[c..]
    ensures c >= |s| ==> r == []
  {
    if c < 0 then (if |s| + c < 0 then s else s[|s| + c..])
    else if c > |s| then []
    else s[c..]
  }

  /** The history part of `executeCode`: empty text changes nothing. */
  function ExecuteCode(h: History, text: string): (r: History)
    ensures text == "" ==> r == h
    ensures text != "" ==> r.current == 0 && |r.entries| >= 1 && r.entries[0] == text
    ensures text != "" && Valid(h) ==> |r.entries| == |h.entries| - h.current + 1
    ensures Valid(h) ==> Valid(r)
  {
    if text == "" then h else History([text] + From(h.entries, h.current), 0)
  }

  /** `history_up`: shows the entry at the position, then moves one entry further back, stopping at the oldest. */
  function HistoryUp(h: History): (r: (Option<string>, History))
    requires Valid(h)
    ensures Valid(r.1) && r.1.entries == h.entries
    ensures h.entries == [] ==> r == (None, h)
    ensures h.entries != [] ==> r.0 == Some(h.entries[h.current])
    ensures h.current <= r.1.current <= h.current + 1
    ensures r.1.current == h.current <==> h.entries == [] || h.current == |h.entries| - 1
  {
    if |h.entries| > 0 then
      var next := if h.current + 1 < |h.entries| - 1 then h.current + 1 else |h.entries| - 1;
      (Some(h.entries[h.current]), History(h.entries, next))
    else (None, h)
  }

  /** `history_down`: shows the entry at the position, then moves one entry forward, stopping at the newest. */
  function HistoryDown(h: History): (r: (Option<string>, History))
    requires Valid(h)
    ensures Valid(r.1) && r.1.entries == h.entries
    ensures h.entries == [] ==> r == (None, h)
    ensures h.entries != [] ==> r.0 == Some(h.entries[h.current])
    ensures h.current - 1 <= r.1.current <= h.current
    ensures r.1.current == h.current <==> h.current == 0
  {
    if |h.entries| > 0 then
      var next := if h.current - 1 > 0 then h.current - 1 else 0;
      (Some(h.entries[h.current]), History(h.entries, next))
    else (None, h)
  }

  /** Away from the oldest entry, going up and then down returns to the same position. */
  lemma UpThenDown(h: History)
    requires Valid(h) && h.current + 1 < |h.entries|
    ensures HistoryDown(HistoryUp(h).1).1 == h
  {
  }

  /** Away from the newest entry, going down and then up returns to the same position. */
  lemma DownThenUp(h: History)
    requires Valid(h) && h.current > 0
    ensures HistoryUp(HistoryDown(h).1).1 == h
  {
  }

  /** After executing a text, the up key first shows that text, and the older history follows it unchanged. */
  lemma ExecuteThenUp(h: History, text: string)
    requires Valid(h) && text != ""
    ensures HistoryUp(ExecuteCode(h, text)).0 == Some(text)
    ensures ExecuteCode(h, text).entries[1..] == h.entries[h.current..]
  {
  }
}

=== FILE: humanoid.dfy ===
/**
 * The XOR-encoded health field of `Humanoid` (pyrblx/classes.py). The field
 * holds a pointer `one`; when the eight bytes behind it (`two`) are nonzero
 * the health's float bits are the low 32 bits of one ^ two, otherwise they
 * are the low 32 bits of `one` itself. Floats are kept as their 32-bit
 * patterns: the float/u32 reinterpretation is not modelled, and 0.0 is the
 * pattern 0.
 */
module Health {
  import opened Wrappers
  import opened Bytes
  import opened Memory
  import opened Offsets
  import opened Instances

  /** `v & 0xFFFFFFFF` on a Python integer of either sign. */
  function Low32(v: int): (r: nat)
    ensures r < TWO_32
  {
    v % TWO_32
  }

  /** `(x ^ y) & 0xFFFFFFFF`: two's-complement xor keeps its low bits from the operands' low bits. */
  function Xor32(x: int, y: int): (r: nat)
    ensures r < TWO_32
  {
    Pow2Values();
    XorBits(Low32(x), Low32(y), 32)
  }

  /** The health bits behind the pointer stored at slot: 0 for a null pointer. */
  function HealthAt(m: Space, slot: int): (r: nat)
    ensures r < TWO_32
    ensures ReadPtr(m, slot) == 0 ==> r == 0
    ensures ReadPtr(m, slot) != 0 && ReadPtr(m, ReadPtr(m, slot)) == 0 ==> r == Low32(ReadPtr(m, slot))
  {
    var one := ReadPtr(m, slot);
    if one == 0 then 0
    else
      var two := ReadPtr(m, one);
      if two != 0 then Xor32(one, two) else Low32(one)
  }

  /** `get_health`: the float bits of the health, 0 when the offset is malformed. */
  function HealthBits(p: Process, a: int): (r: nat)
    ensures r < TWO_32
    ensures GetOffset(p.offsets, "Health").None? ==> r == 0
  {
    match GetOffset(p.offsets, "Health")
    case None => 0
    case Some(o) => HealthAt(p.mem, a + o)
  }

  /** `(one ^ packed32) & 0xFFFFFFFFFFFFFFFF`. */
  function Mixed64(one: int, bits: nat): (r: nat)
    ensures r < TWO_64
  {
    Pow2Values();
    XorBits(one % TWO_64, bits, 64)
  }

  /** `((one & 0xFFFFFFFF00000000) | packed32) & 0xFFFFFFFFFFFFFFFF`: the high half of one over bits. */
  function Spliced64(one: int, bits: nat): (r: nat)
    requires bits < TWO_32
    ensures r < TWO_64
  {
    one % TWO_64 - Low32(one) + bits
  }

  /** The write half of `set_health` at the health slot, given the new float bits. */
  function SetHealthAt(m: Space, slot: int, bits: nat): (w: Written)
    requires bits < TWO_32
    ensures ReadPtr(m, slot) == 0 ==> w == Written(false, m)
    ensures w.mem.Keys == m.Keys
  {
    var one := ReadPtr(m, slot);
    if one == 0 then Written(false, m)
    else
      var two := ReadPtr(m, one);
      if two != 0 then WriteBytes(m, one, U64Bytes(Mixed64(one, bits)))
      else WriteBytes(m, slot, U64Bytes(Spliced64(one, bits)))
  }

  /**
   * `set_health`: a null address or a malformed offset reports failure and
   * writes nothing; otherwise the bits go through the pointer or into it.
   */
  function SetHealth(p: Process, a: int, bits: nat): (w: Written)
    requires bits < TWO_32
    ensures a == 0 ==> w == Written(false, p.mem)
    ensures GetOffset(p.offsets, "Health").None? ==> w == Written(false, p.mem)
  {
    if a == 0 then Written(false, p.mem)
    else
      match GetOffset(p.offsets, "Health")
      case None => Written(false, p.mem)
      case Some(o) => SetHealthAt(p.mem, a + o, bits)
  }

  /** The pointer read of eight stored bytes of an unsigned 64-bit value is its signed view. */
  lemma ReadPtrOfStored(m: Space, x: int, c: nat)
    requires c < TWO_64
    requires WriteBytes(m, x, U64Bytes(c)).ok
    ensures ReadPtr(WriteBytes(m, x, U64Bytes(c)).mem, x) == Signed64(c)
  {
    Pow256Values();
    ReadAfterWriteBytes(m, x, U64Bytes(c));
    FromLEToLE(c, 8);
  }

  /** Reducing modulo 2^64 first changes neither the low nor the high 32-bit half. */
  lemma Mod64Halves(one: int)
    ensures (one % TWO_64) % TWO_32 == Low32(one)
    ensures (one % TWO_64) / TWO_32 == (one / TWO_32) % TWO_32
  {
    var q, u := one / TWO_64, one % TWO_64;
    var h, l := u / TWO_32, u % TWO_32;
    assert one == TWO_32 * (TWO_32 * q + h) + l;
    DivModUnique(one, TWO_32, TWO_32 * q + h, l);
    DivModUnique(one / TWO_32, TWO_32, q, h);
  }

  /** The signed view of an unsigned 64-bit value has the same low 32 bits. */
  lemma LowOfSigned(c: nat)
    requires c < TWO_64
    ensures Low32(Signed64(c)) == c % TWO_32
  {
    if c >= TWO_63 {
      DivModUnique(c - TWO_64, TWO_32, c / TWO_32 - TWO_32, c % TWO_32);
    }
  }

  /** The low 32 bits of a 64-bit xor are the 32-bit xor of the operands' low halves. */
  lemma XorLow32(u: nat, bits: nat)
    requires u < TWO_64 && bits < TWO_32
    ensures XorBits(u, bits, 64) % TWO_32 == XorBits(u % TWO_32, bits, 32)
  {
    Pow2Values();
    XorBitsLowMod(u, bits, 64, 32);
  }

  /** The low 32 bits of the signed view of one ^ bits are the low 32 bits of one xor bits. */
  lemma MixedLow(one: int, bits: nat)
    requires bits < TWO_32
    ensures Low32(Signed64(Mixed64(one, bits))) == XorBits(Low32(one), bits, 32)
  {
    LowOfSigned(Mixed64(one, bits));
    XorLow32(one % TWO_64, bits);
    Mod64Halves(one);
  }

  /** Undoing a 32-bit xor: l ^ (l ^ b) == b, and l ^ b == 0 only when l == b. */
  lemma XorUndo(l: nat, b: nat)
    requires l < TWO_32 && b < TWO_32
    ensures XorBits(l, XorBits(l, b, 32), 32) == b
    ensures XorBits(l, b, 32) == 0 ==> l == b
  {
    Pow2Values();
    XorBitsCommutes(l, b, 32);
    XorBitsCommutes(l, XorBits(b, l, 32), 32);
    XorBitsCancel(b, l, 32);
    XorBitsZero(l, 32);
  }

  /**
   * The encrypted case of `set_health`: with a nonzero pointer whose target
   * is nonzero and does not overlap the slot, the write succeeds and a later
   * `get_health` yields exactly the bits written.
   */
  lemma SetHealthThroughPointer(m: Space, slot: int, bits: nat)
    requires bits < TWO_32
    requires ReadPtr(m, slot) != 0 && ReadPtr(m, ReadPtr(m, slot)) != 0
    requires Disjoint(ReadPtr(m, slot), 8, slot, 8)
    ensures SetHealthAt(m, slot, bits).ok
    ensures HealthAt(SetHealthAt(m, slot, bits).mem, slot) == bits
  {
    var one := ReadPtr(m, slot);
    var c := Mixed64(one, bits);
    var w := WriteBytes(m, one, U64Bytes(c));
    assert SetHealthAt(m, slot, bits) == w;
    assert Readable(m, one, 8);
    ReadPtrFrame(m, w.mem, one, 8, slot);
    ReadPtrOfStored(m, one, c);
    MixedLow(one, bits);
    HealthOfXored(w.mem, slot, bits);
  }

  /** With a nonzero pointer and target, the health is the xor of their low halves. */
  lemma HealthDecoded(m: Space, slot: int)
    requires ReadPtr(m, slot) != 0 && ReadPtr(m, ReadPtr(m, slot)) != 0
    ensures HealthAt(m, slot) == XorBits(Low32(ReadPtr(m, slot)), Low32(ReadPtr(m, ReadPtr(m, slot))), 32)
  {
  }

  /** A nonzero pointer whose target holds its own low half xor bits decodes to bits. */
  lemma HealthOfXored(m: Space, slot: int, bits: nat)
    requires bits < TWO_32
    requires ReadPtr(m, slot) != 0
    requires Low32(ReadPtr(m, ReadPtr(m, slot))) == XorBits(Low32(ReadPtr(m, slot)), bits, 32)
    ensures HealthAt(m, slot) == bits
  {
    if ReadPtr(m, ReadPtr(m, slot)) != 0 {
      HealthOfXoredTarget(m, slot, bits);
    } else {
      HealthOfXoredZero(m, slot, bits);
    }
  }

  /** The case of a nonzero target: the xor undoes itself. */
  lemma HealthOfXoredTarget(m: Space, slot: int, bits: nat)
    requires bits < TWO_32
    requires ReadPtr(m, slot) != 0 && ReadPtr(m, ReadPtr(m, slot)) != 0
    requires Low32(ReadPtr(m, ReadPtr(m, slot))) == XorBits(Low32(ReadPtr(m, slot)), bits, 32)
    ensures HealthAt(m, slot) == bits
  {
    XorUndo(Low32(ReadPtr(m, slot)), bits);
    HealthDecoded(m, slot);
  }

  /** The case of a zero target: the pointer's low half already equals bits. */
  lemma HealthOfXoredZero(m: Space, slot: int, bits: nat)
    requires bits < TWO_32
    requires ReadPtr(m, slot) != 0 && ReadPtr(m, ReadPtr(m, slot)) == 0
    requires Low32(ReadPtr(m, ReadPtr(m, slot))) == XorBits(Low32(ReadPtr(m, slot)), bits, 32)
    ensures HealthAt(m, slot) == bits
  {
    XorUndo(Low32(ReadPtr(m, slot)), bits);
  }

  /**
   * The plain case of `set_health`: with a nonzero pointer whose target reads
   * 0, the slot's low 32 bits become the bits written and its high half is
   * kept; `get_health` then yields the bits when the new slot value does not
   * itself point at nonzero memory.
   */
  lemma SetHealthInSlot(m: Space, slot: int, bits: nat)
    requires bits < TWO_32
    requires ReadPtr(m, slot) != 0 && ReadPtr(m, ReadPtr(m, slot)) == 0
    ensures SetHealthAt(m, slot, bits).ok
    ensures Low32(ReadPtr(SetHealthAt(m, slot, bits).mem, slot)) == bits
    ensures (ReadPtr(SetHealthAt(m, slot, bits).mem, slot) / TWO_32) % TWO_32 == (ReadPtr(m, slot) / TWO_32) % TWO_32
    ensures ReadPtr(SetHealthAt(m, slot, bits).mem, ReadPtr(SetHealthAt(m, slot, bits).mem, slot)) == 0 ==>
      HealthAt(SetHealthAt(m, slot, bits).mem, slot) == bits
  {
    var one := ReadPtr(m, slot);
    var c := Spliced64(one, bits);
    var w := WriteBytes(m, slot, U64Bytes(c));
    assert SetHealthAt(m, slot, bits) == w;
    assert Readable(m, slot, 8);
    ReadPtrOfStored(m, slot, c);
    SplicedHalves(one, bits);
  }

  /** The spliced slot value keeps one's high 32 bits and carries bits below them. */
  lemma SplicedHalves(one: int, bits: nat)
    requires bits < TWO_32
    ensures Low32(Signed64(Spliced64(one, bits))) == bits
    ensures (Signed64(Spliced64(one, bits)) / TWO_32) % TWO_32 == (one / TWO_32) % TWO_32
  {
    Mod64Halves(one);
    var hi := (one % TWO_64) / TWO_32;
    var c := Spliced64(one, bits);
    assert c == TWO_32 * hi + bits;
    var v := Signed64(c);
    if c >= TWO_63 {
      DivModUnique(v, TWO_32, hi - TWO_32, bits);
      DivModUnique(hi - TWO_32, TWO_32, -1, hi);
    } else {
      DivModUnique(v, TWO_32, hi, bits);
      DivModUnique(hi, TWO_32, 0, hi);
    }
  }

  /** A null health pointer: `set_health` fails, writes nothing, and `get_health` stays 0. */
  lemma SetHealthNullPointer(m: Space, slot: int, bits: nat)
    requires bits < TWO_32
    requires ReadPtr(m, slot) == 0
    ensures !SetHealthAt(m, slot, bits).ok
    ensures HealthAt(SetHealthAt(m, slot, bits).mem, slot) == 0
  {
  }
}

=== FILE: instances.dfy ===
/**
 * Walks over the instance graph, stated over arbitrary child and parent
 * functions so that one snapshot's accessors can be plugged in: the bounded
 * pre-order walk of `get_descendants`, the first-match search of
 * `find_first_child`, and the dotted name of `get_fullname`
 * (pyrblx/classes.py).
 */
module Trees {
  import opened Wrappers
  import opened Text

  /**
   * Each child, then its descendants, in child order. None means the depth
   * bound ran out: an abstraction of Python's recursion limit, whose outcome
   * in the source is a truncated list rather than an error.
   */
  function Walk(kids: int -> seq<int>, a: int, fuel: nat): (r: Option<seq<int>>)
    ensures r.Some? ==> forall c :: c in kids(a) ==> c in r.value
    decreases fuel, 1, 0
  {
    if fuel == 0 then None else WalkOf(kids, kids(a), fuel - 1)
  }

  /** The descendant list contributed by the children cs, in order. */
  function WalkOf(kids: int -> seq<int>, cs: seq<int>, fuel: nat): (r: Option<seq<int>>)
    ensures r.Some? ==> forall c :: c in cs ==> c in r.value
    decreases fuel, 2, |cs|
  {
    if cs == [] then Some([])
    else
      match Walk(kids, cs[0], fuel)
      case None => None
      case Some(d) =>
        match WalkOf(kids, cs[1..], fuel)
        case None => None
        case Some(rest) =>
          assert forall c :: c in cs ==> c == cs[0] || c in cs[1..];
          Some([cs[0]] + d + rest)
  }

  /** Every address a walk lists is a child of something: none is 0 when no child list holds 0. */
  lemma {:induction false} WalkNonZero(kids: int -> seq<int>, a: int, fuel: nat)
    requires forall x :: 0 !in kids(x)
    ensures Walk(kids, a, fuel).Some? ==> 0 !in Walk(kids, a, fuel).value
    decreases fuel, 1, 0
  {
    if fuel > 0 {
      WalkOfNonZero(kids, kids(a), fuel - 1);
    }
  }

  lemma {:induction false} WalkOfNonZero(kids: int -> seq<int>, cs: seq<int>, fuel: nat)
    requires forall x :: 0 !in kids(x)
    requires 0 !in cs
    ensures WalkOf(kids, cs, fuel).Some? ==> 0 !in WalkOf(kids, cs, fuel).value
    decreases fuel, 2, |cs|
  {
    if cs != [] {
      WalkNonZero(kids, cs[0], fuel);
      assert 0 !in cs[1..] by { assert forall x :: x in cs[1..] ==> x in cs; }
      WalkOfNonZero(kids, cs[1..], fuel);
    }
  }

  /** An address listed among its own children exhausts the walk's depth bound, whatever the bound. */
  lemma {:induction false} WalkSelfChild(kids: int -> seq<int>, a: int, fuel: nat)
    requires a in kids(a)
    ensures Walk(kids, a, fuel) == None
    decreases fuel
  {
    if fuel > 0 {
      WalkSelfChild(kids, a, fuel - 1);
      WalkOfFails(kids, kids(a), a, fuel - 1);
    }
  }

  /** The walk over cs fails when the walk from one of them fails. */
  lemma {:induction false} WalkOfFails(kids: int -> seq<int>, cs: seq<int>, a: int, fuel: nat)
    requires a in cs && Walk(kids, a, fuel) == None
    ensures WalkOf(kids, cs, fuel) == None
    decreases |cs|
  {
    if cs[0] != a {
      WalkOfFails(kids, cs[1..], a, fuel);
    }
  }

  /** A finite instance tree: an address and its subtrees in child order. */
  datatype Tree = Node(addr: int, kids: seq<Tree>)

  function Addrs(ts: seq<Tree>): (r: seq<int>)
    ensures |r| == |ts|
    ensures forall i :: 0 <= i < |ts| ==> r[i] == ts[i].addr
  {
    seq(|ts|, i requires 0 <= i < |ts| => ts[i].addr)
  }

  /** The tree is exactly what the child function describes below its root. */
  predicate Realises(kids: int -> seq<int>, t: Tree)
    decreases t
  {
    kids(t.addr) == Addrs(t.kids) &&
    forall i :: 0 <= i < |t.kids| ==> Realises(kids, t.kids[i])
  }

  function Height(t: Tree): (h: nat)
    ensures h >= 1
    ensures forall i :: 0 <= i < |t.kids| ==> Height(t.kids[i]) < h
    decreases t, 1
  {
    1 + HeightOf(t.kids)
  }

  function HeightOf(ts: seq<Tree>): (h: nat)
    ensures forall i :: 0 <= i < |ts| ==> Height(ts[i]) <= h
    decreases ts, 0
  {
    if ts == [] then 0
    else
      var a := Height(ts[0]);
      var b := HeightOf(ts[1..]);
      assert forall i :: 1 <= i < |ts| ==> ts[i] == ts[1..][i - 1];
      if a > b then a else b
  }

  /** Pre-order listing of the proper descendants of a tree. */
  function PreOrder(t: Tree): seq<int>
    decreases t, 1
  {
    PreOrderOf(t.kids)
  }

  function PreOrderOf(ts: seq<Tree>): seq<int>
    decreases ts, 0
  {
    if ts == [] then [] else [ts[0].addr] + PreOrder(ts[0]) + PreOrderOf(ts[1..])
  }

  /** Number of nodes in a tree. */
  function Size(t: Tree): (n: nat)
    ensures n >= 1
    decreases t, 1
  {
    1 + SizeOf(t.kids)
  }

  function SizeOf(ts: seq<Tree>): nat
    decreases ts, 0
  {
    if ts == [] then 0 else Size(ts[0]) + SizeOf(ts[1..])
  }

  /** The pre-order listing names every node but the root exactly once. */
  lemma {:induction false} PreOrderLength(t: Tree)
    ensures |PreOrder(t)| == Size(t) - 1
    decreases t, 1
  {
    PreOrderOfLength(t.kids);
  }

  lemma {:induction false} PreOrderOfLength(ts: seq<Tree>)
    ensures |PreOrderOf(ts)| == SizeOf(ts)
    decreases ts, 0
  {
    if ts != [] {
      PreOrderLength(ts[0]);
      PreOrderOfLength(ts[1..]);
    }
  }

  /** With a bound at least the tree's height, the walk from a realised root is its pre-order listing. */
  lemma {:induction false} WalkPreOrder(kids: int -> seq<int>, t: Tree, fuel: nat)
    requires Realises(kids, t) && fuel >= Height(t)
    ensures Walk(kids, t.addr, fuel) == Some(PreOrder(t))
    decreases t, 1
  {
    WalkOfPreOrder(kids, t.kids, fuel - 1);
  }

  lemma {:induction false} WalkOfPreOrder(kids: int -> seq<int>, ts: seq<Tree>, fuel: nat)
    requires forall i :: 0 <= i < |ts| ==> Realises(kids, ts[i]) && fuel >= Height(ts[i])
    ensures WalkOf(kids, Addrs(ts), fuel) == Some(PreOrderOf(ts))
    decreases ts, 0
  {
    if ts != [] {
      WalkPreOrder(kids, ts[0], fuel);
      assert Addrs(ts)[1..] == Addrs(ts[1..]);
      WalkOfPreOrder(kids, ts[1..], fuel);
    }
  }

  /** The index of the first element satisfying f, or |s| when none does. */
  function FirstIndex(s: seq<int>, f: int -> bool): (i: nat)
    ensures i <= |s|
    ensures i < |s| ==> f(s[i])
    ensures forall j :: 0 <= j < i ==> !f(s[j])
  {
    if s == [] then 0
    else if f(s[0]) then 0
    else
      var k := FirstIndex(s[1..], f);
      assert forall j :: 1 <= j <= k ==> s[j] == s[1..][j - 1];
      1 + k
  }

  /** The first element satisfying f, or the null address 0 when none does. */
  function FirstOr0(s: seq<int>, f: int -> bool): (r: int)
    requires 0 !in s
    ensures r == 0 <==> forall j :: 0 <= j < |s| ==> !f(s[j])
    ensures r != 0 ==> (exists i :: 0 <= i < |s| && s[i] == r && f(r) && forall j :: 0 <= j < i ==> !f(s[j]))
  {
    var i := FirstIndex(s, f);
    if i < |s| then s[i] else 0
  }

  /**
   * The dotted name: the parent's dotted name, a dot and the own name while
   * the parent is positive (truthy); just the own name otherwise. None is a
   * failed parent read or an exhausted depth bound.
   */
  function Dotted(parent: int -> Option<int>, name: int -> string, a: int, fuel: nat): (r: Option<string>)
    ensures parent(a).None? ==> r.None?
    ensures r.Some? ==> |r.value| >= |name(a)|
    decreases fuel
  {
    if fuel == 0 then None
    else
      match parent(a)
      case None => None
      case Some(q) =>
        if q > 0 then
          match Dotted(parent, name, q, fuel - 1)
          case None => None
          case Some(f) => Some(f + "." + name(a))
        else Some(name(a))
  }

  /** Entry i of the chain has the positive entry i-1 as its parent. */
  predicate LinkAt(parent: int -> Option<int>, chain: seq<int>, i: int) {
    1 <= i < |chain| && chain[i - 1] > 0 && parent(chain[i]) == Some(chain[i - 1])
  }

  /** A parent chain: chain[0] has a parent that is not positive, and each later entry's parent is the entry before it. */
  predicate ParentChain(parent: int -> Option<int>, chain: seq<int>) {
    |chain| >= 1 &&
    parent(chain[0]).Some? && parent(chain[0]).value <= 0 &&
    forall i :: 1 <= i < |chain| ==> LinkAt(parent, chain, i)
  }

  function Names(name: int -> string, chain: seq<int>): (r: seq<string>)
    ensures |r| == |chain|
    ensures forall i :: 0 <= i < |chain| ==> r[i] == name(chain[i])
  {
    seq(|chain|, i requires 0 <= i < |chain| => name(chain[i]))
  }

  /** The dotted name of the last entry of a parent chain is the chain's names joined by ".". */
  lemma {:induction false} DottedChain(parent: int -> Option<int>, name: int -> string, chain: seq<int>, fuel: nat)
    requires ParentChain(parent, chain) && fuel >= |chain|
    ensures Dotted(parent, name, chain[|chain| - 1], fuel) == Some(Join(Names(name, chain), '.'))
    decreases |chain|
  {
    var n := |chain|;
    if n > 1 {
      var init := chain[..n - 1];
      assert ParentChain(parent, init) by {
        forall i | 1 <= i < |init| ensures LinkAt(parent, init, i) {
          assert LinkAt(parent, chain, i);
        }
      }
      DottedChain(parent, name, init, fuel - 1);
      assert LinkAt(parent, chain, n - 1);
      assert Names(name, chain) == Names(name, init) + [name(chain[n - 1])];
      JoinSnoc(Names(name, init), name(chain[n - 1]), '.');
    }
  }

  /** An address that is its own positive parent exhausts the dotted name's depth bound, whatever the bound. */
  lemma {:induction false} DottedSelfParent(parent: int -> Option<int>, name: int -> string, a: int, fuel: nat)
    requires a > 0 && parent(a) == Some(a)
    ensures Dotted(parent, name, a, fuel) == None
    decreases fuel
  {
    if fuel > 0 {
      DottedSelfParent(parent, name, a, fuel - 1);
    }
  }
}

/**
 * The `Instance` accessors of pyrblx/classes.py over one snapshot of the
 * remote process. An instance is its address; the wrapper objects and their
 * identity cache are in module Cache. Every accessor that catches its
 * exceptions returns the source's default. `get_parent` has no handler, so
 * a malformed offset is None; for `get_descendants` and `get_fullname`,
 * None is also an exhausted depth bound.
 */
module Instances {
  import opened Wrappers
  import opened Memory
  import opened Lists
  import opened Strings
  import opened Text
  import opened Offsets
  import opened Trees

  /** A snapshot of the attached process: its memory and the loaded offset table. */
  datatype Process = Process(mem: Space, offsets: Table)

  /** Child arrays are walked at this stride (`i += 0x10`). */
  const ChildStride: nat := 0x10

  /** `Instance.__bool__`: only positive addresses are truthy. */
  predicate Truthy(a: int) {
    a > 0
  }

  /** `get_class_descriptor`: 0 when the offset cannot be parsed. */
  function ClassDescriptor(p: Process, a: int): (r: int)
    ensures GetOffset(p.offsets, "ClassDescriptor").None? ==> r == 0
  {
    match GetOffset(p.offsets, "ClassDescriptor")
    case None => 0
    case Some(o) => ReadPtr(p.mem, a + o)
  }

  /** `get_class`: the class-name string of the descriptor, "unknown" when there is none. */
  function ClassName(p: Process, a: int): (r: string)
    ensures GetOffset(p.offsets, "ClassDescriptorToClassName").None? ==> r == "unknown"
    ensures forall i :: 0 <= i < |r| ==> r[i] != '\0'
  {
    match GetOffset(p.offsets, "ClassDescriptorToClassName")
    case None => "unknown"
    case Some(o) =>
      var ptr := ReadPtr(p.mem, ClassDescriptor(p, a) + o);
      if ptr != 0 then ReadString2(p.mem, ptr) else "unknown"
  }

  /** `get_name`: the string behind the Name pointer, "" when the offset is malformed. */
  function Name(p: Process, a: int): (r: string)
    ensures GetOffset(p.offsets, "Name").None? ==> r == ""
    ensures forall i :: 0 <= i < |r| ==> r[i] != '\0'
  {
    match GetOffset(p.offsets, "Name")
    case None => ""
    case Some(o) => ReadString2(p.mem, ReadPtr(p.mem, a + o))
  }

  /** `get_parent`: the parent's address; a malformed offset raises, which is None. */
  function Parent(p: Process, a: int): (r: Option<int>)
    ensures r.None? <==> GetOffset(p.offsets, "Parent").None?
  {
    match GetOffset(p.offsets, "Parent")
    case None => None
    case Some(o) => Some(ReadPtr(p.mem, a + o))
  }

  /** The child array bounds: the start and end pointers of the list the Children pointer names. */
  function ChildBounds(p: Process, a: int): Option<(int, int)> {
    match (GetOffset(p.offsets, "Children"), GetOffset(p.offsets, "ChildrenEnd"))
    case (Some(o), Some(e)) =>
      var list := ReadPtr(p.mem, a + o);
      Some((ReadPtr(p.mem, list), ReadPtr(p.mem, list + e)))
    case _ => None
  }

  /** `get_children`: the nonzero slots of the child array, in order; [] when an offset is malformed. */
  function Children(p: Process, a: int): (r: seq<int>)
    ensures ChildBounds(p, a).None? ==> r == []
    ensures 0 !in r
  {
    match ChildBounds(p, a)
    case None => []
    case Some((start, end)) => NonZero(Scan(Ptrs(p.mem), start, end, ChildStride))
  }

  /**
   * The children are the nonzero pointers among the slots start, start+0x10,
   * ... that lie below end, in array order.
   */
  lemma ChildrenSlots(p: Process, a: int)
    requires ChildBounds(p, a).Some?
    ensures
      var (start, end) := ChildBounds(p, a).value;
      exists n: nat ::
        Children(p, a) == NonZero(Slots(Ptrs(p.mem), start, n, ChildStride)) &&
        (start >= end ==> n == 0) &&
        (start < end ==> start + ChildStride * (n - 1) < end <= start + ChildStride * n)
  {
    var (start, end) := ChildBounds(p, a).value;
    var n := |Scan(Ptrs(p.mem), start, end, ChildStride)|;
    ScanSlots(Ptrs(p.mem), start, end, ChildStride);
    assert Children(p, a) == NonZero(Slots(Ptrs(p.mem), start, n, ChildStride));
  }

  /** `get_descendants` of this snapshot, with a recursion bound. */
  function Descendants(p: Process, a: int, fuel: nat): (r: Option<seq<int>>)
    ensures r.Some? ==> 0 !in r.value
    ensures r.Some? ==> forall c :: c in Children(p, a) ==> c in r.value
  {
    WalkNonZero(c => Children(p, c), a, fuel);
    Walk(c => Children(p, c), a, fuel)
  }

  /**
   * With a bound at least the height of a tree the child arrays describe,
   * `get_descendants` of its root is its pre-order listing.
   */
  lemma DescendantsPreOrder(p: Process, t: Tree, fuel: nat)
    requires Realises(c => Children(p, c), t) && fuel >= Height(t)
    ensures Descendants(p, t.addr, fuel) == Some(PreOrder(t))
  {
    WalkPreOrder(c => Children(p, c), t, fuel);
  }

  /** An instance listed among its own children exhausts the depth bound of `get_descendants`, whatever the bound. */
  lemma DescendantsSelfChild(p: Process, a: int, fuel: nat)
    requires a in Children(p, a)
    ensures Descendants(p, a, fuel) == None
  {
    WalkSelfChild(c => Children(p, c), a, fuel);
  }

  /** The list searched: children, or descendants when recursive. */
  function SearchList(p: Process, a: int, recursive: bool, fuel: nat): (r: Option<seq<int>>)
    ensures r.Some? ==> 0 !in r.value
  {
    if recursive then Descendants(p, a, fuel) else Some(Children(p, a))
  }

  /** `find_first_child`: the first searched instance with that name, else the null instance 0. */
  function FindFirstChild(p: Process, a: int, name: string, recursive: bool, fuel: nat): (r: Option<int>)
    ensures r.None? <==> SearchList(p, a, recursive, fuel).None?
    ensures r.Some? && r.value != 0 ==> r.value in SearchList(p, a, recursive, fuel).value && Name(p, r.value) == name
    ensures r.Some? && r.value == 0 ==> forall c :: c in SearchList(p, a, recursive, fuel).value ==> Name(p, c) != name
    ensures r.Some? && r.value != 0 ==> (exists i :: 0 <= i < |SearchList(p, a, recursive, fuel).value| && SearchList(p, a, recursive, fuel).value[i] == r.value && forall j :: 0 <= j < i ==> Name(p, SearchList(p, a, recursive, fuel).value[j]) != name)
  {
    match SearchList(p, a, recursive, fuel)
    case None => None
    case Some(s) => Some(FirstOr0(s, c => Name(p, c) == name))
  }

  /** `find_first_child_of_class`: the first searched instance of that class, else the null instance 0. */
  function FindFirstChildOfClass(p: Process, a: int, cls: string, recursive: bool, fuel: nat): (r: Option<int>)
    ensures r.None? <==> SearchList(p, a, recursive, fuel).None?
    ensures r.Some? && r.value != 0 ==> r.value in SearchList(p, a, recursive, fuel).value && ClassName(p, r.value) == cls
    ensures r.Some? && r.value == 0 ==> forall c :: c in SearchList(p, a, recursive, fuel).value ==> ClassName(p, c) != cls
    ensures r.Some? && r.value != 0 ==> (exists i :: 0 <= i < |SearchList(p, a, recursive, fuel).value| && SearchList(p, a, recursive, fuel).value[i] == r.value && forall j :: 0 <= j < i ==> ClassName(p, SearchList(p, a, recursive, fuel).value[j]) != cls)
  {
    match SearchList(p, a, recursive, fuel)
    case None => None
    case Some(s) => Some(FirstOr0(s, c => ClassName(p, c) == cls))
  }

  /** `get_fullname` of this snapshot, with a recursion bound. */
  function FullName(p: Process, a: int, fuel: nat): (r: Option<string>)
    ensures Parent(p, a).None? ==> r.None?
    ensures r.Some? ==> |r.value| >= |Name(p, a)|
  {
    Dotted(c => Parent(p, c), c => Name(p, c), a, fuel)
  }

  /**
   * The full name of an instance is the names along its parent chain joined
   * by "."; an instance whose parent is not truthy has just its own name.
   */
  lemma FullNameChain(p: Process, chain: seq<int>, fuel: nat)
    requires ParentChain(c => Parent(p, c), chain) && fuel >= |chain|
    ensures FullName(p, chain[|chain| - 1], fuel) == Some(Join(Names(c => Name(p, c), chain), '.'))
  {
    DottedChain(c => Parent(p, c), c => Name(p, c), chain, fuel);
  }

  /** An instance that is its own truthy parent exhausts the depth bound of `get_fullname`, whatever the bound. */
  lemma FullNameSelfParent(p: Process, a: int, fuel: nat)
    requires Truthy(a) && Parent(p, a) == Some(a)
    ensures FullName(p, a, fuel) == None
  {
    DottedSelfParent(c => Parent(p, c), c => Name(p, c), a, fuel);
  }
}

=== FILE: lists.dfy ===
/**
 * Pointer arrays in the remote process: a (start, end) pair of pointers
 * bounding a run of slots, read at a fixed stride. `readlist` and
 * `writelist` (pyrblx/memory.py) use stride 8; the child list
 * (pyrblx/classes.py) and the scheduler's job list use stride 0x10.
 */
module Lists {
  import opened Bytes
  import opened Memory

  /** The pointer reads of memory m, as the slot reader the scans take. */
  function Ptrs(m: Space): (read: int -> int)
    ensures forall x :: read(x) == ReadPtr(m, x)
  {
    x => ReadPtr(m, x)
  }

  /** The pointers stored in the slots i, i+stride, ... below end, in order. */
  function Scan(read: int -> int, i: int, end: int, stride: nat): (r: seq<int>)
    requires stride > 0
    ensures r == [] <==> i >= end
    decreases end - i
  {
    if i >= end then [] else [read(i)] + Scan(read, i + stride, end, stride)
  }

  /** The k-th scanned entry is the pointer in slot i + stride*k. */
  lemma {:induction false} ScanAt(read: int -> int, i: int, end: int, stride: nat, k: nat)
    requires stride > 0 && k < |Scan(read, i, end, stride)|
    ensures Scan(read, i, end, stride)[k] == read(i + stride * k)
    decreases k
  {
    if k > 0 {
      ScanAt(read, i + stride, end, stride, k - 1);
      assert i + stride + stride * (k - 1) == i + stride * k;
    }
  }

  /** The scan visits every slot below end and no slot at or beyond it. */
  lemma {:induction false} ScanLength(read: int -> int, i: int, end: int, stride: nat)
    requires stride > 0 && i < end
    ensures i + stride * (|Scan(read, i, end, stride)| - 1) < end <= i + stride * |Scan(read, i, end, stride)|
    decreases end - i
  {
    var n := |Scan(read, i + stride, end, stride)|;
    if i + stride < end {
      ScanLength(read, i + stride, end, stride);
      assert i + stride + stride * (n - 1) == i + stride * n;
      assert i + stride + stride * n == i + stride * (n + 1);
    }
  }

  /** The pointers in n consecutive slots from i: the independent reading of a scan. */
  function Slots(read: int -> int, i: int, n: nat, stride: nat): (r: seq<int>)
    ensures |r| == n
  {
    seq(n, k requires 0 <= k < n => read(i + stride * k))
  }

  /**
   * A scan reads exactly the slots i, i+stride, ... and stops at the first
   * slot at or beyond end.
   */
  lemma ScanSlots(read: int -> int, i: int, end: int, stride: nat)
    requires stride > 0
    ensures Scan(read, i, end, stride) == Slots(read, i, |Scan(read, i, end, stride)|, stride)
    ensures i < end ==> i + stride * (|Scan(read, i, end, stride)| - 1) < end <= i + stride * |Scan(read, i, end, stride)|
  {
    var r := Scan(read, i, end, stride);
    forall k | 0 <= k < |r| ensures r[k] == Slots(read, i, |r|, stride)[k] {
      ScanAt(read, i, end, stride, k);
    }
    if i < end {
      ScanLength(read, i, end, stride);
    }
  }

  /** Slot k of the run from i lies below end and holds j. */
  predicate SlotHolds(read: int -> int, i: int, end: int, stride: nat, k: nat, j: int) {
    i + stride * k < end && read(i + stride * k) == j
  }

  /** Every scanned value sits in some slot below end. */
  lemma {:induction false} ScannedInSlot(read: int -> int, i: int, end: int, stride: nat, j: int)
    requires stride > 0 && j in Scan(read, i, end, stride)
    ensures exists k: nat :: SlotHolds(read, i, end, stride, k, j)
    decreases end - i
  {
    if j == read(i) {
      assert SlotHolds(read, i, end, stride, 0, j);
    } else {
      ScannedInSlot(read, i + stride, end, stride, j);
      var k: nat :| SlotHolds(read, i + stride, end, stride, k, j);
      ShiftSlot(read, i, end, stride, k, j);
    }
  }

  /** Slot k of the run from i + stride is slot k + 1 of the run from i. */
  lemma ShiftSlot(read: int -> int, i: int, end: int, stride: nat, k: nat, j: int)
    ensures SlotHolds(read, i + stride, end, stride, k, j) <==> SlotHolds(read, i, end, stride, k + 1, j)
  {
    assert i + stride + stride * k == i + stride * (k + 1);
  }

  /** The value in any slot below end is scanned. */
  lemma {:induction false} SlotScanned(read: int -> int, i: int, end: int, stride: nat, k: nat, j: int)
    requires stride > 0 && SlotHolds(read, i, end, stride, k, j)
    ensures j in Scan(read, i, end, stride)
    decreases k
  {
    assert i < end by { assert stride * k >= 0; }
    assert Scan(read, i, end, stride) == [read(i)] + Scan(read, i + stride, end, stride);
    if k > 0 {
      ShiftSlot(read, i, end, stride, k - 1, j);
      SlotScanned(read, i + stride, end, stride, k - 1, j);
    }
  }

  /** A value is scanned exactly when some slot below end holds it. */
  lemma ScanMember(read: int -> int, i: int, end: int, stride: nat, j: int)
    requires stride > 0
    ensures j in Scan(read, i, end, stride) <==> exists k: nat :: SlotHolds(read, i, end, stride, k, j)
  {
    if j in Scan(read, i, end, stride) {
      ScannedInSlot(read, i, end, stride, j);
    }
    forall k: nat | SlotHolds(read, i, end, stride, k, j) ensures j in Scan(read, i, end, stride) {
      SlotScanned(read, i, end, stride, k, j);
    }
  }

  /** The nonzero entries of s, in order: the `if addr:` filter. */
  function NonZero(s: seq<int>): (r: seq<int>)
    ensures |r| <= |s|
    ensures forall x :: x in r ==> x != 0 && x in s
  {
    if s == [] then [] else (if s[0] != 0 then [s[0]] else []) + NonZero(s[1..])
  }

  /** Filtering distributes over concatenation. */
  lemma {:induction false} NonZeroAppend(s: seq<int>, t: seq<int>)
    ensures NonZero(s + t) == NonZero(s) + NonZero(t)
  {
    if s == [] {
      assert s + t == t;
    } else {
      assert (s + t)[1..] == s[1..] + t;
      NonZeroAppend(s[1..], t);
    }
  }

  /** Filtering keeps a sequence without zeros intact, and removes every zero. */
  lemma {:induction false} NonZeroIdentity(s: seq<int>)
    ensures NonZero(s) == s <==> 0 !in s
  {
    if s != [] {
      NonZeroIdentity(s[1..]);
      assert s == [s[0]] + s[1..];
      assert 0 in s <==> s[0] == 0 || 0 in s[1..];
      if s[0] == 0 {
        assert |NonZero(s)| < |s|;
      }
    }
  }

  /** `readlist`: the nonzero pointers between the start and end pointers stored at a and a+8. */
  function ReadList(m: Space, a: int): (r: seq<int>)
    ensures ReadPtr(m, a) >= ReadPtr(m, a + 8) ==> r == []
    ensures 0 !in r
  {
    NonZero(Scan(Ptrs(m), ReadPtr(m, a), ReadPtr(m, a + 8), 8))
  }

  /** One step of the scan: the slot at i, then the rest of the run. */
  lemma ScanStep(read: int -> int, i: int, end: int)
    requires i < end
    ensures NonZero(Scan(read, i, end, 8)) ==
      (if read(i) != 0 then [read(i)] else []) + NonZero(Scan(read, i + 8, end, 8))
  {
    var p := read(i);
    var rest := Scan(read, i + 8, end, 8);
    assert Scan(read, i, end, 8) == [p] + rest;
    NonZeroAppend([p], rest);
  }

  lemma AppendAssoc(a: seq<int>, b: seq<int>, c: seq<int>)
    ensures a + (b + c) == (a + b) + c
  {
  }

  /** The `while i < end` loop of `readlist`, kept in its original shape, over any slot reader. */
  method ScanLoop(read: int -> int, start: int, end: int) returns (data: seq<int>)
    ensures data == NonZero(Scan(read, start, end, 8))
  {
    data := [];
    var i := start;
    while i < end
      invariant data + NonZero(Scan(read, i, end, 8)) == NonZero(Scan(read, start, end, 8))
      decreases end - i
    {
      var p := read(i);
      var kept := if p != 0 then [p] else [];
      var rest := NonZero(Scan(read, i + 8, end, 8));
      ScanStep(read, i, end);
      AppendAssoc(data, kept, rest);
      data := data + kept;
      i := i + 8;
    }
  }

  /** `readlist` as the source writes it: read the bounds, then run the loop over the pointer slots. */
  method ReadListLoop(m: Space, a: int) returns (data: seq<int>)
    ensures data == ReadList(m, a)
  {
    data := ScanLoop(Ptrs(m), ReadPtr(m, a), ReadPtr(m, a + 8));
  }

  /** Store each value of data in consecutive 8-byte slots from i, ignoring failed writes. */
  function WriteSlots(m: Space, i: int, data: seq<int>): (m': Space)
    ensures m'.Keys == m.Keys
    ensures forall k :: k in m && !(i <= k < i + 8 * |data|) ==> m'[k] == m[k]
    decreases |data|
  {
    if data == [] then m
    else WriteSlots(WritePtr(m, i, data[0]).mem, i + 8, data[1..])
  }

  /** Each slot written by `WriteSlots` into readable memory reads back its value. */
  lemma {:induction false} WriteSlotsReadBack(m: Space, i: int, data: seq<int>, k: nat)
    requires Readable(m, i, 8 * |data|)
    requires k < |data| && -TWO_63 <= data[k] < TWO_63
    ensures ReadPtr(WriteSlots(m, i, data), i + 8 * k) == data[k]
    decreases k
  {
    var w := WritePtr(m, i, data[0]);
    var m' := WriteSlots(m, i, data);
    assert m' == WriteSlots(w.mem, i + 8, data[1..]);
    if k == 0 {
      assert w.ok;
      ReadPtrAfterWrite(m, i, data[0]);
      ReadPtrFrame(w.mem, m', i + 8, 8 * (|data| - 1), i);
    } else {
      assert Readable(w.mem, i + 8, 8 * |data[1..]|);
      assert data[1..][k - 1] == data[k];
      WriteSlotsReadBack(w.mem, i + 8, data[1..], k - 1);
      assert i + 8 + 8 * (k - 1) == i + 8 * k;
    }
  }

  /** The outcome of `writelist`. */
  datatype ListWrite = ListWrite(ok: bool, mem: Space)

  /**
   * `writelist`: store the addresses from the current start pointer on, then
   * move the end pointer past the last one. The per-slot write results are
   * ignored, so any nonzero list address reports success.
   */
  function WriteList(m: Space, a: int, data: seq<int>): (w: ListWrite)
    ensures a == 0 <==> !w.ok
    ensures a == 0 ==> w.mem == m
    ensures w.mem.Keys == m.Keys
  {
    if a == 0 then ListWrite(false, m)
    else
      var start := ReadPtr(m, a);
      var m1 := WriteSlots(m, start, data);
      ListWrite(true, WritePtr(m1, a + 8, start + 8 * |data|).mem)
  }

  /** The slots i+8, i+16, ... hold the tail of what the slots i, i+8, ... hold. */
  lemma SlotsTail(read: int -> int, i: int, data: seq<int>)
    requires |data| > 0
    requires forall k :: 0 <= k < |data| ==> read(i + 8 * k) == data[k]
    ensures forall k :: 0 <= k < |data| - 1 ==> read(i + 8 + 8 * k) == data[1..][k]
  {
    forall k | 0 <= k < |data| - 1 ensures read(i + 8 + 8 * k) == data[1..][k] {
      assert i + 8 + 8 * k == i + 8 * (k + 1);
      assert read(i + 8 * (k + 1)) == data[k + 1];
    }
  }

  /** The scan of a run of slots that hold exactly data yields data. */
  lemma {:induction false} ScanExact(read: int -> int, i: int, data: seq<int>)
    requires forall k :: 0 <= k < |data| ==> read(i + 8 * k) == data[k]
    ensures Scan(read, i, i + 8 * |data|, 8) == data
    decreases |data|
  {
    if data != [] {
      SlotsTail(read, i, data);
      ScanExact(read, i + 8, data[1..]);
      var end := i + 8 * |data|;
      assert i + 8 + 8 * |data[1..]| == end;
      assert read(i + 8 * 0) == data[0];
      assert Scan(read, i, end, 8) == [read(i)] + Scan(read, i + 8, end, 8);
      assert data == [data[0]] + data[1..];
    }
  }

  /** A pointer write leaves the pointer read of a disjoint slot alone. */
  lemma WritePtrKeeps(m: Space, a: int, v: int, x: int)
    requires Disjoint(a, 8, x, 8)
    ensures ReadPtr(WritePtr(m, a, v).mem, x) == ReadPtr(m, x)
  {
    ReadPtrFrame(m, WritePtr(m, a, v).mem, a, 8, x);
  }

  /** A pointer read after `writelist` at a nonzero address is the read after its slot and end-pointer writes. */
  lemma WriteListRead(m: Space, a: int, data: seq<int>, x: int, v: int)
    requires a != 0
    requires ReadPtr(WritePtr(WriteSlots(m, ReadPtr(m, a), data), a + 8, ReadPtr(m, a) + 8 * |data|).mem, x) == v
    ensures ReadPtr(WriteList(m, a, data).mem, x) == v
  {
  }

  /** After `writelist`, the start pointer is unchanged and the end pointer is start + 8*|data|. */
  lemma WriteListHeader(m: Space, a: int, data: seq<int>)
    requires a != 0 && Readable(m, a, 16)
    requires Disjoint(ReadPtr(m, a), 8 * |data|, a, 16)
    requires -TWO_63 <= ReadPtr(m, a) + 8 * |data| < TWO_63
    ensures ReadPtr(WriteList(m, a, data).mem, a) == ReadPtr(m, a)
    ensures ReadPtr(WriteList(m, a, data).mem, a + 8) == ReadPtr(m, a) + 8 * |data|
  {
    var start := ReadPtr(m, a);
    var end := start + 8 * |data|;
    var m1 := WriteSlots(m, start, data);
    var w := WritePtr(m1, a + 8, end).mem;
    assert ReadPtr(w, a) == start by {
      assert ReadPtr(m1, a) == start by {
        ReadPtrFrame(m, m1, start, 8 * |data|, a);
      }
      WritePtrKeeps(m1, a + 8, end, a);
    }
    assert ReadPtr(w, a + 8) == end by {
      assert Readable(m1, a + 8, 8);
      ReadPtrAfterWrite(m1, a + 8, end);
    }
    WriteListRead(m, a, data, a, start);
    WriteListRead(m, a, data, a + 8, end);
  }

  /** A slot outside the end-pointer field keeps, after `writelist`, what the slot writes left in it. */
  lemma WriteListKeepsSlot(m: Space, a: int, data: seq<int>, x: int, v: int)
    requires a != 0 && Disjoint(a + 8, 8, x, 8)
    requires ReadPtr(WriteSlots(m, ReadPtr(m, a), data), x) == v
    ensures ReadPtr(WriteList(m, a, data).mem, x) == v
  {
    WritePtrKeeps(WriteSlots(m, ReadPtr(m, a), data), a + 8, ReadPtr(m, a) + 8 * |data|, x);
    WriteListRead(m, a, data, x, v);
  }

  /** After `writelist`, slot k of the run from the start pointer holds data[k]. */
  lemma WriteListSlot(m: Space, a: int, data: seq<int>, k: nat, x: int)
    requires a != 0
    requires Readable(m, ReadPtr(m, a), 8 * |data|)
    requires Disjoint(ReadPtr(m, a), 8 * |data|, a, 16)
    requires k < |data| && -TWO_63 <= data[k] < TWO_63
    requires x == ReadPtr(m, a) + 8 * k
    ensures ReadPtr(WriteList(m, a, data).mem, x) == data[k]
  {
    WriteSlotsReadBack(m, ReadPtr(m, a), data, k);
    assert Disjoint(a + 8, 8, x, 8) by {
      assert 8 * k + 8 <= 8 * |data|;
    }
    WriteListKeepsSlot(m, a, data, x, data[k]);
  }

  /** The address of the k-th 8-byte slot from i; quantifiers over slots hang on it. */
  function SlotAddress(i: int, k: int): int
  {
    i + 8 * k
  }

  /** After `writelist`, every slot of the run from the start pointer holds its element of data. */
  lemma WriteListSlots(m: Space, a: int, data: seq<int>)
    requires a != 0
    requires Readable(m, ReadPtr(m, a), 8 * |data|)
    requires Disjoint(ReadPtr(m, a), 8 * |data|, a, 16)
    requires forall k :: 0 <= k < |data| ==> -TWO_63 <= data[k] < TWO_63
    ensures forall k {:trigger SlotAddress(ReadPtr(m, a), k)} :: 0 <= k < |data| ==>
      ReadPtr(WriteList(m, a, data).mem, SlotAddress(ReadPtr(m, a), k)) == data[k]
  {
    forall k | 0 <= k < |data| {
      WriteListSlot(m, a, data, k, SlotAddress(ReadPtr(m, a), k));
    }
  }

  /** The scan of a run of slots that hold exactly data is data. */
  lemma ScanRun(read: int -> int, start: int, end: int, data: seq<int>)
    requires end == start + 8 * |data|
    requires forall k {:trigger SlotAddress(start, k)} :: 0 <= k < |data| ==> read(SlotAddress(start, k)) == data[k]
    ensures Scan(read, start, end, 8) == data
  {
    forall k | 0 <= k < |data| ensures read(start + 8 * k) == data[k] {
      assert read(SlotAddress(start, k)) == data[k];
    }
    ScanExact(read, start, data);
  }

  /** After `writelist`, the pointer reader of the written memory sees data in the run from the start pointer. */
  lemma WriteListPtrs(m: Space, a: int, data: seq<int>)
    requires a != 0
    requires Readable(m, ReadPtr(m, a), 8 * |data|)
    requires Disjoint(ReadPtr(m, a), 8 * |data|, a, 16)
    requires forall k :: 0 <= k < |data| ==> -TWO_63 <= data[k] < TWO_63
    ensures forall k {:trigger SlotAddress(ReadPtr(m, a), k)} :: 0 <= k < |data| ==>
      Ptrs(WriteList(m, a, data).mem)(SlotAddress(ReadPtr(m, a), k)) == data[k]
  {
    WriteListSlots(m, a, data);
  }

  /** The scan of the written run, given what the pointer reader sees in each of its slots. */
  lemma WriteListScanOf(m: Space, a: int, data: seq<int>, end: int)
    requires end == ReadPtr(m, a) + 8 * |data|
    requires forall k {:trigger SlotAddress(ReadPtr(m, a), k)} :: 0 <= k < |data| ==>
      Ptrs(WriteList(m, a, data).mem)(SlotAddress(ReadPtr(m, a), k)) == data[k]
    ensures Scan(Ptrs(WriteList(m, a, data).mem), ReadPtr(m, a), end, 8) == data
  {
    ScanRun(Ptrs(WriteList(m, a, data).mem), ReadPtr(m, a), end, data);
  }

  /** After `writelist`, the slots from the old start pointer up to end scan back as data. */
  lemma WriteListScan(m: Space, a: int, data: seq<int>, end: int)
    requires a != 0
    requires Readable(m, ReadPtr(m, a), 8 * |data|)
    requires Disjoint(ReadPtr(m, a), 8 * |data|, a, 16)
    requires forall k :: 0 <= k < |data| ==> -TWO_63 <= data[k] < TWO_63
    requires end == ReadPtr(m, a) + 8 * |data|
    ensures Scan(Ptrs(WriteList(m, a, data).mem), ReadPtr(m, a), end, 8) == data
  {
    WriteListPtrs(m, a, data);
    WriteListScanOf(m, a, data, end);
  }

  /** `readlist` of bounds start and end around slots that scan as data. */
  lemma ReadListOf(m: Space, a: int, start: int, end: int, data: seq<int>)
    requires ReadPtr(m, a) == start && ReadPtr(m, a + 8) == end
    requires Scan(Ptrs(m), start, end, 8) == data
    ensures ReadList(m, a) == NonZero(data)
  {
  }

  /**
   * A `writelist` into readable, non-overlapping slots is read back by
   * `readlist` as exactly the nonzero addresses, in order.
   */
  lemma WriteListReadBack(m: Space, a: int, data: seq<int>)
    requires a != 0 && Readable(m, a, 16)
    requires Readable(m, ReadPtr(m, a), 8 * |data|)
    requires Disjoint(ReadPtr(m, a), 8 * |data|, a, 16)
    requires -TWO_63 <= ReadPtr(m, a) + 8 * |data| < TWO_63
    requires forall k :: 0 <= k < |data| ==> -TWO_63 <= data[k] < TWO_63
    ensures ReadList(WriteList(m, a, data).mem, a) == NonZero(data)
  {
    var end := ReadPtr(m, a) + 8 * |data|;
    WriteListHeader(m, a, data);
    WriteListScan(m, a, data, end);
    ReadListOf(WriteList(m, a, data).mem, a, ReadPtr(m, a), end, data);
  }
}

=== FILE: memory.dfy ===
/**
 * The typed read/write primitives of `Memory` (pyrblx/memory.py) over an
 * abstract address space. A key present in the map is a mapped, accessible
 * byte; an absent key is a byte whose read or write faults. Page-protection
 * changes are assumed to succeed, so readable and writable coincide.
 *
 * Every read fails closed: a fault anywhere in the range yields the zero
 * value of its type. Every write is all-or-nothing and reports success.
 */
module Memory {
  import opened Bytes

  type Space = map<int, byte>

  /** The result of a write: whether it succeeded, and the memory after it. */
  datatype Written = Written(ok: bool, mem: Space)

  predicate Readable(m: Space, a: int, n: nat) {
    forall k :: a <= k < a + n ==> k in m
  }

  /** The ranges [a, a+n) and [b, b+p) share no address. */
  predicate Disjoint(a: int, n: nat, b: int, p: nat) {
    a + n <= b || b + p <= a
  }

  /** `readbytes`: the n bytes at a, or n zero bytes when any of them faults. */
  function ReadBytes(m: Space, a: int, n: nat): (r: seq<byte>)
    ensures |r| == n
    ensures Readable(m, a, n) ==> forall i :: 0 <= i < n ==> r[i] == m[a + i]
    ensures !Readable(m, a, n) ==> forall i :: 0 <= i < n ==> r[i] == 0
  {
    if Readable(m, a, n) then seq(n, i requires 0 <= i < n && Readable(m, a, n) => m[a + i])
    else seq(n, i => 0)
  }

  /** `readptr`: a signed 64-bit little-endian read, 0 on a fault. */
  function ReadPtr(m: Space, a: int): (v: int)
    ensures -TWO_63 <= v < TWO_63
    ensures !Readable(m, a, 8) ==> v == 0
  {
    var s := ReadBytes(m, a, 8);
    Pow256Values();
    FromLEZero(s);
    Signed64(FromLE(s))
  }

  /** The stored form of the pointer read at a is the eight bytes there. */
  lemma ReadPtrBytes(m: Space, a: int)
    requires Readable(m, a, 8)
    ensures U64Bytes(ReadPtr(m, a)) == ReadBytes(m, a, 8)
  {
    Pow256Values();
    U64BytesOfRead(ReadBytes(m, a, 8));
  }

  /** `readint`: a signed 32-bit little-endian read, 0 on a fault. */
  function ReadI32(m: Space, a: int): (v: int)
    ensures -TWO_31 <= v < TWO_31
    ensures !Readable(m, a, 4) ==> v == 0
  {
    var s := ReadBytes(m, a, 4);
    Pow256Values();
    FromLEZero(s);
    Signed32(FromLE(s))
  }

  /** A pointer read is 0 exactly when its eight bytes are zero or unreadable. */
  lemma ReadPtrZero(m: Space, a: int)
    ensures ReadPtr(m, a) == 0 <==> forall i :: 0 <= i < 8 ==> ReadBytes(m, a, 8)[i] == 0
  {
    var s := ReadBytes(m, a, 8);
    Pow256Values();
    FromLEZero(s);
  }


  /** `writebytes`: all bytes are written, or none is and the write reports failure. */
  function WriteBytes(m: Space, a: int, bs: seq<byte>): (w: Written)
    ensures w.ok <==> Readable(m, a, |bs|)
    ensures w.mem.Keys == m.Keys
    ensures w.ok ==> forall i :: 0 <= i < |bs| ==> w.mem[a + i] == bs[i]
    ensures forall k :: k in m && !(a <= k < a + |bs|) ==> w.mem[k] == m[k]
    ensures !w.ok ==> w.mem == m
  {
    if Readable(m, a, |bs|) then Written(true, Store(m, a, bs)) else Written(false, m)
  }

  /** The bytes bs stored one by one from a into readable memory. */
  function Store(m: Space, a: int, bs: seq<byte>): (m': Space)
    requires Readable(m, a, |bs|)
    ensures m'.Keys == m.Keys
    ensures forall i :: 0 <= i < |bs| ==> m'[a + i] == bs[i]
    ensures forall k :: k in m && !(a <= k < a + |bs|) ==> m'[k] == m[k]
    decreases |bs|
  {
    if bs == [] then m
    else
      var m1 := m[a := bs[0]];
      assert m1.Keys == m.Keys;
      var r := Store(m1, a + 1, bs[1..]);
      assert forall i :: 1 <= i < |bs| ==> r[a + i] == bs[i] by {
        forall i | 1 <= i < |bs| ensures r[a + i] == bs[i] {
          assert r[a + 1 + (i - 1)] == bs[1..][i - 1];
        }
      }
      r
  }

  /** `writeptr`: packs with struct format 'q', which rejects values outside the signed range. */
  function WritePtr(m: Space, a: int, v: int): (w: Written)
    ensures w.mem.Keys == m.Keys
    ensures w.ok <==> -TWO_63 <= v < TWO_63 && Readable(m, a, 8)
    ensures forall k :: k in m && !(a <= k < a + 8) ==> w.mem[k] == m[k]
  {
    if -TWO_63 <= v < TWO_63 then WriteBytes(m, a, U64Bytes(v)) else Written(false, m)
  }

  /** `writeint`: packs with struct format 'i', which rejects values outside the signed range. */
  function WriteI32(m: Space, a: int, v: int): (w: Written)
    ensures w.mem.Keys == m.Keys
    ensures w.ok <==> -TWO_31 <= v < TWO_31 && Readable(m, a, 4)
    ensures forall k :: k in m && !(a <= k < a + 4) ==> w.mem[k] == m[k]
  {
    if -TWO_31 <= v < TWO_31 then WriteBytes(m, a, U32Bytes(v)) else Written(false, m)
  }

  /** Two memories that agree on a range read the same bytes there. */
  lemma ReadBytesAgree(m: Space, m': Space, a: int, n: nat)
    requires forall k :: a <= k < a + n ==> (k in m <==> k in m')
    requires forall k :: a <= k < a + n && k in m ==> m'[k] == m[k]
    ensures ReadBytes(m', a, n) == ReadBytes(m, a, n)
  {
  }

  /** A write leaves every read of a disjoint range unchanged. */
  lemma ReadBytesFrame(m: Space, m': Space, a: int, n: nat, b: int, p: nat)
    requires m'.Keys == m.Keys
    requires forall k :: k in m && !(a <= k < a + n) ==> m'[k] == m[k]
    requires Disjoint(a, n, b, p)
    ensures ReadBytes(m', b, p) == ReadBytes(m, b, p)
  {
    ReadBytesAgree(m, m', b, p);
  }

  lemma ReadPtrFrame(m: Space, m': Space, a: int, n: nat, b: int)
    requires m'.Keys == m.Keys
    requires forall k :: k in m && !(a <= k < a + n) ==> m'[k] == m[k]
    requires Disjoint(a, n, b, 8)
    ensures ReadPtr(m', b) == ReadPtr(m, b)
  {
    ReadBytesFrame(m, m', a, n, b, 8);
  }

  lemma ReadI32Frame(m: Space, m': Space, a: int, n: nat, b: int)
    requires m'.Keys == m.Keys
    requires forall k :: k in m && !(a <= k < a + n) ==> m'[k] == m[k]
    requires Disjoint(a, n, b, 4)
    ensures ReadI32(m', b) == ReadI32(m, b)
  {
    ReadBytesFrame(m, m', a, n, b, 4);
  }

  /** A successful write reads back the bytes written. */
  lemma ReadAfterWriteBytes(m: Space, a: int, bs: seq<byte>)
    requires WriteBytes(m, a, bs).ok
    ensures ReadBytes(WriteBytes(m, a, bs).mem, a, |bs|) == bs
  {
  }

  /** A successful pointer write reads back the value written. */
  lemma ReadPtrAfterWrite(m: Space, a: int, v: int)
    requires WritePtr(m, a, v).ok
    ensures ReadPtr(WritePtr(m, a, v).mem, a) == v
  {
    var w := WritePtr(m, a, v);
    ReadAfterWriteBytes(m, a, U64Bytes(v));
    assert ReadBytes(w.mem, a, 8) == U64Bytes(v);
    U64BytesRoundTrip(v);
  }

  /** A successful 32-bit write reads back the value written. */
  lemma ReadI32AfterWrite(m: Space, a: int, v: int)
    requires WriteI32(m, a, v).ok
    ensures ReadI32(WriteI32(m, a, v).mem, a) == v
  {
    var w := WriteI32(m, a, v);
    ReadAfterWriteBytes(m, a, U32Bytes(v));
    assert ReadBytes(w.mem, a, 4) == U32Bytes(v);
    U32BytesRoundTrip(v);
  }

  /** Two memories that agree on eight bytes read the same pointer there. */
  lemma ReadPtrAgree(m: Space, m': Space, b: int)
    requires forall k :: b <= k < b + 8 ==> (k in m <==> k in m')
    requires forall k :: b <= k < b + 8 && k in m ==> m'[k] == m[k]
    ensures ReadPtr(m', b) == ReadPtr(m, b)
  {
    ReadBytesAgree(m, m', b, 8);
  }

  /** Two memories that agree on four bytes read the same 32-bit value there. */
  lemma ReadI32Agree(m: Space, m': Space, b: int)
    requires forall k :: b <= k < b + 4 ==> (k in m <==> k in m')
    requires forall k :: b <= k < b + 4 && k in m ==> m'[k] == m[k]
    ensures ReadI32(m', b) == ReadI32(m, b)
  {
    ReadBytesAgree(m, m', b, 4);
  }

  /** A non-empty range absent from memory is disjoint from any non-empty readable range. */
  lemma FreshDisjoint(m: Space, p: int, n: nat, b: int, q: nat)
    requires n > 0 && q > 0
    requires forall k :: p <= k < p + n ==> k !in m
    requires Readable(m, b, q)
    ensures Disjoint(p, n, b, q)
  {
    assert b in m;
    assert p < b + q ==> p !in m;
  }
}

=== FILE: offsets.dfy ===
/**
 * The offset table of `Memory` (pyrblx/memory.py): names mapped to
 * hexadecimal strings as loaded from the offsets file, looked up with a
 * default of "0x0" and parsed with `int(s, 16)`.
 */
module Offsets {
  import opened Wrappers
  import opened Text

  type Table = map<string, string>

  /** `get_offset`: None stands for the ValueError a malformed entry raises. */
  function GetOffset(t: Table, name: string): (r: Option<int>)
    ensures name !in t ==> r == Some(0)
    ensures name in t ==> r == ParseHex(t[name])
  {
    ParseHex(if name in t then t[name] else "0x0")
  }

  /** An entry written from an offset with `hex` is read back as that offset. */
  lemma GetOffsetHex(t: Table, name: string, v: int)
    ensures GetOffset(t[name := Hex(v)], name) == Some(v)
  {
    HexRoundTrip(v);
  }

  /** `dict.setdefault`: add the entry only when the name is absent. */
  function SetDefault(t: Table, name: string, value: string): (t': Table)
    ensures name in t' && t'.Keys == t.Keys + {name}
    ensures name in t ==> t' == t
    ensures name !in t ==> t'[name] == value
  {
    if name in t then t else t[name := value]
  }

  /** `load_offsets_default`: the three class-descriptor list offsets, unless already loaded. */
  function LoadDefaults(t: Table): (t': Table)
    ensures "ClassDescriptorToPropertyDescriptor" in t'
    ensures "ClassDescriptorToEventDescriptor" in t'
    ensures "ClassDescriptorToBoundFunction" in t'
    ensures forall k :: k in t' && k !in t ==>
      k == "ClassDescriptorToPropertyDescriptor" || k == "ClassDescriptorToEventDescriptor" || k == "ClassDescriptorToBoundFunction"
    ensures forall k :: k in t ==> k in t' && t'[k] == t[k]
  {
    var t1 := SetDefault(t, "ClassDescriptorToPropertyDescriptor", "0x9C0");
    var t2 := SetDefault(t1, "ClassDescriptorToEventDescriptor", "0xa68");
    SetDefault(t2, "ClassDescriptorToBoundFunction", "0xb10")
  }

  /** The three default offset strings parse to 0x9C0, 0xA68 and 0xB10. */
  lemma DefaultLiterals()
    ensures ParseHex("0x9C0") == Some(0x9C0)
    ensures ParseHex("0xa68") == Some(0xA68)
    ensures ParseHex("0xb10") == Some(0xB10)
  {
    assert ParseUnsigned("0x9C0") == Some(0x9C0) by {
      assert "0x9C0"[2..] == "9C0";
      assert "9C0"[..2] == "9C" && "9C"[..1] == "9";
    }
    assert ParseUnsigned("0xa68") == Some(0xA68) by {
      assert "0xa68"[2..] == "a68";
      assert "a68"[..2] == "a6" && "a6"[..1] == "a";
    }
    assert ParseUnsigned("0xb10") == Some(0xB10) by {
      assert "0xb10"[2..] == "b10";
      assert "b10"[..2] == "b1" && "b1"[..1] == "b";
    }
  }

  /** On a table without them, the defaults look up as 0x9C0, 0xA68 and 0xB10. */
  lemma LoadDefaultsValues(t: Table)
    requires "ClassDescriptorToPropertyDescriptor" !in t
    requires "ClassDescriptorToEventDescriptor" !in t
    requires "ClassDescriptorToBoundFunction" !in t
    ensures GetOffset(LoadDefaults(t), "ClassDescriptorToPropertyDescriptor") == Some(0x9C0)
    ensures GetOffset(LoadDefaults(t), "ClassDescriptorToEventDescriptor") == Some(0xA68)
    ensures GetOffset(LoadDefaults(t), "ClassDescriptorToBoundFunction") == Some(0xB10)
  {
    var t' := LoadDefaults(t);
    assert t'["ClassDescriptorToPropertyDescriptor"] == "0x9C0";
    assert t'["ClassDescriptorToEventDescriptor"] == "0xa68";
    assert t'["ClassDescriptorToBoundFunction"] == "0xb10";
    DefaultLiterals();
  }

  /** Loading the defaults twice changes nothing the first load did not. */
  lemma LoadDefaultsIdempotent(t: Table)
    ensures LoadDefaults(LoadDefaults(t)) == LoadDefaults(t)
  {
  }
}

=== FILE: scheduler.dfy ===
/**
 * The task scheduler's job table (`Scheduler` in pyrblx/classes.py): a run
 * of 0x10-byte slots between two pointers stored at the module base, each
 * slot naming a job whose name is a small-string at the Job_Name offset.
 */
module Scheduler {
  import opened Wrappers
  import opened Bytes
  import opened Memory
  import opened Lists
  import opened Text
  import opened Offsets
  import opened Decoding
  import opened Instances
  import opened Trees

  const JobStride: nat := 0x10
  /** `get_jobname` never reads more than this many name bytes. */
  const NameLimit: int := 100

  /** `get_address`: the start of the job table, 0 on a malformed offset. */
  function JobsStart(p: Process, base: int): (r: int)
    ensures GetOffset(p.offsets, "JobsPointer").None? ==> r == 0
    ensures forall o :: GetOffset(p.offsets, "JobsPointer") == Some(o) && !Readable(p.mem, base + o, 8) ==> r == 0
  {
    match GetOffset(p.offsets, "JobsPointer")
    case None => 0
    case Some(o) => ReadPtr(p.mem, base + o)
  }

  /** `get_size`: the end of the job table, 0 on a malformed offset. */
  function JobsEnd(p: Process, base: int): (r: int)
    ensures GetOffset(p.offsets, "JobsPointer").None? ==> r == 0
    ensures forall o :: GetOffset(p.offsets, "JobsPointer") == Some(o) && !Readable(p.mem, base + o + 8, 8) ==> r == 0
  {
    match GetOffset(p.offsets, "JobsPointer")
    case None => 0
    case Some(o) => ReadPtr(p.mem, base + o + 8)
  }

  /**
   * The two table pointers are the words stored at the module base plus the
   * JobsPointer offset and eight bytes further on.
   */
  lemma JobsBoundsReadBack(p: Process, base: int, o: int, start: int, end: int, m: Space)
    requires GetOffset(p.offsets, "JobsPointer") == Some(o)
    requires WritePtr(p.mem, base + o, start).ok
    requires WritePtr(WritePtr(p.mem, base + o, start).mem, base + o + 8, end).ok
    requires m == WritePtr(WritePtr(p.mem, base + o, start).mem, base + o + 8, end).mem
    ensures JobsStart(p.(mem := m), base) == start
    ensures JobsEnd(p.(mem := m), base) == end
  {
    var m1 := WritePtr(p.mem, base + o, start).mem;
    ReadPtrAfterWrite(p.mem, base + o, start);
    ReadPtrAfterWrite(m1, base + o + 8, end);
    assert Disjoint(base + o + 8, 8, base + o, 8);
    ReadPtrFrame(m1, m, base + o + 8, 8, base + o);
    JobsAt(p.(mem := m), base, o);
  }

  lemma JobsAt(p: Process, base: int, o: int)
    requires GetOffset(p.offsets, "JobsPointer") == Some(o)
    ensures JobsStart(p, base) == ReadPtr(p.mem, base + o)
    ensures JobsEnd(p, base) == ReadPtr(p.mem, base + o + 8)
  {
  }

  /** `str.rstrip("\x00")`. */
  function RStripNul(s: string): (r: string)
    ensures |r| <= |s| && r == s[..|r|]
    ensures |r| > 0 ==> r[|r| - 1] != '\0'
    ensures forall i :: |r| <= i < |s| ==> s[i] == '\0'
    decreases |s|
  {
    if |s| > 0 && s[|s| - 1] == '\0' then RStripNul(s[..|s| - 1]) else s
  }

  /** Name bytes as text: decoded as UTF-8 with errors dropped, trailing NULs stripped. */
  function CleanName(bs: seq<byte>): (r: string)
    ensures |r| <= |bs|
    ensures |r| > 0 ==> r[|r| - 1] != '\0'
  {
    RStripNul(DecodeIgnore(bs))
  }

  /**
   * Where the name bytes of the small-string field at obj + off are: inline
   * below 16 bytes, otherwise behind the pointer stored in the field.
   */
  function NameAt(m: Space, obj: int, off: int): int {
    if ReadI32(m, obj + off + 0x18) >= 16 then ReadPtr(m, obj + off) else obj + off
  }

  /**
   * The name text of the small-string field at obj + off: at most 100 bytes,
   * decoded as UTF-8 with errors dropped and trailing NULs stripped; "" when
   * the length is not positive or the bytes are unreadable.
   */
  function NameText(m: Space, obj: int, off: int): (r: string)
    ensures |r| <= NameLimit
    ensures |r| > 0 ==> r[|r| - 1] != '\0'
  {
    var len := ReadI32(m, obj + off + 0x18);
    var n := if len < NameLimit then len else NameLimit;
    var at := NameAt(m, obj, off);
    if n <= 0 || !Readable(m, at, n) then ""
    else CleanName(ReadBytes(m, at, n))
  }

  /** `get_jobname`: the name text at the Job_Name offset, "" when the offset is malformed. */
  function JobName(p: Process, job: int): (r: string)
    ensures GetOffset(p.offsets, "Job_Name").None? ==> r == ""
    ensures |r| <= NameLimit
  {
    var off := GetOffset(p.offsets, "Job_Name");
    if off.None? then "" else NameText(p.mem, job, off.value)
  }

  /** A NUL-free name of at most 100 bytes, stored with its length, reads back exactly. */
  lemma NameTextReadBack(m: Space, obj: int, off: int, s: string)
    requires NoNulText(s) && 0 < |Utf8(s)| <= NameLimit
    requires ReadI32(m, obj + off + 0x18) == |Utf8(s)|
    requires Readable(m, NameAt(m, obj, off), |Utf8(s)|)
    requires ReadBytes(m, NameAt(m, obj, off), |Utf8(s)|) == Utf8(s)
    ensures NameText(m, obj, off) == s
  {
    DecodeUtf8(s);
    RStripNulClean(s);
  }

  /** A name longer than 100 bytes is cut to its first 100 bytes before decoding. */
  lemma NameTextTruncates(m: Space, obj: int, off: int)
    requires ReadI32(m, obj + off + 0x18) > NameLimit
    requires Readable(m, NameAt(m, obj, off), NameLimit)
    ensures NameText(m, obj, off) == CleanName(ReadBytes(m, NameAt(m, obj, off), NameLimit))
  {
  }

  /** A job whose Job_Name field holds a NUL-free name of at most 100 bytes is named exactly that. */
  lemma JobNameReadBack(p: Process, job: int, o: int, s: string)
    requires GetOffset(p.offsets, "Job_Name") == Some(o)
    requires NoNulText(s) && 0 < |Utf8(s)| <= NameLimit
    requires ReadI32(p.mem, job + o + 0x18) == |Utf8(s)|
    requires Readable(p.mem, NameAt(p.mem, job, o), |Utf8(s)|)
    requires ReadBytes(p.mem, NameAt(p.mem, job, o), |Utf8(s)|) == Utf8(s)
    ensures JobName(p, job) == s
  {
    NameTextReadBack(p.mem, job, o, s);
  }

  predicate NoNulText(s: string) {
    forall i :: 0 <= i < |s| ==> s[i] != '\0'
  }

  /** Stripping changes nothing on text without NUL characters. */
  lemma RStripNulClean(s: string)
    requires NoNulText(s)
    ensures RStripNul(s) == s
  {
    if |s| > 0 {
      assert s[|s| - 1] != '\0';
    }
  }

  /** The kept jobs: nonzero entries whose name is not empty, in table order. */
  function KeepJobs(p: Process, s: seq<int>): (r: seq<int>)
    ensures forall j :: j in r <==> j in s && j != 0 && JobName(p, j) != ""
    ensures |r| <= |s|
    decreases |s|
  {
    if s == [] then []
    else
      var rest := KeepJobs(p, s[1..]);
      assert forall j :: j in s <==> j == s[0] || j in s[1..];
      if s[0] != 0 && JobName(p, s[0]) != "" then [s[0]] + rest else rest
  }

  /** `get_jobs`: the kept entries of the slots base, base+0x10, ... below the end pointer. */
  function Jobs(p: Process, base: int): (r: seq<int>)
    ensures JobsStart(p, base) >= JobsEnd(p, base) ==> r == []
    ensures 0 !in r
  {
    KeepJobs(p, Scan(Ptrs(p.mem), JobsStart(p, base), JobsEnd(p, base), JobStride))
  }

  /** The jobs are the named nonzero pointers held by the slots that lie below the end pointer. */
  lemma JobsSlots(p: Process, base: int, j: int)
    ensures j in Jobs(p, base) <==>
      j != 0 && JobName(p, j) != "" &&
      exists k: nat :: SlotHolds(Ptrs(p.mem), JobsStart(p, base), JobsEnd(p, base), JobStride, k, j)
  {
    ScanMember(Ptrs(p.mem), JobsStart(p, base), JobsEnd(p, base), JobStride, j);
  }

  /** `get_job`: the first job whose name contains the query, else 0. */
  function Job(p: Process, base: int, name: string): (r: int)
    ensures r != 0 ==> r in Jobs(p, base) && Contains(JobName(p, r), name)
    ensures r == 0 ==> forall j :: j in Jobs(p, base) ==> !Contains(JobName(p, j), name)
    ensures r != 0 ==> (exists i :: 0 <= i < |Jobs(p, base)| && Jobs(p, base)[i] == r && forall j :: 0 <= j < i ==> !Contains(JobName(p, Jobs(p, base)[j]), name))
  {
    FirstOr0(Jobs(p, base), j => Contains(JobName(p, j), name))
  }

  /** An empty query finds the first job, when there is one. */
  lemma JobEmptyQuery(p: Process, base: int)
    requires |Jobs(p, base)| > 0
    ensures Job(p, base, "") == Jobs(p, base)[0]
  {
  }
}

=== FILE: search.dfy ===
/**
 * The explorer's search filter, written twice in the source: `testSearch`
 * of pyrblx/main.py and the nested `testSearch` of pyrblx/app.py. The query
 * is lowered and split on single spaces; an instance matches when some
 * piece occurs in "name class address", all lowered, with the address as
 * `get_address` prints it: `hex`, so "0x" and lower-case digits.
 */
module Search {
  import opened Text

  /** The text searched: `f"{name.lower()} {class.lower()} {address}"`, the address from `get_address`. */
  function Haystack(name: string, cls: string, address: int): string {
    Lower(name) + " " + Lower(cls) + " " + Hex(address)
  }

  /** `any([part in hay for part in parts])`. */
  function AnyIn(parts: seq<string>, hay: string): (b: bool)
    ensures parts == [] ==> !b
    decreases |parts|
  {
    parts != [] && (Contains(hay, parts[0]) || AnyIn(parts[1..], hay))
  }

  /** The query's pieces: `text.lower().split(" ")`. */
  function Parts(text: string): (r: seq<string>)
    ensures |r| >= 1
  {
    Split(Lower(text), ' ')
  }

  /** `testSearch` of pyrblx/main.py: an empty query matches at once. */
  function TestSearch(text: string, name: string, cls: string, address: int): (b: bool)
    ensures text == "" ==> b
  {
    text == "" || AnyIn(Parts(text), Haystack(name, cls, address))
  }

  /** `testSearch` of pyrblx/app.py, which has no test for the empty query. */
  function TestSearchApp(text: string, name: string, cls: string, address: int): (b: bool)
    ensures b <==> exists i :: 0 <= i < |Parts(text)| && Contains(Haystack(name, cls, address), Parts(text)[i])
  {
    AnyInExists(Parts(text), Haystack(name, cls, address));
    AnyIn(Parts(text), Haystack(name, cls, address))
  }

  /** `any` holds exactly when some piece is a substring. */
  lemma {:induction false} AnyInExists(parts: seq<string>, hay: string)
    ensures AnyIn(parts, hay) <==> exists i :: 0 <= i < |parts| && Contains(hay, parts[i])
    decreases |parts|
  {
    if parts != [] {
      AnyInExists(parts[1..], hay);
      if AnyIn(parts[1..], hay) {
        var i :| 0 <= i < |parts[1..]| && Contains(hay, parts[1..][i]);
        assert Contains(hay, parts[i + 1]);
      }
      forall i | 0 < i < |parts| && Contains(hay, parts[i]) ensures AnyIn(parts[1..], hay) {
        assert parts[1..][i - 1] == parts[i];
      }
    }
  }

  /**
   * Both versions agree on every query: the empty query splits into the one
   * empty piece, which occurs in every text.
   */
  lemma SearchAgrees(text: string, name: string, cls: string, address: int)
    ensures TestSearch(text, name, cls, address) == TestSearchApp(text, name, cls, address)
  {
    if text == "" {
      assert Parts(text) == [""];
    }
  }

  /** A match is a piece of the query occurring in the searched text, or the empty query. */
  lemma SearchMeaning(text: string, name: string, cls: string, address: int)
    ensures TestSearch(text, name, cls, address) <==>
      text == "" || exists i :: 0 <= i < |Parts(text)| && Contains(Haystack(name, cls, address), Parts(text)[i])
  {
    AnyInExists(Parts(text), Haystack(name, cls, address));
  }

  /** The printed address always holds "0x", so the query "0x" matches every instance. */
  lemma HexQueryMatches(name: string, cls: string, address: int)
    ensures TestSearch("0x", name, cls, address)
  {
    var hay := Haystack(name, cls, address);
    var at := |Lower(name)| + |Lower(cls)| + 2 + (if address < 0 then 1 else 0);
    assert hay[at..at + 2] == "0x";
    assert OccursAt(hay, "0x", at);
    ContainsOccurs(hay, "0x");
    assert Lower("0x") == "0x";
    SplitNoSeparator("0x", ' ');
    AnyInExists(Parts("0x"), hay);
  }

  /** A query with an empty piece matches every instance. */
  lemma EmptyPieceMatches(text: string, name: string, cls: string, address: int)
    requires "" in Parts(text)
    ensures TestSearch(text, name, cls, address)
  {
    var i :| 0 <= i < |Parts(text)| && Parts(text)[i] == "";
    AnyInExists(Parts(text), Haystack(name, cls, address));
  }

  /** A leading, trailing or doubled space leaves an empty piece in the query. */
  lemma EmptyPieces(text: string)
    ensures |text| > 0 && text[0] == ' ' ==> "" in Parts(text)
    ensures |text| > 0 && text[|text| - 1] == ' ' ==> "" in Parts(text)
    ensures forall i :: 0 <= i < |text| - 1 && text[i] == ' ' && text[i + 1] == ' ' ==> "" in Parts(text)
  {
    var s := Lower(text);
    if |text| > 0 && text[0] == ' ' {
      assert Parts(text)[0] == "";
    }
    if |text| > 0 && text[|text| - 1] == ' ' {
      SplitTrailing(s, ' ');
    }
    forall i | 0 <= i < |text| - 1 && text[i] == ' ' && text[i + 1] == ' ' ensures "" in Parts(text) {
      SplitDouble(s, ' ', i);
    }
  }

  /** A text without the separator splits into itself alone. */
  lemma {:induction false} SplitNoSeparator(s: string, c: char)
    requires c !in s
    ensures Split(s, c) == [s]
    decreases |s|
  {
    if |s| > 0 {
      SplitNoSeparator(s[1..], c);
      assert [s[0]] + s[1..] == s;
    }
  }

  lemma {:induction false} SplitTrailing(s: string, c: char)
    requires |s| > 0 && s[|s| - 1] == c
    ensures |Split(s, c)| >= 2 && Split(s, c)[|Split(s, c)| - 1] == ""
    decreases |s|
  {
    if |s| > 1 {
      SplitTrailing(s[1..], c);
    }
  }

  lemma {:induction false} SplitDouble(s: string, c: char, i: nat)
    requires i + 1 < |s| && s[i] == c && s[i + 1] == c
    ensures "" in Split(s, c)[1..]
    decreases i
  {
    var rest := Split(s[1..], c);
    if i == 0 {
      assert rest[0] == "";
      assert Split(s, c)[1] == "";
    } else {
      SplitDouble(s[1..], c, i - 1);
      var k :| 1 <= k < |rest| && rest[k] == "";
      if s[0] == c {
        assert Split(s, c)[k + 1] == "";
      } else {
        assert Split(s, c)[k] == "";
      }
    }
  }
}

=== FILE: setters.dfy ===
/**
 * The property setters of `Instance` and its subclasses (pyrblx/classes.py).
 * Each one starts with the same guard: an instance whose address is 0
 * reports failure and writes nothing. A malformed offset raises inside the
 * setter's `try`, which also reports failure. Floats are kept as their 32-bit
 * patterns, as in the health model.
 */
module Setters {
  import opened Wrappers
  import opened Bytes
  import opened Memory
  import opened Strings
  import opened Offsets
  import opened Instances

  /**
   * The string object `set_name` writes to: the pointer in the Name field of
   * a non-null instance, or None when the guard or the offset fails.
   */
  function NameObject(p: Process, a: int): (r: Option<int>)
    ensures r.Some? <==> a != 0 && GetOffset(p.offsets, "Name").Some?
  {
    if a == 0 then None
    else
      match GetOffset(p.offsets, "Name")
      case None => None
      case Some(o) => Some(ReadPtr(p.mem, a + o))
  }

  /**
   * `set_name`: rewrites the string object the Name field points at through
   * `writestring2` as written, allocation-failure fallback included.
   */
  function SetName(p: Process, a: int, s: string, alloc: int): (w: StringWrite)
    ensures a == 0 ==> w == StringWrite(false, p.mem, NoHeap)
    ensures GetOffset(p.offsets, "Name").None? ==> w == StringWrite(false, p.mem, NoHeap)
  {
    match NameObject(p, a)
    case None => StringWrite(false, p.mem, NoHeap)
    case Some(str) => WriteString2(p.mem, str, s, alloc)
  }

  /**
   * A successful `set_name` leaves the string object behind the Name field
   * holding the new value, as `readstring2` decodes it, provided the block it
   * writes through does not overlap the object's header and the
   * allocation-failure fallback is not taken (see WriteString2FallbackLosesText).
   */
  lemma SetNameReadBack(p: Process, a: int, s: string, alloc: int, str: int)
    requires NoNul(s)
    requires NameObject(p, a) == Some(str)
    requires ReadPtr(p.mem, str) != 0 ==>
      Disjoint(ReadPtr(p.mem, str), |Utf8(s)| + 1, str, 8) &&
      Disjoint(ReadPtr(p.mem, str), |Utf8(s)| + 1, str + LengthField, 4)
    requires alloc != 0 ==>
      (forall k :: alloc <= k < alloc + |Utf8(s)| + 1 ==> k !in p.mem) && Disjoint(alloc, |Utf8(s)| + 1, str, 8)
    requires |Utf8(s)| < InlineLimit || ReadPtr(p.mem, str) != 0 || alloc != 0
    ensures SetName(p, a, s, alloc).ok ==> ReadString2(SetName(p, a, s, alloc).mem, str) == Latin1(Utf8(s))
  {
    WriteString2FixedAgrees(p.mem, str, s, alloc);
    WriteString2FixedReadBack(p.mem, str, s, alloc);
  }

  /** The object `set_name` writes is the one `get_name` reads. */
  lemma NameObjectRead(p: Process, a: int, str: int)
    requires NameObject(p, a) == Some(str)
    ensures Name(p, a) == ReadString2(p.mem, str)
  {
  }

  /** `set_parent`: stores the parent's address in the Parent field. */
  function SetParent(p: Process, a: int, parent: int): (w: Written)
    ensures a == 0 ==> w == Written(false, p.mem)
    ensures GetOffset(p.offsets, "Parent").None? ==> w == Written(false, p.mem)
    ensures w.mem.Keys == p.mem.Keys
  {
    if a == 0 then Written(false, p.mem)
    else
      match GetOffset(p.offsets, "Parent")
      case None => Written(false, p.mem)
      case Some(o) => WritePtr(p.mem, a + o, parent)
  }

  /** After a successful `set_parent`, `get_parent` yields the parent written. */
  lemma SetParentReadBack(p: Process, a: int, parent: int)
    requires SetParent(p, a, parent).ok
    ensures Parent(Process(SetParent(p, a, parent).mem, p.offsets), a) == Some(parent)
  {
    var o := GetOffset(p.offsets, "Parent").value;
    var w := SetParent(p, a, parent);
    SetParentWrites(p, a, parent, o);
    ParentField(Process(w.mem, p.offsets), a, o, parent);
  }

  /** Past the guard, `set_parent` is the pointer write at the Parent field, which reads back. */
  lemma SetParentWrites(p: Process, a: int, parent: int, o: int)
    requires a != 0 && GetOffset(p.offsets, "Parent") == Some(o)
    requires SetParent(p, a, parent).ok
    ensures ReadPtr(SetParent(p, a, parent).mem, a + o) == parent
  {
    assert SetParent(p, a, parent) == WritePtr(p.mem, a + o, parent);
    ReadPtrAfterWrite(p.mem, a + o, parent);
  }

  /** `get_parent` is the pointer stored in the Parent field. */
  lemma ParentField(p: Process, a: int, o: int, v: int)
    requires GetOffset(p.offsets, "Parent") == Some(o)
    requires ReadPtr(p.mem, a + o) == v
    ensures Parent(p, a) == Some(v)
  {
  }

  /** `set_parent` succeeds exactly when the guard passes, the offset parses, the value fits and the field is mapped. */
  lemma SetParentOk(p: Process, a: int, parent: int)
    ensures SetParent(p, a, parent).ok <==>
      a != 0 && GetOffset(p.offsets, "Parent").Some? &&
      -TWO_63 <= parent < TWO_63 && Readable(p.mem, a + GetOffset(p.offsets, "Parent").value, 8)
  {
  }

  /** The float fields that are read and written directly at an offset. */
  datatype FloatField = Gravity | WalkSpeed | JumpPower

  function FieldName(f: FloatField): (r: string)
    ensures r != ""
  {
    match f
    case Gravity => "Gravity"
    case WalkSpeed => "WalkSpeed"
    case JumpPower => "JumpPower"
  }

  /** `readfloat`: the 32-bit pattern at a, 0 (the pattern of 0.0) on a fault. */
  function ReadF32(m: Space, a: int): (r: nat)
    ensures r < TWO_32
    ensures !Readable(m, a, 4) ==> r == 0
  {
    Pow256Values();
    FromLEZero(ReadBytes(m, a, 4));
    FromLE(ReadBytes(m, a, 4))
  }

  /** `writefloat`: the four bytes of the pattern, all or nothing. */
  function WriteF32(m: Space, a: int, bits: nat): (w: Written)
    requires bits < TWO_32
    ensures w.ok <==> Readable(m, a, 4)
  {
    Pow256Values();
    WriteBytes(m, a, ToLE(bits, 4))
  }

  /** `get_gravity`, `get_walkspeed`, `get_jumppower`: 0.0 when the offset is malformed. */
  function GetFloat(p: Process, a: int, f: FloatField): (r: nat)
    ensures r < TWO_32
    ensures GetOffset(p.offsets, FieldName(f)).None? ==> r == 0
  {
    match GetOffset(p.offsets, FieldName(f))
    case None => 0
    case Some(o) => ReadF32(p.mem, a + o)
  }

  /**
   * `set_gravity`, `set_walkspeed`, `set_jumppower`: the result of the
   * float write is discarded, so the setter reports success whenever the
   * guard passes and the offset parses, even when the write faulted.
   */
  function SetFloat(p: Process, a: int, f: FloatField, bits: nat): (w: Written)
    requires bits < TWO_32
    ensures a == 0 ==> w == Written(false, p.mem)
    ensures w.ok <==> a != 0 && GetOffset(p.offsets, FieldName(f)).Some?
    ensures !w.ok ==> w.mem == p.mem
  {
    if a == 0 then Written(false, p.mem)
    else
      match GetOffset(p.offsets, FieldName(f))
      case None => Written(false, p.mem)
      case Some(o) => Written(true, WriteF32(p.mem, a + o, bits).mem)
  }

  /** A setter whose field is mapped is read back by the matching getter. */
  lemma SetFloatReadBack(p: Process, a: int, f: FloatField, bits: nat)
    requires bits < TWO_32
    requires a != 0 && GetOffset(p.offsets, FieldName(f)).Some?
    requires Readable(p.mem, a + GetOffset(p.offsets, FieldName(f)).value, 4)
    ensures GetFloat(Process(SetFloat(p, a, f, bits).mem, p.offsets), a, f) == bits
  {
    var x := a + GetOffset(p.offsets, FieldName(f)).value;
    Pow256Values();
    ReadAfterWriteBytes(p.mem, x, ToLE(bits, 4));
    FromLEToLE(bits, 4);
  }

  /** A faulting float write still reports success, and memory is unchanged. */
  lemma SetFloatIgnoresFault(p: Process, a: int, f: FloatField, bits: nat)
    requires bits < TWO_32
    requires a != 0 && GetOffset(p.offsets, FieldName(f)).Some?
    requires !Readable(p.mem, a + GetOffset(p.offsets, FieldName(f)).value, 4)
    ensures SetFloat(p, a, f, bits) == Written(true, p.mem)
  {
  }
}

=== FILE: signing.dfy ===
/**
 * The bytecode signing footer of the Luau compiler wrapper
 * (pyrblx/Luau/compiler.py). A non-empty bytecode is followed by a 40-byte
 * footer: two 32-bit words derived from the first four transformed bytes,
 * then the 32 transformed bytes of the bytecode's digest.
 *
 * The digest (blake3, 32 bytes) is a parameter. Unlike the rest of the
 * model, which keeps bytes as the integer newtype `Bytes.byte`, this module
 * takes bytes as `bv8` and the two footer words as `bv32`: the signing code
 * is all complement, xor, shifts and rotations, which are bit-vector
 * operators, and Python's masks (`& 0xFF`, `~x & 0xFF`, `^` on values
 * below 2^32) are exactly their wrap-around. Nothing here is shared with
 * the byte-level memory model, so no conversion between the two is needed.
 */
module Signing {

  /** `KEY_BYTES`: "ROFL". */
  const KeyBytes: seq<bv8> := [0x52, 0x4F, 0x46, 0x4C]

  const MagicA: bv32 := 0x4C46_4F52
  const MagicB: bv32 := 0x946A_C432

  /** `FOOTER_SIZE`. */
  const FooterSize: nat := 40

  /** A 32-byte digest, as `blake3(...).digest(32)` returns. */
  type Digest32 = s: seq<bv8> | |s| == 32 witness seq(32, i => 0)

  /**
   * `rotl8`. The value is a byte, so `value & 0xFF` leaves it unchanged, and
   * `shift & 7` looks at the low three bits of the shift only, which an
   * eight-bit shift carries.
   */
  function Rotl8(value: bv8, shift: bv8): bv8 {
    var s := shift & 7;
    (value << s) | (value >> (8 - s))
  }

  /** The result depends on the shift only modulo 8. */
  lemma Rotl8Reduces(value: bv8, shift: bv8)
    ensures Rotl8(value, shift) == Rotl8(value, shift & 7)
  {
  }

  /**
   * Bit k of the rotated byte is bit k - s (modulo 8) of the original, for
   * s the shift's low three bits: a left rotation.
   */
  lemma Rotl8Bits(value: bv8, shift: bv8, k: bv8)
    requires k < 8
    ensures (Rotl8(value, shift) >> k) & 1 == (value >> ((k - (shift & 7)) & 7)) & 1
  {
  }

  /** A rotation by 0 is the identity. */
  lemma Rotl8Identity(value: bv8)
    ensures Rotl8(value, 0) == value
  {
  }

  /** Rotating by s and then by 8 - s restores the byte: each rotation is a bijection. */
  lemma Rotl8Inverse(value: bv8, s: bv8)
    ensures Rotl8(Rotl8(value, s), 8 - s) == value
  {
  }

  /** The shift of lane i: `(combined & 3) + 1 + (i & 3)`, with `combined = (key + i) & 0xFF`. */
  function LaneShift(i: bv8): (s: bv8)
    ensures (i & 3) + 1 <= s <= (i & 3) + 4
    ensures 1 <= s <= 7
  {
    ((KeyBytes[(i & 3) as int] + i) & 3) + (i & 3) + 1
  }

  /** The i-th transformed byte, case by case on `i & 3` as the compiler writes it. */
  function Lane(hash: bv8, i: bv8): (r: bv8) {
    var key := KeyBytes[(i & 3) as int];
    var combined := key + i;
    var c := i & 3;
    if c == 0 then Rotl8(hash ^ !key, (combined & 3) + 1)
    else if c == 1 then Rotl8(key ^ !hash, (combined & 3) + 2)
    else if c == 2 then Rotl8(hash ^ !key, (combined & 3) + 3)
    else Rotl8(key ^ !hash, (combined & 3) + 4)
  }

  /**
   * All four cases compute the same thing: h ^ ~k == k ^ ~h == ~(h ^ k), so
   * every lane rotates the complement of hash xor key by its lane shift.
   */
  lemma LaneUniform(hash: bv8, i: bv8)
    ensures Lane(hash, i) == Rotl8(!(hash ^ KeyBytes[(i & 3) as int]), LaneShift(i))
  {
    NotXor(hash, KeyBytes[(i & 3) as int]);
    if i & 3 < 2 {
      LaneUniformLow(hash, i);
    } else {
      LaneUniformHigh(hash, i);
    }
  }

  lemma LaneUniformLow(hash: bv8, i: bv8)
    requires i & 3 < 2
    ensures Lane(hash, i) == Rotl8(!(hash ^ KeyBytes[(i & 3) as int]), LaneShift(i))
  {
    NotXor(hash, KeyBytes[(i & 3) as int]);
  }

  lemma LaneUniformHigh(hash: bv8, i: bv8)
    requires 2 <= i & 3
    ensures Lane(hash, i) == Rotl8(!(hash ^ KeyBytes[(i & 3) as int]), LaneShift(i))
  {
    NotXor(hash, KeyBytes[(i & 3) as int]);
  }

  /** Each lane is invertible: rotating back, complementing and xoring the key recovers the digest byte. */
  lemma LaneInverse(hash: bv8, i: bv8)
    ensures !Rotl8(Lane(hash, i), 8 - LaneShift(i)) ^ KeyBytes[(i & 3) as int] == hash
  {
    LaneUniform(hash, i);
    Rotl8Inverse(!(hash ^ KeyBytes[(i & 3) as int]), LaneShift(i));
  }

  lemma NotXor(h: bv8, k: bv8)
    ensures h ^ !k == !(h ^ k) && k ^ !h == !(h ^ k)
  {
  }

  /** The 32 transformed digest bytes. */
  function Transformed(d: Digest32): (t: seq<bv8>)
    ensures |t| == 32
    ensures forall i :: 0 <= i < 32 ==> t[i] == Lane(d[i], i as bv8)
  {
    seq(32, i requires 0 <= i < 32 => Lane(d[i], i as bv8))
  }

  /** `struct.pack("<I", x)`. */
  function Pack32(x: bv32): (r: seq<bv8>)
    ensures |r| == 4
  {
    [(x & 0xFF) as bv8, ((x >> 8) & 0xFF) as bv8, ((x >> 16) & 0xFF) as bv8, (x >> 24) as bv8]
  }

  /** `struct.unpack_from("<I", t, 0)`. */
  function Unpack32(t: seq<bv8>): bv32
    requires |t| >= 4
  {
    (t[0] as bv32) | (t[1] as bv32 << 8) | (t[2] as bv32 << 16) | (t[3] as bv32 << 24)
  }

  /** Packing a word and unpacking it again gives the word back. */
  lemma Unpack32Pack32(x: bv32, rest: seq<bv8>)
    ensures Unpack32(Pack32(x) + rest) == x
  {
    var p := Pack32(x) + rest;
    assert p[0] == (x & 0xFF) as bv8 && p[1] == ((x >> 8) & 0xFF) as bv8;
    assert p[2] == ((x >> 16) & 0xFF) as bv8 && p[3] == (x >> 24) as bv8;
  }

  /** The footer: the first transformed word xor MAGIC_B, xor MAGIC_A, then the transformed bytes. */
  function Footer(t: seq<bv8>): (f: seq<bv8>)
    requires |t| == 32
    ensures |f| == FooterSize
    ensures f[8..] == t
  {
    var w := Unpack32(t);
    Pack32(w ^ MagicB) + Pack32(w ^ MagicA) + t
  }

  /** `sign`: b"" for empty bytecode, otherwise the bytecode followed by its footer. */
  function Sign(blake3: seq<bv8> -> Digest32, code: seq<bv8>): (r: seq<bv8>)
    ensures code == [] ==> r == []
    ensures code != [] ==> |r| == |code| + FooterSize && r[..|code|] == code
  {
    if code == [] then [] else code + Footer(Transformed(blake3(code)))
  }

  /** The footer's two words differ by MAGIC_A ^ MAGIC_B, whatever the digest. */
  lemma FooterWords(t: seq<bv8>)
    requires |t| == 32
    ensures Unpack32(Footer(t)) ^ Unpack32(Footer(t)[4..]) == MagicA ^ MagicB
  {
    FooterFirstWord(t);
    FooterSecondWord(t);
    XorPair(Unpack32(t));
  }

  /** The first footer word is the digest's first transformed word xor MAGIC_B. */
  lemma FooterFirstWord(t: seq<bv8>)
    requires |t| == 32
    ensures Unpack32(Footer(t)) == Unpack32(t) ^ MagicB
  {
    var w := Unpack32(t);
    assert Footer(t)[..4] == Pack32(w ^ MagicB);
    UnpackPrefix(Footer(t), w ^ MagicB);
  }

  /** The second footer word is the digest's first transformed word xor MAGIC_A. */
  lemma FooterSecondWord(t: seq<bv8>)
    requires |t| == 32
    ensures Unpack32(Footer(t)[4..]) == Unpack32(t) ^ MagicA
  {
    var w := Unpack32(t);
    assert Footer(t)[4..][..4] == Pack32(w ^ MagicA);
    UnpackPrefix(Footer(t)[4..], w ^ MagicA);
  }

  /** Unpacking reads only the first four bytes. */
  lemma UnpackPrefix(s: seq<bv8>, x: bv32)
    requires |s| >= 4 && s[..4] == Pack32(x)
    ensures Unpack32(s) == x
  {
    assert s == Pack32(x) + s[4..];
    Unpack32Pack32(x, s[4..]);
  }

  lemma XorPair(w: bv32)
    ensures (w ^ MagicB) ^ (w ^ MagicA) == MagicA ^ MagicB
  {
  }

  /** In a signed bytecode, the footer's last 32 bytes are the digest's lanes. */
  lemma SignedLanes(blake3: seq<bv8> -> Digest32, code: seq<bv8>, i: bv8)
    requires code != [] && i < 32
    ensures Sign(blake3, code)[|code| + 8 + i as int] ==
      Rotl8(!(blake3(code)[i] ^ KeyBytes[(i & 3) as int]), LaneShift(i))
  {
    var t := Transformed(blake3(code));
    assert Sign(blake3, code)[|code| + 8 + i as int] == t[i];
    LaneUniform(blake3(code)[i], i);
  }
}

=== FILE: strings.dfy ===
/**
 * The string conventions of `Memory` (pyrblx/memory.py): NUL-terminated
 * reads, and the small-string layout in which the 32-bit length sits at
 * +0x18 and the characters sit inline below 16 bytes, otherwise behind the
 * pointer stored at +0.
 */
module Strings {
  import opened Bytes
  import opened Memory

  /** Offset of the 32-bit length in a small-string slot. */
  const LengthField: int := 0x18
  /** Lengths at or above this live behind the pointer at +0. */
  const InlineLimit: int := 16

  /** The readable addresses at or above a, which bound a string scan. */
  function KeysFrom(m: Space, a: int): set<int> {
    set k | k in m && k >= a
  }

  /** The byte at k is readable, nonzero, and equal to b. */
  predicate NonNulAt(m: Space, k: int, b: byte) {
    k in m && m[k] == b && b != 0
  }

  /** s is what a byte-by-byte scan from a collects: nonzero bytes up to a NUL or a fault. */
  predicate IsCStringAt(m: Space, a: int, s: seq<byte>) {
    && (forall i :: 0 <= i < |s| ==> NonNulAt(m, a + i, s[i]))
    && (a + |s| !in m || m[a + |s|] == 0)
  }

  lemma KeysFromShrink(m: Space, a: int)
    requires a in m
    ensures |KeysFrom(m, a + 1)| < |KeysFrom(m, a)|
  {
    var big, small := KeysFrom(m, a), KeysFrom(m, a + 1);
    assert big == small + {a};
    assert a !in small;
  }

  /** A nonzero byte in front of a scanned string extends the scan by one. */
  lemma CStringCons(m: Space, a: int, rest: seq<byte>)
    requires a in m && m[a] != 0
    requires IsCStringAt(m, a + 1, rest)
    ensures IsCStringAt(m, a, [m[a]] + rest)
  {
    var r := [m[a]] + rest;
    forall i | 0 <= i < |r| ensures NonNulAt(m, a + i, r[i]) {
      if i > 0 {
        assert r[i] == rest[i - 1];
        assert NonNulAt(m, a + 1 + (i - 1), rest[i - 1]);
      }
    }
    assert a + 1 + |rest| == a + |r|;
  }

  /** The bytes `readstring` collects at a nonzero address. */
  function CString(m: Space, a: int): (s: seq<byte>)
    ensures IsCStringAt(m, a, s)
    decreases |KeysFrom(m, a)|
  {
    if a in m && m[a] != 0 then
      KeysFromShrink(m, a);
      var rest := CString(m, a + 1);
      CStringCons(m, a, rest);
      [m[a]] + rest
    else []
  }

  /** Only one byte string is collected by a scan from a given address. */
  lemma {:induction false} CStringUnique(m: Space, a: int, s: seq<byte>, t: seq<byte>)
    requires IsCStringAt(m, a, s) && IsCStringAt(m, a, t)
    ensures s == t
  {
    assert |s| < |t| ==> NonNulAt(m, a + |s|, t[|s|]);
    assert |t| < |s| ==> NonNulAt(m, a + |t|, s[|t|]);
    forall i | 0 <= i < |s| ensures s[i] == t[i] {
      assert NonNulAt(m, a + i, s[i]) && NonNulAt(m, a + i, t[i]);
    }
  }

  /** `readstring`: "" at address 0, else the Latin-1 text of the NUL-terminated bytes. */
  function ReadString(m: Space, a: int): (r: string)
    ensures a == 0 ==> r == ""
    ensures forall i :: 0 <= i < |r| ==> r[i] != '\0'
  {
    if a == 0 then "" else Latin1(CString(m, a))
  }

  /** `readstring2`: branch on the length field, then read inline or through the pointer. */
  function ReadString2(m: Space, a: int): (r: string)
    ensures a == 0 ==> r == ""
    ensures forall i :: 0 <= i < |r| ==> r[i] != '\0'
  {
    if a == 0 then ""
    else if ReadI32(m, a + LengthField) >= InlineLimit then ReadString(m, ReadPtr(m, a))
    else ReadString(m, a)
  }

  /** `writestring`: the UTF-8 bytes of the value followed by a NUL. */
  function WriteString(m: Space, a: int, s: string): (w: Written)
    ensures a == 0 ==> !w.ok && w.mem == m
    ensures a != 0 ==> w == WriteBytes(m, a, Utf8(s) + [0])
  {
    if a == 0 then Written(false, m) else WriteBytes(m, a, Utf8(s) + [0])
  }

  predicate NoNul(s: string) {
    forall i :: 0 <= i < |s| ==> s[i] != '\0'
  }

  /** A successful `writestring` of NUL-free text is read back by `readstring`. */
  lemma ReadStringAfterWrite(m: Space, a: int, s: string)
    requires NoNul(s)
    requires WriteString(m, a, s).ok
    ensures ReadString(WriteString(m, a, s).mem, a) == Latin1(Utf8(s))
  {
    var b := Utf8(s);
    var m' := WriteString(m, a, s).mem;
    Utf8NoZero(s);
    assert (b + [0])[|b|] == 0;
    forall i | 0 <= i < |b| ensures NonNulAt(m', a + i, b[i]) {
      assert m'[a + i] == (b + [0])[i] == b[i];
    }
    assert IsCStringAt(m', a, b);
    CStringUnique(m', a, b, CString(m', a));
  }

  /** What `writestring2` did with remote heap memory. */
  datatype HeapEffect =
    | NoHeap                        // inline write, or nothing written
    | Reused(ptr: int)              // wrote through the pointer already stored at +0
    | Allocated(ptr: int)           // allocated a block and stored its address at +0
    | AllocatedThenFreed(ptr: int)  // allocated a block, failed to fill it, freed it
    | AllocationFailed              // allocation returned 0: inline write plus self-pointer

  datatype StringWrite = StringWrite(ok: bool, mem: Space, heap: HeapEffect)

  /** n zero bytes starting at p. */
  function ZeroBlock(p: int, n: nat): (z: Space)
    ensures forall k :: k in z <==> p <= k < p + n
    ensures forall k :: k in z ==> z[k] == 0
  {
    if n == 0 then map[] else ZeroBlock(p, n - 1)[p + n - 1 := 0]
  }

  /** `process.allocate(n)` at address p: n committed, zero-filled bytes. */
  function Allocate(m: Space, p: int, n: nat): (m': Space)
    ensures forall k :: k in m' <==> k in m || p <= k < p + n
    ensures Readable(m', p, n)
    ensures forall k :: p <= k < p + n ==> m'[k] == 0
    ensures forall k :: k in m && !(p <= k < p + n) ==> m'[k] == m[k]
  {
    m + ZeroBlock(p, n)
  }

  /** `process.free(p)` of a block of n bytes. */
  function Free(m: Space, p: int, n: nat): (m': Space)
    ensures forall k :: k in m' <==> k in m && !(p <= k < p + n)
    ensures forall k :: k in m' ==> m'[k] == m[k]
  {
    m - ZeroBlock(p, n).Keys
  }

  /**
   * `writestring2` as written. `alloc` is what the allocator returns for a
   * request of length+1 bytes: 0 for a failure, otherwise the block's address.
   */
  function WriteString2(m: Space, a: int, s: string, alloc: int): (w: StringWrite)
    ensures a == 0 ==> !w.ok && w.mem == m
    ensures !WriteI32(m, a + LengthField, |Utf8(s)|).ok ==> !w.ok && w.mem == m
    ensures |Utf8(s)| < InlineLimit ==> w.heap == NoHeap
    ensures w.heap.Reused? ==> w.heap.ptr != 0
    ensures w.heap.Allocated? || w.heap.AllocatedThenFreed? ==> w.heap.ptr == alloc != 0
    ensures w.heap.AllocatedThenFreed? ==> !w.ok
  {
    var len := |Utf8(s)|;
    if a == 0 then StringWrite(false, m, NoHeap)
    else
      var w1 := WriteI32(m, a + LengthField, len);
      if !w1.ok then StringWrite(false, m, NoHeap)
      else if len < InlineLimit then
        var w2 := WriteString(w1.mem, a, s);
        StringWrite(w2.ok, w2.mem, NoHeap)
      else WriteIndirect(w1.mem, a, s, alloc)
  }

  /** The long-string branch of `writestring2`, after the length has been stored. */
  function WriteIndirect(m: Space, a: int, s: string, alloc: int): (w: StringWrite)
    ensures w.heap.Reused? ==> w.heap.ptr == ReadPtr(m, a) != 0
    ensures w.heap.Allocated? || w.heap.AllocatedThenFreed? ==> w.heap.ptr == alloc != 0
    ensures w.heap.AllocatedThenFreed? ==> !w.ok
    ensures w.heap != NoHeap
  {
    var ptr := ReadPtr(m, a);
    if ptr != 0 then
      var w2 := WriteString(m, ptr, s);
      StringWrite(w2.ok, w2.mem, Reused(ptr))
    else if alloc == 0 then
      var w2 := WriteString(m, a, s);
      if !w2.ok then StringWrite(false, w2.mem, AllocationFailed)
      else
        var w3 := WritePtr(w2.mem, a, a);
        StringWrite(w3.ok, w3.mem, AllocationFailed)
    else WriteAllocated(m, a, s, alloc)
  }

  /** Fill a freshly allocated block and store its address at +0, freeing it on failure. */
  function WriteAllocated(m: Space, a: int, s: string, alloc: int): (w: StringWrite)
    requires alloc != 0
    ensures w.heap == Allocated(alloc) || (w.heap == AllocatedThenFreed(alloc) && !w.ok)
  {
    var n := |Utf8(s)| + 1;
    var w2 := WriteString(Allocate(m, alloc, n), alloc, s);
    if !w2.ok then StringWrite(false, Free(w2.mem, alloc, n), AllocatedThenFreed(alloc))
    else
      var w3 := WritePtr(w2.mem, a, alloc);
      StringWrite(w3.ok, w3.mem, Allocated(alloc))
  }

  /** A write outside the bytes of a stored string leaves its `readstring` unchanged. */
  lemma ReadStringFrame(m: Space, m': Space, a: int, n: nat, p: int)
    requires m'.Keys == m.Keys
    requires forall k :: k in m && !(a <= k < a + n) ==> m'[k] == m[k]
    requires p != 0 && Disjoint(a, n, p, |CString(m, p)| + 1)
    ensures ReadString(m', p) == ReadString(m, p)
  {
    var c := CString(m, p);
    assert IsCStringAt(m', p, c) by {
      forall i | 0 <= i < |c| ensures NonNulAt(m', p + i, c[i]) {
        assert NonNulAt(m, p + i, c[i]);
        assert !(a <= p + i < a + n);
      }
      assert !(a <= p + |c| < a + n);
    }
    CStringUnique(m', p, c, CString(m', p));
  }

  /** An inline write (fewer than 16 encoded bytes) is read back by `readstring2`. */
  lemma WriteString2Inline(m: Space, a: int, s: string, alloc: int)
    requires NoNul(s)
    requires |Utf8(s)| < InlineLimit
    ensures WriteString2(m, a, s, alloc).ok ==> ReadString2(WriteString2(m, a, s, alloc).mem, a) == Latin1(Utf8(s))
    ensures a != 0 && Readable(m, a, LengthField + 4) ==> WriteString2(m, a, s, alloc).ok
  {
    var len := |Utf8(s)|;
    var w1 := WriteI32(m, a + LengthField, len);
    var w := WriteString2(m, a, s, alloc);
    if w.ok {
      var w2 := WriteString(w1.mem, a, s);
      assert w == StringWrite(w2.ok, w2.mem, NoHeap);
      ReadI32AfterWrite(m, a + LengthField, len);
      ReadI32Frame(w1.mem, w2.mem, a, len + 1, a + LengthField);
      ReadStringAfterWrite(w1.mem, a, s);
    }
    if a != 0 && Readable(m, a, LengthField + 4) {
      assert Readable(m, a + LengthField, 4);
      assert w1.ok;
      assert Readable(w1.mem, a, len + 1);
    }
  }

  /** `writestring` leaves a pointer outside its bytes unchanged. */
  lemma WriteStringFramePtr(m: Space, p: int, s: string, b: int)
    requires Disjoint(p, |Utf8(s)| + 1, b, 8)
    ensures ReadPtr(WriteString(m, p, s).mem, b) == ReadPtr(m, b)
  {
    if p != 0 {
      ReadPtrFrame(m, WriteString(m, p, s).mem, p, |Utf8(s)| + 1, b);
    }
  }

  /** `writestring` leaves a 32-bit field outside its bytes unchanged. */
  lemma WriteStringFrameI32(m: Space, p: int, s: string, b: int)
    requires Disjoint(p, |Utf8(s)| + 1, b, 4)
    ensures ReadI32(WriteString(m, p, s).mem, b) == ReadI32(m, b)
  {
    if p != 0 {
      ReadI32Frame(m, WriteString(m, p, s).mem, p, |Utf8(s)| + 1, b);
    }
  }

  /** `writestring` succeeds exactly when its address is nonzero and the bytes plus NUL are readable. */
  lemma WriteStringOk(m: Space, p: int, s: string)
    ensures WriteString(m, p, s).ok <==> p != 0 && Readable(m, p, |Utf8(s)| + 1)
  {
  }

  /** With a pointer stored at +0, the long-string branch writes through it. */
  lemma WriteIndirectShape(m: Space, a: int, s: string, alloc: int)
    requires ReadPtr(m, a) != 0
    ensures WriteIndirect(m, a, s, alloc)
      == StringWrite(WriteString(m, ReadPtr(m, a), s).ok, WriteString(m, ReadPtr(m, a), s).mem, Reused(ReadPtr(m, a)))
  {
  }

  /**
   * Writing through the pointer already stored at +0: when that block avoids
   * the slot's header, a successful write is read back through the pointer.
   */
  lemma WriteIndirectReused(m: Space, a: int, s: string, alloc: int)
    requires NoNul(s)
    requires ReadPtr(m, a) != 0
    requires Disjoint(ReadPtr(m, a), |Utf8(s)| + 1, a, 8)
    requires Disjoint(ReadPtr(m, a), |Utf8(s)| + 1, a + LengthField, 4)
    ensures WriteIndirect(m, a, s, alloc).heap == Reused(ReadPtr(m, a))
    ensures Readable(m, ReadPtr(m, a), |Utf8(s)| + 1) <==> WriteIndirect(m, a, s, alloc).ok
    ensures WriteIndirect(m, a, s, alloc).ok ==>
      && ReadPtr(WriteIndirect(m, a, s, alloc).mem, a) == ReadPtr(m, a)
      && ReadI32(WriteIndirect(m, a, s, alloc).mem, a + LengthField) == ReadI32(m, a + LengthField)
      && ReadString(WriteIndirect(m, a, s, alloc).mem, ReadPtr(m, a)) == Latin1(Utf8(s))
  {
    var ptr := ReadPtr(m, a);
    WriteIndirectShape(m, a, s, alloc);
    WriteStringOk(m, ptr, s);
    WriteStringFramePtr(m, ptr, s, a);
    WriteStringFrameI32(m, ptr, s, a + LengthField);
    if WriteString(m, ptr, s).ok {
      ReadStringAfterWrite(m, ptr, s);
    }
  }

  /** Allocating a fresh block leaves every readable 32-bit field unchanged. */
  lemma AllocateKeepsI32(m: Space, p: int, n: nat, b: int)
    requires n > 0
    requires forall k :: p <= k < p + n ==> k !in m
    requires Readable(m, b, 4)
    ensures ReadI32(Allocate(m, p, n), b) == ReadI32(m, b)
  {
    FreshDisjoint(m, p, n, b, 4);
    ReadI32Agree(m, Allocate(m, p, n), b);
  }

  /** A pointer write leaves a string it does not overlap unchanged. */
  lemma WritePtrKeepsString(m: Space, a: int, v: int, p: int)
    requires p != 0 && Disjoint(a, 8, p, |CString(m, p)| + 1)
    ensures ReadString(WritePtr(m, a, v).mem, p) == ReadString(m, p)
  {
    var w := WritePtr(m, a, v);
    if w.ok {
      ReadStringFrame(m, w.mem, a, 8, p);
    } else {
      assert w.mem == m;
    }
  }

  /** The successful allocation path: fill the new block, then store its address. */
  lemma WriteAllocatedShape(m: Space, a: int, s: string, alloc: int)
    requires alloc != 0
    ensures WriteString(Allocate(m, alloc, |Utf8(s)| + 1), alloc, s).ok
    ensures WriteAllocated(m, a, s, alloc)
      == var w2 := WriteString(Allocate(m, alloc, |Utf8(s)| + 1), alloc, s);
         var w3 := WritePtr(w2.mem, a, alloc);
         StringWrite(w3.ok, w3.mem, Allocated(alloc))
  {
    WriteStringOk(Allocate(m, alloc, |Utf8(s)| + 1), alloc, s);
  }

  /** The allocation path succeeds exactly when the slot's pointer word is writable. */
  lemma WriteAllocatedOk(m: Space, a: int, s: string, alloc: int)
    requires alloc != 0
    requires Disjoint(alloc, |Utf8(s)| + 1, a, 8)
    ensures WriteAllocated(m, a, s, alloc).ok <==> -TWO_63 <= alloc < TWO_63 && Readable(m, a, 8)
    ensures WriteAllocated(m, a, s, alloc).ok ==> WriteAllocated(m, a, s, alloc).heap == Allocated(alloc)
  {
    var n := |Utf8(s)| + 1;
    WriteAllocatedShape(m, a, s, alloc);
    var w2 := WriteString(Allocate(m, alloc, n), alloc, s);
    assert Readable(w2.mem, a, 8) <==> Readable(m, a, 8);
  }

  /** After a successful allocation path the block's address is stored at +0. */
  lemma WriteAllocatedPointer(m: Space, a: int, s: string, alloc: int)
    requires alloc != 0
    ensures WriteAllocated(m, a, s, alloc).ok ==> ReadPtr(WriteAllocated(m, a, s, alloc).mem, a) == alloc
  {
    WriteAllocatedShape(m, a, s, alloc);
    var w2 := WriteString(Allocate(m, alloc, |Utf8(s)| + 1), alloc, s);
    if WritePtr(w2.mem, a, alloc).ok {
      ReadPtrAfterWrite(w2.mem, a, alloc);
    }
  }

  /** The allocation path leaves a readable length field unchanged. */
  lemma WriteAllocatedLength(m: Space, a: int, s: string, alloc: int)
    requires alloc != 0
    requires forall k :: alloc <= k < alloc + |Utf8(s)| + 1 ==> k !in m
    requires Readable(m, a + LengthField, 4)
    ensures WriteAllocated(m, a, s, alloc).ok ==>
      ReadI32(WriteAllocated(m, a, s, alloc).mem, a + LengthField) == ReadI32(m, a + LengthField)
  {
    var n := |Utf8(s)| + 1;
    var m2 := Allocate(m, alloc, n);
    WriteAllocatedShape(m, a, s, alloc);
    var w2 := WriteString(m2, alloc, s);
    var w3 := WritePtr(w2.mem, a, alloc);
    if w3.ok {
      var v := ReadI32(m, a + LengthField);
      assert ReadI32(m2, a + LengthField) == v by {
        AllocateKeepsI32(m, alloc, n, a + LengthField);
      }
      assert ReadI32(w2.mem, a + LengthField) == v by {
        FreshDisjoint(m, alloc, n, a + LengthField, 4);
        WriteStringFrameI32(m2, alloc, s, a + LengthField);
      }
      assert ReadI32(w3.mem, a + LengthField) == v by {
        ReadI32Frame(w2.mem, w3.mem, a, 8, a + LengthField);
      }
    }
  }

  /** After a successful allocation path the block holds the text. */
  lemma WriteAllocatedText(m: Space, a: int, s: string, alloc: int)
    requires alloc != 0 && NoNul(s)
    requires Disjoint(alloc, |Utf8(s)| + 1, a, 8)
    ensures WriteAllocated(m, a, s, alloc).ok ==>
      ReadString(WriteAllocated(m, a, s, alloc).mem, alloc) == Latin1(Utf8(s))
  {
    var m2 := Allocate(m, alloc, |Utf8(s)| + 1);
    WriteAllocatedShape(m, a, s, alloc);
    var w2 := WriteString(m2, alloc, s);
    if WritePtr(w2.mem, a, alloc).ok {
      ReadStringAfterWrite(m2, alloc, s);
      WritePtrKeepsString(w2.mem, a, alloc, alloc);
    }
  }

  /** Within the long-string branch, the allocation path delegates to `WriteAllocated`. */
  lemma WriteIndirectAllocates(m: Space, a: int, s: string, alloc: int)
    requires ReadPtr(m, a) == 0 && alloc != 0
    ensures WriteIndirect(m, a, s, alloc) == WriteAllocated(m, a, s, alloc)
  {
  }

  /**
   * The allocation-failure fallback as written: the characters go inline and
   * the slot's own address is stored over their first eight bytes, yet the
   * call reports success. For an address whose low byte is zero and a value
   * of 16 to 23 encoded bytes, `readstring2` then reads back the empty string.
   */
  lemma WriteString2FallbackLosesText(m: Space, a: int, s: string)
    requires NoNul(s)
    requires 0 < a < TWO_63 && a % 256 == 0
    requires InlineLimit <= |Utf8(s)| < LengthField
    requires Readable(m, a, LengthField + 4)
    requires ReadPtr(m, a) == 0
    ensures WriteString2(m, a, s, 0).ok
    ensures WriteString2(m, a, s, 0).heap == AllocationFailed
    ensures ReadString2(WriteString2(m, a, s, 0).mem, a) == ""
    ensures Latin1(Utf8(s)) != ""
  {
    var len := |Utf8(s)|;
    var w1 := WriteI32(m, a + LengthField, len);
    assert Readable(m, a + LengthField, 4);
    ReadI32AfterWrite(m, a + LengthField, len);
    ReadPtrFrame(m, w1.mem, a + LengthField, 4, a);
    var w2 := WriteString(w1.mem, a, s);
    assert w2.ok by {
      assert |Utf8(s) + [0]| == len + 1;
      assert Readable(w1.mem, a, len + 1);
    }
    ReadI32Frame(w1.mem, w2.mem, a, len + 1, a + LengthField);
    var w3 := WritePtr(w2.mem, a, a);
    assert w3.ok;
    ReadPtrAfterWrite(w2.mem, a, a);
    ReadI32Frame(w2.mem, w3.mem, a, 8, a + LengthField);
    assert WriteString2(m, a, s, 0) == StringWrite(true, w3.mem, AllocationFailed);
    ReadAfterWriteBytes(w2.mem, a, U64Bytes(a));
    U64BytesLow(a);
    assert w3.mem[a] == 0;
    assert CString(w3.mem, a) == [];
  }

  /**
   * `writestring2` with the allocation-failure fallback replaced by a plain
   * failure: the length field has been written, nothing else is.
   */
  function WriteString2Fixed(m: Space, a: int, s: string, alloc: int): (w: StringWrite)
    ensures w.heap != AllocationFailed
  {
    var len := |Utf8(s)|;
    var w1 := WriteI32(m, a + LengthField, len);
    if a != 0 && w1.ok && len >= InlineLimit && ReadPtr(w1.mem, a) == 0 && alloc == 0 then
      StringWrite(false, w1.mem, NoHeap)
    else
      var w := WriteString2(m, a, s, alloc);
      assert w.heap == AllocationFailed ==> a != 0 && w1.ok && len >= InlineLimit && ReadPtr(w1.mem, a) == 0 && alloc == 0;
      w
  }

  /**
   * The two writers differ only in the allocation-failure fallback: for a
   * short value, a slot that already holds a block, or a successful
   * allocation, `writestring2` as written is the corrected one.
   */
  lemma WriteString2FixedAgrees(m: Space, a: int, s: string, alloc: int)
    requires |Utf8(s)| < InlineLimit || ReadPtr(m, a) != 0 || alloc != 0
    ensures WriteString2(m, a, s, alloc) == WriteString2Fixed(m, a, s, alloc)
  {
    var len := |Utf8(s)|;
    var w1 := WriteI32(m, a + LengthField, len);
    if a != 0 && w1.ok && len >= InlineLimit && alloc == 0 {
      ReadPtrFrame(m, w1.mem, a + LengthField, 4, a);
    }
  }

  /**
   * Whenever the corrected `writestring2` reports success, `readstring2`
   * reads the value back, provided a block it writes through (the stored one
   * or a fresh one) does not overlap the slot.
   */
  lemma WriteString2FixedReadBack(m: Space, a: int, s: string, alloc: int)
    requires NoNul(s)
    requires ReadPtr(m, a) != 0 ==>
      Disjoint(ReadPtr(m, a), |Utf8(s)| + 1, a, 8) && Disjoint(ReadPtr(m, a), |Utf8(s)| + 1, a + LengthField, 4)
    requires alloc != 0 ==>
      (forall k :: alloc <= k < alloc + |Utf8(s)| + 1 ==> k !in m) && Disjoint(alloc, |Utf8(s)| + 1, a, 8)
    ensures WriteString2Fixed(m, a, s, alloc).ok ==>
      ReadString2(WriteString2Fixed(m, a, s, alloc).mem, a) == Latin1(Utf8(s))
  {
    var len := |Utf8(s)|;
    var w1 := WriteI32(m, a + LengthField, len);
    var w := WriteString2Fixed(m, a, s, alloc);
    if len < InlineLimit {
      WriteString2Inline(m, a, s, alloc);
    } else if w.ok {
      assert a != 0 && w1.ok;
      ReadI32AfterWrite(m, a + LengthField, len);
      ReadPtrFrame(m, w1.mem, a + LengthField, 4, a);
      var ptr := ReadPtr(m, a);
      assert w == WriteIndirect(w1.mem, a, s, alloc);
      if ptr != 0 {
        WriteIndirectReused(w1.mem, a, s, alloc);
      } else {
        assert alloc != 0;
        WriteIndirectAllocates(w1.mem, a, s, alloc);
        WriteAllocatedPointer(w1.mem, a, s, alloc);
        WriteAllocatedLength(w1.mem, a, s, alloc);
        WriteAllocatedText(w1.mem, a, s, alloc);
      }
    }
  }
}

=== FILE: text.dfy ===
/**
 * The Python string operations the core relies on: substring search
 * (`in`), `str.split` on one separator character and its inverse `join`,
 * ASCII `lower`, `hex(n)` and `int(s, 16)`.
 */
module Text {
  import opened Wrappers

  /** sub occurs in s starting at index i. */
  predicate OccursAt(s: string, sub: string, i: int) {
    0 <= i && i + |sub| <= |s| && s[i..i + |sub|] == sub
  }

  predicate IsPrefix(p: string, s: string) {
    |p| <= |s| && s[..|p|] == p
  }

  /** `sub in s`. */
  function Contains(s: string, sub: string): (r: bool)
    ensures sub == [] ==> r
    ensures |sub| > |s| ==> !r
    decreases |s|
  {
    IsPrefix(sub, s) || (|s| > 0 && Contains(s[1..], sub))
  }

  /** The search agrees with the positional meaning of `in`. */
  lemma {:induction false} ContainsOccurs(s: string, sub: string)
    ensures Contains(s, sub) <==> exists i :: OccursAt(s, sub, i)
    decreases |s|
  {
    if |s| > 0 {
      ContainsOccurs(s[1..], sub);
    }
    if Contains(s, sub) {
      if IsPrefix(sub, s) {
        assert OccursAt(s, sub, 0);
      } else {
        var i :| OccursAt(s[1..], sub, i);
        assert s[1..][i..i + |sub|] == s[i + 1..i + 1 + |sub|];
        assert OccursAt(s, sub, i + 1);
      }
    }
    forall i | OccursAt(s, sub, i) ensures Contains(s, sub) {
      if i == 0 {
        assert s[..|sub|] == sub;
      } else {
        assert s[1..][i - 1..i - 1 + |sub|] == s[i..i + |sub|];
        assert OccursAt(s[1..], sub, i - 1);
      }
    }
  }

  /**
   * `s.split(c)`: the pieces between occurrences of c, keeping empty pieces,
   * so the result is never empty and "" splits to [""].
   */
  function Split(s: string, c: char): (r: seq<string>)
    ensures |r| >= 1
    decreases |s|
  {
    if |s| == 0 then [""]
    else
      var rest := Split(s[1..], c);
      if s[0] == c then [""] + rest else [[s[0]] + rest[0]] + rest[1..]
  }

  /** `c.join(ts)`. */
  function Join(ts: seq<string>, c: char): string
    requires |ts| >= 1
    decreases |ts|
  {
    if |ts| == 1 then ts[0] else ts[0] + [c] + Join(ts[1..], c)
  }

  /** No piece produced by a split holds the separator. */
  lemma {:induction false} SplitPiecesClean(s: string, c: char)
    ensures forall j :: 0 <= j < |Split(s, c)| ==> c !in Split(s, c)[j]
    decreases |s|
  {
    if |s| > 0 {
      SplitPiecesClean(s[1..], c);
      var rest := Split(s[1..], c);
      var r := Split(s, c);
      forall j | 0 <= j < |r| ensures c !in r[j] {
        if s[0] == c {
          if j > 0 { assert r[j] == rest[j - 1]; }
        } else {
          if j == 0 {
            assert c !in rest[0];
            assert r[0] == [s[0]] + rest[0];
          } else {
            assert r[j] == rest[j];
          }
        }
      }
    }
  }

  /** Joining the pieces of a split restores the string. */
  lemma {:induction false} JoinSplit(s: string, c: char)
    ensures Join(Split(s, c), c) == s
    decreases |s|
  {
    if |s| > 0 {
      JoinSplit(s[1..], c);
      var rest := Split(s[1..], c);
      if s[0] == c {
        assert Split(s, c)[1..] == rest;
      } else {
        var r := Split(s, c);
        if |rest| == 1 {
          assert r == [[s[0]] + rest[0]];
        } else {
          assert r[1..] == rest[1..];
          assert Join(rest, c) == rest[0] + [c] + Join(rest[1..], c);
        }
      }
    }
  }

  /** Splitting a join of separator-free pieces gives the pieces back. */
  lemma {:induction false} SplitJoin(ts: seq<string>, c: char)
    requires |ts| >= 1
    requires forall j :: 0 <= j < |ts| ==> c !in ts[j]
    ensures Split(Join(ts, c), c) == ts
    decreases |ts|, |ts[0]|
  {
    if |ts[0]| > 0 {
      var h := ts[0];
      var ts' := [h[1..]] + ts[1..];
      assert c !in h[1..] by {
        assert forall x :: x in h[1..] ==> x in h;
      }
      forall j | 0 <= j < |ts'| ensures c !in ts'[j] {
        if j > 0 { assert ts'[j] == ts[j]; }
      }
      SplitJoin(ts', c);
      var s := Join(ts, c);
      assert s[0] == h[0];
      assert s[1..] == Join(ts', c) by {
        if |ts| > 1 {
          assert ts'[1..] == ts[1..];
        }
      }
      assert h[0] != c by { assert h[0] in h; }
      assert [h[0]] + h[1..] == h;
      assert ts == [h] + ts[1..];
    } else if |ts| > 1 {
      SplitJoin(ts[1..], c);
      var s := Join(ts, c);
      assert s == [c] + Join(ts[1..], c);
      assert s[1..] == Join(ts[1..], c);
      assert ts == [""] + ts[1..];
    } else {
      assert Join(ts, c) == "";
    }
  }

  /** Joining one more piece appends the separator and that piece. */
  lemma {:induction false} JoinSnoc(ts: seq<string>, x: string, c: char)
    requires |ts| >= 1
    ensures Join(ts + [x], c) == Join(ts, c) + [c] + x
    decreases |ts|
  {
    if |ts| > 1 {
      JoinSnoc(ts[1..], x, c);
      assert (ts + [x])[1..] == ts[1..] + [x];
    }
  }

  /** `str.lower()` on ASCII letters; other characters are kept. */
  function LowerChar(x: char): (y: char)
    ensures 'A' <= x <= 'Z' ==> y as int == x as int + 32
    ensures !('A' <= x <= 'Z') ==> y == x
  {
    if 'A' <= x <= 'Z' then (x as int + 32) as char else x
  }

  function Lower(s: string): (r: string)
    ensures |r| == |s|
    ensures forall i :: 0 <= i < |s| ==> r[i] == LowerChar(s[i])
  {
    seq(|s|, i requires 0 <= i < |s| => LowerChar(s[i]))
  }

  /** Lowering twice is lowering once. */
  lemma LowerIdempotent(s: string)
    ensures Lower(Lower(s)) == Lower(s)
  {
  }

  /** A lowered string has no upper-case ASCII letter. */
  lemma LowerHasNoUpper(s: string)
    ensures forall i :: 0 <= i < |s| ==> !('A' <= Lower(s)[i] <= 'Z')
  {
  }

  /** The lower-case digit for a value below 16, as `hex` prints it. */
  function HexChar(d: nat): (x: char)
    requires d < 16
    ensures DigitValue(x) == Some(d)
  {
    if d < 10 then (48 + d) as char else (87 + d) as char
  }

  /** The value of a hexadecimal digit of either case, or None. */
  function DigitValue(x: char): (r: Option<nat>)
    ensures r.Some? ==> r.value < 16
  {
    if '0' <= x <= '9' then Some(x as int - 48)
    else if 'a' <= x <= 'f' then Some(x as int - 87)
    else if 'A' <= x <= 'F' then Some(x as int - 55)
    else None
  }

  /** Digits of n in base 16 without leading zeros ("0" for zero). */
  function HexDigits(n: nat): (r: string)
    ensures |r| >= 1
    ensures forall i :: 0 <= i < |r| ==> DigitValue(r[i]).Some?
    decreases n
  {
    if n < 16 then [HexChar(n)] else HexDigits(n / 16) + [HexChar(n % 16)]
  }

  /** `hex(n)`: "0x" then the digits, with a leading "-" for negatives. */
  function Hex(n: int): (r: string)
    ensures |r| >= 3
    ensures n >= 0 ==> r[..2] == "0x"
    ensures n < 0 ==> r[..3] == "-0x"
  {
    if n >= 0 then "0x" + HexDigits(n) else "-0x" + HexDigits(-n)
  }

  /** The value of a string of hexadecimal digits, or None if any is not a digit. */
  function DigitsValue(s: string): (r: Option<nat>)
    ensures s == [] ==> r == Some(0)
    decreases |s|
  {
    if |s| == 0 then Some(0)
    else
      match (DigitsValue(s[..|s| - 1]), DigitValue(s[|s| - 1]))
      case (Some(h), Some(d)) => Some(16 * h + d)
      case _ => None
  }

  /** The digits of n evaluate to n. */
  lemma {:induction false} HexDigitsValue(n: nat)
    ensures DigitsValue(HexDigits(n)) == Some(n)
    decreases n
  {
    var r := HexDigits(n);
    if n < 16 {
      assert r[..0] == [];
    } else {
      HexDigitsValue(n / 16);
      assert r[..|r| - 1] == HexDigits(n / 16);
    }
  }

  /** The unsigned body of `int(s, 16)`: an optional 0x/0X prefix, then at least one digit. */
  function ParseUnsigned(s: string): (r: Option<nat>)
    ensures s == [] ==> r == None
  {
    var body := if |s| >= 2 && s[0] == '0' && (s[1] == 'x' || s[1] == 'X') then s[2..] else s;
    if |body| == 0 then None else DigitsValue(body)
  }

  /** `int(s, 16)`: an optional sign, then the unsigned body; None for a ValueError. */
  function ParseHex(s: string): (r: Option<int>)
    ensures s == [] ==> r == None
  {
    if |s| >= 1 && s[0] == '-' then
      var u := ParseUnsigned(s[1..]);
      if u.Some? then Some(0 - u.value) else None
    else
      var u := ParseUnsigned(if |s| >= 1 && s[0] == '+' then s[1..] else s);
      if u.Some? then Some(u.value as int) else None
  }

  /** A "0x" prefix in front of digits is skipped, and the digits are evaluated. */
  lemma ParsePrefixed(d: string)
    requires |d| >= 1
    ensures ParseUnsigned("0x" + d) == DigitsValue(d)
  {
    assert ("0x" + d)[2..] == d;
  }

  /** A non-negative integer's hex string parses back to it. */
  lemma HexRoundTripNonNegative(n: int)
    requires n >= 0
    ensures ParseHex(Hex(n)) == Some(n)
  {
    var d := HexDigits(n);
    assert ParseUnsigned(Hex(n)) == Some(n) by {
      HexDigitsValue(n);
      ParsePrefixed(d);
    }
    assert Hex(n)[0] == '0';
  }

  /** A negative integer's hex string parses back to it through the sign branch. */
  lemma HexRoundTripNegative(n: int)
    requires n < 0
    ensures ParseHex(Hex(n)) == Some(n)
  {
    var d := HexDigits(-n);
    assert ParseUnsigned(Hex(n)[1..]) == Some(-n) by {
      HexDigitsValue(-n);
      ParsePrefixed(d);
      assert Hex(n)[1..] == "0x" + d;
    }
    assert Hex(n)[0] == '-';
  }

  /** `int(hex(n), 16) == n` for every integer. */
  lemma HexRoundTrip(n: int)
    ensures ParseHex(Hex(n)) == Some(n)
  {
    if n >= 0 {
      HexRoundTripNonNegative(n);
    } else {
      HexRoundTripNegative(n);
    }
  }
}
